=== FILE: README.md ===
# QuidLinks core, modelled in Dafny

QuidLinks is a static-site generator for an affiliate-offer directory. It reads a
spreadsheet of offers and writes one page per offer. It also writes a page
manifest, a category navbar, home-page carousels, and one page per partner
program. A few maintenance scripts repair and pad the spreadsheet, add a
disclosure banner to offer pages, and wrap their sections in cards. Under the
file, network and DOM plumbing sits a layer of small transformations on strings
and lists, plus two small UI state machines. This project models that layer as
pure Dafny functions and proves what the scripts promise about it.

A spreadsheet row is an already-parsed `map<string, string>` (`Columns.Row`). A
column missing from the row is JavaScript's `undefined`, and `row[name] || ''`
is `Columns.Field`. Strings are `seq<char>`. Two things are parameters of the
model: the Unicode emoji test (`isEmoji: char -> bool`) and `localeCompare`
(`leq`, read as `a.localeCompare(b) <= 0`).

| module | models |
|---|---|
| `JsString` | the JavaScript string methods the scripts use: `trim`, ASCII `toLowerCase`, `split` and `join` on one character, `indexOf`/`includes` |
| `LastWins` | the `index[key(x)] = x` loop, where a later element replaces an earlier one |
| `Columns` | `getColMap` and `getVal` |
| `BrandClass` | `normalizeBrandClass` |
| `Slugs` | `slugify` |
| `YouTube` | the three YouTube-id regexes and `getVideoEmbed` |
| `ListFields` | pipe lists, colon splitting, `extractEmojiAndTitle`, `miniCard` icon escaping |
| `OfferPage` | `offerTemplate`, as the values a page shows |
| `Manifest` | the File-to-folder loop, `generated_offers.json`, `csvMap`, the client manifest filters |
| `Links` | the `/pages/offers/<file>/` links |
| `Grouping` | bucketing rows by category, sorting groups and members |
| `Carousel` | the carousel sections and the client pager |
| `Navbar` | the navbar dropdowns and the client click handlers |
| `OfferVideo` | the client script that fills an offer page's video slot |
| `CsvRepair` | scripts/fix_csv_quotes.js |
| `PadCsv` | scripts/pad_offer_csv.js |
| `PartnerPages` | generate_partner_pages.js |
| `Disclosure` | the string transform of scripts/add-affiliate-disclosure.js |
| `CardWrap` | update_offer_cards.py |

Three behaviours of the code are easy to miss:
- `normalizeBrandClass` is not idempotent. `bra-nd` normalises to `brand-brand`, and that normalises to `brand-`. `BrandClass.NormalizeIdempotentIff` proves exactly when a second pass is stable.
- A whitespace-only category cell gives the category `''`, not `'Other'`.
- The navbar filter does not strip `.html` (see Findings).

## Model

| member | source | states |
|---|---|---|
| `JsString.Trim` | scripts/update_site.js:17 | the result is the input with leading and trailing JS white space removed: a slice whose ends are not white space |
| `JsString.TrimOfTrimmed` | scripts/update_site.js:17 | trimming is idempotent |
| `JsString.TrimOfPadded` | scripts/update_site.js:17 | white space around a trimmed text is exactly what `trim` removes |
| `JsString.LowerIsLower` | scripts/update_site.js:17 | lower-casing text that is already lower case changes nothing |
| `JsString.SplitOfJoin` | scripts/update_site.js:94 | `split(c)` undoes `join(c)` for parts without `c` |
| `JsString.Split` | scripts/update_site.js:94 | `split(c)` gives at least one part, no part contains `c`, and joining the parts with `c` gives back the input |
| `JsString.JoinSplitAt` | scripts/update_site.js:94 | joining a list of parts is joining its first `k` parts and the rest, with one separator between the two |
| `JsString.IndexOf` | scripts/add-affiliate-disclosure.js:37-38 | the first occurrence: it occurs there and at no earlier position, or it occurs nowhere |
| `LastWins.Index` | scripts/generate_missing_offers.js:30-32 | one entry per key, and the last element with a key is its entry |
| `LastWins.IndexIsLast` | scripts/generate_missing_offers.js:30-32 | every element's key is present, and its entry is the last later element with that key |
| `Columns.ColMapOf` | scripts/update_site.js:14-20 | the keys are the normalised headers, and for each key the last header with it is the value |
| `Columns.Field` | public/scripts/inject-carousels.js:75-78 | `row[name] or ''`: the cell when present and non-empty, otherwise `''` |
| `Columns.GetVal` | scripts/update_site.js:22-24 | `''` when the name normalises to no header; otherwise the cell of that header, or `''` when it is missing |
| `Columns.GetValAgrees` | scripts/update_site.js:22-24 | the code as written and the corrected lookup agree unless the row has a column named `undefined` |
| `Columns.GetValAsWritten` | scripts/update_site.js:22-24 | `getVal` as written; `GetValAgrees` shows it reads the same cell as the corrected lookup unless the row has a column named `undefined`, and `GetValAsWrittenReadsUndefinedColumn` that an absent column reads that `undefined` column |
| `Columns.GetValAsWrittenReadsUndefinedColumn` | scripts/update_site.js:22-24 | as written, an absent column reads the cell of a column named `undefined`; corrected, it reads `''` |
| `Columns.VariantNormalizesAlike` | scripts/update_site.js:17-23 | padding a name with white space and changing its case gives the same lookup key |
| `Columns.GetValOfVariant` | scripts/update_site.js:14-24 | any case or white-space variant of a present header reads that header's cell |
| `Columns.GetValOfAbsent` | scripts/generate_missing_offers.js:25-28 | a name that matches no header reads `''` |
| `Columns.LaterHeaderWins` | scripts/generate_missing_offers.js:15-21 | when two headers normalise alike, the later one is read |
| `BrandClass.StripBrand` | scripts/update_site.js:71 | `replace(/brand[-_]?/g, '')` never lengthens the text |
| `BrandClass.StripBrandWithoutBrand` | scripts/update_site.js:71 | text without `brand` is unchanged |
| `BrandClass.StripBrandShrinks` | scripts/update_site.js:71 | text containing `brand` gets strictly shorter |
| `BrandClass.KeepSlugChars` | scripts/update_site.js:71 | the result has only `[a-z0-9]` |
| `BrandClass.KeepSlugCharsOfSlug` | scripts/update_site.js:71 | text with only `[a-z0-9]` is unchanged |
| `BrandClass.NormalizeBrandClass` | scripts/generate_missing_offers.js:83-86 | the result starts with `brand-` and the rest is `[a-z0-9]` only |
| `BrandClass.NormalizeOfPrefixed` | scripts/update_site.js:70-72 | normalising `brand-` + an `[a-z0-9]` suffix strips `brand` from the suffix and keeps the prefix |
| `BrandClass.NormalizeIdempotentIff` | scripts/update_site.js:70-72 | normalising a class again leaves it unchanged iff its suffix contains no `brand` |
| `BrandClass.NormalizeNotIdempotentExample` | scripts/update_site.js:70-72 | `bra-nd` gives `brand-brand`, and normalising that gives `brand-` |
| `Slugs.Collapse` | generate_partner_pages.js:16 | after collapsing, only `[a-z0-9-]` remain, with no `--`; it is empty iff the input is; it starts with `-` iff the input starts outside `[a-z0-9]` |
| `Slugs.Slugify` | generate_partner_pages.js:13-18 | the result has only `[a-z0-9-]`, no `--`, and no dash at either end |
| `Slugs.SlugifyOfSlug` | generate_partner_pages.js:13-18 | a well-formed slug is its own slug |
| `Slugs.SlugifyIdempotent` | generate_partner_pages.js:13-18 | `slugify(slugify(s)) == slugify(s)` |
| `Slugs.PageFileName` | generate_partner_pages.js:100-102 | the file name is a slug followed by `.html` |
| `YouTube.IsYouTube` | generate_partner_pages.js:20-22 | `isYouTube`; `IsYouTubeIff` states it holds exactly when `youtube.com` or `youtu.be` occurs somewhere in the URL |
| `YouTube.IsYouTubeIff` | generate_partner_pages.js:20-22 | a URL is a YouTube one iff `youtube.com` or `youtu.be` occurs in it at some position |
| `YouTube.GreedyQueryV` | scripts/update_site.js:78 | the `.+\?v=` alternative captures after the last `?v=` that is followed by an id, and after no later one |
| `YouTube.SiteMatchAt` | scripts/update_site.js:78 | a match at a position starts with `youtu.be/` or `youtube.com/` and captures 11 id characters |
| `YouTube.Leftmost` | scripts/update_site.js:78 | the position `match` settles on is one where the regex matches with no match before it, and there is none only when the regex matches nowhere |
| `YouTube.Search` | scripts/update_site.js:78 | `match` fails exactly when the regex matches at no position, and otherwise captures what the leftmost match captures |
| `YouTube.SiteSearch` | scripts/update_site.js:78 | the capture is that of the leftmost match, absent only when nothing matches, and is an 11-character id of a URL that mentions YouTube |
| `YouTube.QueryVFallback` | scripts/update_site.js:80 | the `v=` fallback is at most 11 characters; it is empty when the URL has no `v=`, and otherwise sits right after the first `v=` |
| `YouTube.QueryVFallbackOf` | scripts/update_site.js:80 | the fallback is the text between the first `v=` and the next `v=` (or the end), cut to 11 characters |
| `YouTube.SiteVideoId` | scripts/update_site.js:74-82 | an empty or non-YouTube URL gives `''`; the result has at most 11 characters; when the regex matches, the id is the 11 characters captured at its leftmost match; when it matches nowhere in a YouTube URL, the id is the `v=` fallback |
| `YouTube.SiteVideoIdOfWatchUrl` | scripts/update_site.js:78-79 | a standard watch URL gives its own id |
| `YouTube.SiteVideoIdOfShortUrl` | scripts/update_site.js:78-79 | a `youtu.be/` link gives its own id |
| `YouTube.SiteSearchSkips` | scripts/update_site.js:78 | no match can start before the first `y` |
| `YouTube.SearchSkips` | scripts/update_site.js:78 | positions where the regex cannot match do not change what `match` finds |
| `YouTube.PlayerMatchAt` | public/scripts/inject-offer-video.js:19 | the client regex tried at one position captures 11 id characters when it matches; `PlayerMatchImpliesSiteMatch` shows the site regex matches there too, with the same capture |
| `YouTube.PlayerSearch` | public/scripts/inject-offer-video.js:19 | the capture is that of the leftmost match, absent only when nothing matches, and is 11 id characters |
| `YouTube.PlayerVideoId` | public/scripts/inject-offer-video.js:19-20 | the id is the 11 characters captured at the leftmost match of the player pattern; with no match the whole URL is used |
| `YouTube.PlayerVideoIdOfShortUrl` | public/scripts/inject-offer-video.js:19-20 | a `youtu.be/` link gives its own 11-character id to the player |
| `YouTube.PlayerVideoIdOfWatchUrl` | public/scripts/inject-offer-video.js:19-20 | a standard watch URL gives its own 11-character id to the player |
| `YouTube.PlayerMatchImpliesSiteMatch` | public/scripts/inject-offer-video.js:19 | wherever the client's regex matches, the site updater's matches too, with the same id |
| `YouTube.WatchOrShortSearch` | generate_partner_pages.js:30-31 | the first pattern's capture is that of its leftmost match, absent only when it matches nowhere, and is a run of id characters after `v=` or `youtu.be/` |
| `YouTube.QueryParamMatchAt` | generate_partner_pages.js:34 | a match at a position is `?` or `&`, then `v=`, then an id character |
| `YouTube.QueryParamSearch` | generate_partner_pages.js:33-35 | the fallback's capture is that of its leftmost match, absent only when it matches nowhere, and is a run of id characters after `?v=` or `&v=` |
| `YouTube.PartnerVideoId` | generate_partner_pages.js:28-37 | the id is the maximal run after the leftmost watch-or-short match; only when that pattern matches nowhere is it the run after the leftmost `?v=`/`&v=`; it is empty iff neither pattern matches |
| `YouTube.PartnerVideoIdOfWatchUrl` | generate_partner_pages.js:30-31 | a watch URL gives back its whole id, whatever non-id text follows it |
| `YouTube.PartnerEmbed` | generate_partner_pages.js:24-42 | an empty URL gives no embed; a non-YouTube URL gives a video tag of that URL; a YouTube URL gives no embed iff no id is found, and otherwise a frame of exactly the extracted id |
| `YouTube.PartnerEmbedOfWatchUrl` | generate_partner_pages.js:24-42 | a standard watch URL is embedded as a frame of its own id |
| `ListFields.NonEmpty` | scripts/update_site.js:94 | `filter(Boolean)` keeps exactly the non-empty items, each as often as it occurs, and keeps everything when none are empty |
| `ListFields.NonEmptyAppend` | scripts/update_site.js:94 | filtering a concatenation is filtering each part, in order |
| `ListFields.ListItemsOfSegments` | scripts/update_site.js:94-96 | any pipe-free segments joined by pipes give back their trimmed non-empty members, in order |
| `ListFields.ListItems` | scripts/update_site.js:94-96 | every item is non-empty, trimmed and free of the pipe character |
| `ListFields.ListItemsOfJoin` | scripts/update_site.js:94-96 | non-empty, trimmed, pipe-free items joined by the pipe character come back as themselves, in order |
| `ListFields.SplitTitle` | scripts/update_site.js:129-130 | the title is the text before the first colon; the trimmed rest, later colons included, is the description; with no colon the description is `''` |
| `ListFields.SplitTitleOfJoin` | scripts/update_site.js:129-130 | a colon-free title joined by `:` to a description splits back into the title and the trimmed description |
| `ListFields.ExtractEmojiAndTitle` | scripts/update_site.js:61-68 | the title is trimmed; the icon is the leading emoji when the pattern matches, otherwise the fallback |
| `ListFields.StepIconFallback` | scripts/update_site.js:101-131 | step `i` falls back to keycap `i+1`, and every step from the tenth on falls back to the ten symbol |
| `ListFields.ReplaceChar` | scripts/update_site.js:27 | after `replace(/c/g, t)` with `c` not in `t`, no `c` is left, and no new characters appear |
| `ListFields.SafeIcon` | scripts/update_site.js:27 | `safeIcon` has no raw `'` or `"`; an icon without them is unchanged |
| `ListFields.SafeIconRoundTrip` | scripts/generate_missing_offers.js:37 | an icon without `&` is read back exactly from its escaped form |
| `ListFields.CardOf` | scripts/update_site.js:129-132 | a mini card has a trimmed title and description and an icon with no raw quotes |
| `ListFields.CardIcon` | scripts/update_site.js:131-132 | a card's icon is the escaped leading emoji of its title, or the escaped fallback |
| `ListFields.StepCards` | scripts/update_site.js:128-133 | one card per How It Works item, in order; item `i` falls back to the `i`-th number icon |
| `ListFields.PlainCards` | scripts/update_site.js:135-140 | one card per item, in order, each with the same fallback icon |
| `OfferPage.ReferralLink` | scripts/update_site.js:93 | the link is the Referral Link cell, or `#` when it is empty |
| `OfferPage.BodyClass` | scripts/update_site.js:89-90 | the body class is `brand-` followed by `[a-z0-9]` only |
| `OfferPage.VideoIdFor` | scripts/generate_missing_offers.js:135 | the missing-offers page leaves the video slot empty; the site updater embeds the YouTube id of the cell |
| `OfferPage.Section` | scripts/update_site.js:128 | a list section is present iff it has cards, and then holds them |
| `OfferPage.OfferPageOf` | scripts/update_site.js:88-157 | the sign-up link is never empty and is the Referral Link cell when that is set; the body class is `brand-` plus a lower-case alphanumeric button class; the video id has at most 11 characters; on the site page it is the YouTube id of the YouTube Video cell, and on the page that loads the video script instead it is empty |
| `OfferPage.HowItWorksSection` | scripts/update_site.js:94-133 | How It Works is present iff its list is non-empty, with one card per item in order |
| `OfferPage.WhyChooseSection` | scripts/generate_missing_offers.js:96-141 | Why Choose is present iff its list is non-empty, with one card per item falling back to the light bulb |
| `OfferPage.FeaturesSection` | scripts/update_site.js:96-152 | Popular Features is present iff its list is non-empty, with one card per item falling back to the star |
| `OfferPage.CallsToAction` | scripts/update_site.js:123-143 | both buttons link to the referral link or `#`, with the brand class minus `brand-` as their class suffix |
| `OfferPage.OnlyReadColumnsMatter` | scripts/update_site.js:89-99 | two rows that agree on the ten columns the template reads give the same page |
| `Manifest.FileKey` | scripts/update_site.js:317 | the File key is lower case |
| `Manifest.StripHtml` | scripts/update_site.js:319 | `replace(/\.html$/i, '')` cuts exactly a trailing `.html` in any case, and nothing else |
| `Manifest.StripHtmlShape` | scripts/update_site.js:319 | what remains is a prefix of the name, five characters shorter exactly when the name ends in `.html` in any case, and lower-case when the name was |
| `Manifest.FolderName` | scripts/update_site.js:317-319 | the folder is a prefix of the File key, five characters shorter exactly when the key ends in `.html` in any case |
| `Manifest.Folders` | scripts/generate_missing_offers.js:169-182 | the manifest never has more entries than there are rows |
| `Manifest.FoldersAppend` | scripts/generate_missing_offers.js:169-182 | the manifest of a sheet is the manifests of its parts, in record order |
| `Manifest.FoldersOfOne` | scripts/generate_missing_offers.js:170-172 | a row with an empty File key is skipped; any other adds its folder name |
| `Manifest.FoldersCover` | scripts/update_site.js:316-329 | every generating row's folder is in the manifest, and every entry is some generating row's folder |
| `Manifest.FoldersOfAllGenerating` | scripts/generate_missing_offers.js:169-182 | when every row has a File key, entry `k` is row `k`'s folder, duplicates included |
| `Manifest.OutputsFollowManifest` | scripts/update_site.js:316-329 | one page is written per manifest entry, to that entry's folder, in order |
| `Manifest.WrittenPages` | scripts/update_site.js:324-325 | one file per folder, holding the page of the last row that wrote it |
| `Manifest.GenerateOffers` | scripts/generate_missing_offers.js:167-186 | an empty sheet writes nothing; otherwise the manifest is the folders in record order, `created` is its length, and the files are the last pages written |
| `Manifest.SiteUpdateRun` | scripts/update_site.js:300-332 | the site updater returns early on an empty sheet and otherwise writes the manifest of its File keys |
| `Manifest.CsvMap` | scripts/generate_missing_offers.js:30-32 | `csvMap` has one entry per File key, holding the last row with that key |
| `Manifest.CsvMapLaterRowWins` | scripts/generate_missing_offers.js:30-32 | a later row with the same File key replaces an earlier one |
| `Manifest.LowerAll` | public/scripts/inject-carousels.js:20 | the lower-cased manifest, entry by entry |
| `Manifest.InLowerAll` | public/scripts/inject-carousels.js:20-23 | a name is in the lowered manifest set iff some entry, lower-cased, is that name |
| `Manifest.CarouselKeepsStripped` | public/scripts/inject-carousels.js:22 | on the already lower-cased key, the case-sensitive `.html` removal is the any-case one |
| `Manifest.KeepsMeaning` | public/scripts/inject-carousels.js:19-24 | the carousels keep a row iff some manifest entry, ignoring case, is its trimmed File key without an `.html` ending; the intended navbar filter keeps the same rows |
| `Manifest.KeepsAsWrittenMeaning` | public/scripts/inject-navbar.js:11-16 | the navbar as written keeps a row iff some manifest entry, ignoring case, is its whole trimmed File key, ending included |
| `Manifest.FileKeyIsClientKey` | public/scripts/inject-carousels.js:22 | with the exact `File` header, the client's key is the generator's key |
| `Manifest.GeneratedRowsKept` | public/scripts/inject-carousels.js:20-24 | every row the generator wrote a page for passes the carousel filter and the corrected navbar filter |
| `Manifest.NavbarAsWrittenDropsHtmlRows` | public/scripts/inject-navbar.js:12-16 | as written, the navbar filter drops every row whose File ends in `.html` when no manifest entry does |
| `Manifest.NavbarAsWrittenCounterexample` | public/scripts/inject-navbar.js:12-16 | a one-row sheet with File `wise.html`: the carousel shows it, the navbar as written does not |
| `Links.StripLooseHtml` | public/scripts/inject-navbar.js:30 | `/.html$/i` cuts any character followed by `html` in any case, and nothing else |
| `Links.LooseCoversExact` | public/scripts/inject-navbar.js:30 | the loose pattern removes whatever `.html` removes |
| `Links.HrefAsWritten` | scripts/update_site.js:195-197 | the link is `/pages/offers/` + the loosely stripped raw File + `/` |
| `Links.HrefReachesFolder` | scripts/update_site.js:319 | the corrected link names exactly the folder the page was written to |
| `Links.HrefInjective` | scripts/update_site.js:197 | different folders get different links |
| `Links.HrefAsWrittenAgrees` | scripts/update_site.js:271-319 | a trimmed, lower-case File ending, if at all, in `.html` is linked to its own folder even as written |
| `Links.UpperCaseMissesFolder` | public/scripts/inject-carousels.js:77 | a File with an upper-case letter is linked with the upper case kept, while its page is in the lower-cased folder |
| `Links.LooseDotMissesFolder` | public/scripts/inject-navbar.js:30 | a File ending in some character other than `.` followed by `html` is linked without those five characters, while the folder keeps them |
| `Links.HrefAsWrittenMissesFolder` | public/scripts/inject-navbar.js:30 | `shopxhtml` is linked as `shop` and `Wise.html` as `Wise`, and neither link reaches its folder |
| `Grouping.Insert` | scripts/update_site.js:190 | inserting keeps every element and keeps the list sorted |
| `Grouping.SortBy` | scripts/update_site.js:190 | the sort is a permutation, and sorted under a total comparator |
| `Grouping.Distinct` | scripts/update_site.js:168 | the category names without duplicates, and with exactly the same names |
| `Grouping.Filter` | scripts/update_site.js:162-166 | a bucket holds exactly the rows of its category, with their multiplicities |
| `Grouping.Select` | public/scripts/inject-carousels.js:21-24 | `filter(keep)` holds exactly the kept rows, with their multiplicities |
| `Grouping.GroupBy` | scripts/update_site.js:161-168 | group `i` is named by the `i`-th sorted distinct category and holds the rows of that category sorted by brand; `EachRowInOneGroup` states that each row lies in exactly its category's group |
| `Grouping.GroupNames` | scripts/update_site.js:168 | the group names are distinct, exactly the rows' categories, and sorted |
| `Grouping.GroupNamesDistinctSorted` | scripts/update_site.js:221-228 | groups have distinct names in `localeCompare` order, each the category of some row |
| `Grouping.GroupMembers` | scripts/update_site.js:263 | a group holds every row of its category, as often as the records do, nothing else, sorted by brand |
| `Grouping.EachRowInOneGroup` | scripts/update_site.js:162-166 | every row is in the group of its category, and in no other |
| `Grouping.SelectedRowInItsGroup` | public/scripts/inject-carousels.js:21-31 | after the manifest filter, a kept row is in the group of its category |
| `Grouping.UnselectedRowInNoGroup` | public/scripts/inject-navbar.js:13-23 | a row the filter drops is in no group |
| `Grouping.CategoryName` | scripts/update_site.js:163 | a blank cell gives `Other`; any other cell gives the trimmed cell |
| `Grouping.SiteAndClientReadAlike` | public/scripts/inject-carousels.js:28-69 | with the exact headers, the site updater and the client file each row under the same category and brand |
| `Grouping.CategoryClass` | scripts/update_site.js:266 | the section class has no white space and is no longer than the name |
| `Grouping.CategoryClassAppend` | scripts/update_site.js:266 | white space is removed and letters lowered piece by piece: the class of `a + b` is the class of `a` followed by the class of `b` |
| `Grouping.CategoryClassOfWord` | scripts/update_site.js:266 | a name without white space is only lower-cased |
| `Grouping.CategoryClassOfSpaces` | scripts/update_site.js:266 | a name of white space only has the empty class |
| `Carousel.RenderCards` | scripts/update_site.js:268-280 | one card per member, in order; card `i` is marked visible iff `i < 2` |
| `Carousel.RenderSection` | scripts/update_site.js:281-295 | a section has the scroll buttons iff it has more than two cards |
| `Carousel.SiteCarousels` | scripts/update_site.js:219-297 | the carousels partial the site updater writes; `SectionsFollowGroups` and `SiteCardLinks` state which group each section shows and what each card links to |
| `Carousel.ClientCarousels` | public/scripts/inject-carousels.js:12-104 | the carousels the browser builds from the manifest-filtered rows; `ClientCarouselsShowKeptRows` and `ClientCardLinks` state which rows are shown and what each card links to |
| `Carousel.SectionsFollowGroups` | public/scripts/inject-carousels.js:68-104 | section `i` shows group `i`'s members in order, with scroll buttons iff there are more than two |
| `Carousel.SiteCardLinks` | scripts/update_site.js:268-276 | card `j` of section `i` shows member `j` of group `i`, with its brand and the link the script builds from the raw File cell; the corrected card links to the folder that member's page was written to |
| `Carousel.ClientCardLinks` | public/scripts/inject-carousels.js:68-84 | card `j` of section `i` shows member `j` of group `i` of the kept rows, linked from its raw File cell; the corrected card links to that member's folder |
| `Carousel.ClientCarouselsShowKeptRows` | public/scripts/inject-carousels.js:20-33 | the client shows a row iff the manifest filter keeps it, and then in its category's section |
| `Carousel.MaxVisible` | public/scripts/inject-carousels.js:117-119 | the window is 1 on a narrow viewport, otherwise `min(2, n)` |
| `Carousel.Left` | public/scripts/inject-carousels.js:139-141 | the left button decrements only when `start > 0` |
| `Carousel.Right` | public/scripts/inject-carousels.js:142-145 | the right button increments only when `start < n - maxVisible` |
| `Carousel.Step` | public/scripts/inject-carousels.js:139-145 | one chevron click; `StepKeepsRange` states it keeps `start` in range and moves it by at most one, `RightThenLeft`/`LeftThenRight` that opposite clicks undo each other |
| `Carousel.Run` | public/scripts/inject-carousels.js:116-145 | a sequence of clicks; `RunKeepsRange` states that it never leaves the range |
| `Carousel.StepKeepsRange` | public/scripts/inject-carousels.js:139-145 | a click keeps `start` in `[0, max(0, n - maxVisible)]` and moves it by at most one |
| `Carousel.RunKeepsRange` | public/scripts/inject-carousels.js:116-145 | from an in-range `start`, no sequence of clicks leaves the range |
| `Carousel.Visibility` | public/scripts/inject-carousels.js:120-130 | card `i` is visible iff `start <= i < start + maxVisible` |
| `Carousel.HiddenIffNoMove` | public/scripts/inject-carousels.js:134-135 | a button is hidden exactly when its click would not move |
| `Carousel.RightThenLeft` | public/scripts/inject-carousels.js:139-145 | when both moves are possible, right then left restores `start` |
| `Carousel.LeftThenRight` | public/scripts/inject-carousels.js:139-145 | left then right restores `start` |
| `Carousel.WindowCount` | public/scripts/inject-carousels.js:122-130 | a window `[a, b)` of flags holds `b - a` visible cards |
| `Carousel.VisibleWindow` | public/scripts/inject-carousels.js:120-130 | in range, exactly `maxVisible` consecutive cards are visible |
| `Carousel.InitialRenderAgrees` | public/scripts/inject-carousels.js:81-148 | on a wide viewport the first `update()` shows the cards the markup marked visible, and shows the right button iff there are scroll buttons |
| `Navbar.RenderCategory` | public/scripts/inject-navbar.js:29-33 | a dropdown lists one link per member, in order |
| `Navbar.CategoriesFollowGroups` | scripts/update_site.js:189-207 | dropdown `i` is named by group `i` and lists its members' links in order |
| `Navbar.SiteNavbar` | scripts/update_site.js:159-216 | the navbar partial the site updater writes; `CategoriesFollowGroups` and `SiteNavLinks` state which group each dropdown lists and what each link leads to |
| `Navbar.SiteNavLinks` | scripts/update_site.js:194-198 | link `j` of dropdown `i` is member `j` of group `i`, labelled with its brand and linked from its raw File cell; the corrected link leads to that member's folder |
| `Navbar.CorrectedLinksLead` | public/scripts/inject-navbar.js:29-33 | with corrected links, for any filter and grouping, link `j` of dropdown `i` leads to the folder of member `j` of group `i` and keeps its label |
| `Navbar.ClientNavbar` | public/scripts/inject-navbar.js:5-55 | the navbar the browser builds, as written; `ClientNavbarAsWrittenListsKeptRows` and `ClientNavLinksAsWritten` state that it lists exactly the rows whose whole File key is in the manifest, linked from the raw File cell |
| `Navbar.ClientNavLinksAsWritten` | public/scripts/inject-navbar.js:13-33 | as written, link `j` of dropdown `i` is member `j` of group `i` of the rows kept by the whole File key, linked from its raw File cell and labelled with its brand |
| `Navbar.ClientNavLinks` | public/scripts/inject-navbar.js:13-33 | in the corrected client navbar, link `j` of dropdown `i` leads to the folder of member `j` of group `i` of the rows the carousel filter keeps, labelled with its brand |
| `Navbar.ClientNavbarListsKeptRows` | public/scripts/inject-navbar.js:13-28 | the corrected client navbar lists a row iff its filter keeps it, under its category |
| `Navbar.ClientNavbarAsWrittenListsKeptRows` | public/scripts/inject-navbar.js:13-28 | the client navbar as written lists a row iff its whole File key is in the manifest, under its category |
| `Navbar.ListsKeptRows` | public/scripts/inject-navbar.js:13-28 | under any filter, a row is listed iff the filter keeps it, and then in the dropdown of its category |
| `Navbar.Handle` | public/scripts/inject-navbar.js:61-91 | a click never changes the number of dropdowns; only the hamburger changes the menu, and it flips it; a hamburger or document click closes every dropdown |
| `Navbar.HamburgerFlips` | public/scripts/inject-navbar.js:61-63 | one hamburger click toggles the menu and closes every dropdown |
| `Navbar.ClickLeavesAtMostOne` | public/scripts/inject-navbar.js:78-91 | after any click at most one dropdown is open |
| `Navbar.CategoryClick` | public/scripts/inject-navbar.js:82-86 | a category click flips its own dropdown, closes every other one, and leaves the menu alone |
| `Navbar.AtMostOneAlways` | public/scripts/inject-navbar.js:78-91 | with at most one dropdown open, every sequence of clicks keeps it that way |
| `Navbar.HamburgerTwice` | public/scripts/inject-navbar.js:61-63 | two hamburger clicks restore the menu and leave every dropdown closed |
| `Navbar.CategoryTwice` | public/scripts/inject-navbar.js:82-86 | with no other dropdown open, a second click on a button undoes the first |
| `Navbar.DocumentClickClosesAll` | public/scripts/inject-navbar.js:89-91 | a click elsewhere closes every dropdown and leaves the menu alone |
| `OfferVideo.NonSlashEnd` | public/scripts/inject-offer-video.js:4 | `[^\/]+` reaches the first `/` or the end |
| `OfferVideo.SlugMatchAt` | public/scripts/inject-offer-video.js:4 | a match is `/offers/`, a non-empty slash-free run, and a `/`; no match means no slash closes the run |
| `OfferVideo.SlugSearch` | public/scripts/inject-offer-video.js:4 | the leftmost match, with none before it |
| `OfferVideo.SlugOf` | public/scripts/inject-offer-video.js:4-6 | a slug is non-empty and slash-free, and there is one iff the pattern matches somewhere |
| `OfferVideo.SlugOfHref` | public/scripts/inject-offer-video.js:4-6 | the slug read from an offer page's link is its folder |
| `OfferVideo.FindRow` | public/scripts/inject-offer-video.js:13-15 | the first row whose folder is the slug, with none before it, or no row at all |
| `OfferVideo.FindRowFindsFirst` | public/scripts/inject-offer-video.js:13-15 | whenever row `k` is the first row for the slug, `find` returns row `k` |
| `OfferVideo.RowSlugAsWritten` | public/scripts/inject-offer-video.js:14 | the script's row key is a prefix of the raw File cell, five characters shorter exactly when the cell ends in any character and `html` in any case |
| `OfferVideo.RowSlug` | scripts/update_site.js:317-319 | the corrected row key is lower-case, a prefix of the trimmed lower-cased File, five characters shorter exactly when that ends in `.html` |
| `OfferVideo.RowVideo` | public/scripts/inject-offer-video.js:16-20 | a row yields a video iff its `YouTube Video` cell is non-empty, and then the player id of that cell |
| `OfferVideo.VideoFor` | public/scripts/inject-offer-video.js:4-20 | a video is injected iff there is a slug, a row for it and a non-empty video cell; it is that cell's player id |
| `OfferVideo.VideoToInjectAsWritten` | public/scripts/inject-offer-video.js:4-20 | as written: no slug or no row keyed by it leaves the slot empty; otherwise the first row whose loosely stripped File is the slug decides the video |
| `OfferVideo.VideoToInject` | public/scripts/inject-offer-video.js:4-20 | corrected: the same outcomes, with rows keyed by the folder their page is in |
| `OfferVideo.GeneratedPageGetsVideo` | public/scripts/inject-offer-video.js:13-20 | a page reached by its link gets the video of the first row whose page is in its folder |
| `OfferVideo.UnnamedFolderGetsNoVideo` | public/scripts/inject-offer-video.js:16 | a folder that holds no row's page keeps its empty video slot |
| `OfferVideo.RowSlugAsWrittenAgrees` | public/scripts/inject-offer-video.js:15 | for a trimmed, lower-case File, the script as written finds the row by its folder |
| `OfferVideo.VideoAsWrittenCounterexample` | public/scripts/inject-offer-video.js:13-16 | for File `Wise.html` the script as written leaves the video slot of page `wise` empty, while the corrected lookup fills it |
| `CsvRepair.SplitLines` | scripts/fix_csv_quotes.js:11 | `split(/\r?\n/)` cuts at every newline and drops a carriage return before it |
| `CsvRepair.SplitLinesOfJoin` | scripts/fix_csv_quotes.js:11-44 | lines without newlines or trailing carriage returns come back from their `join('\n')` |
| `CsvRepair.NumCols` | scripts/fix_csv_quotes.js:13 | the column count is one more than the number of commas in the header |
| `CsvRepair.NonBlank` | scripts/fix_csv_quotes.js:18 | the kept lines are non-blank data lines |
| `CsvRepair.NonBlankKeeps` | scripts/fix_csv_quotes.js:18 | a data line is skipped iff it is white space only |
| `CsvRepair.FieldsJoin` | scripts/fix_csv_quotes.js:19-32 | joining the fields with `,` gives back the row |
| `CsvRepair.FieldsOfQuoteFreeRow` | scripts/fix_csv_quotes.js:19-32 | for a row without quotes, the quote-aware split is the plain `split(',')` |
| `CsvRepair.OddIsCountParity` | scripts/fix_csv_quotes.js:21-24 | the in-quotes flag, flipped at every quote, is set exactly when an odd number of quotes has been read |
| `CsvRepair.ScanIsFields` | scripts/fix_csv_quotes.js:19-32 | the split loop's closed parts followed by its open part are the fields of the text read so far |
| `CsvRepair.SplitRow` | scripts/fix_csv_quotes.js:19-32 | the loop splits exactly at commas with an even number of quotes before them, keeping the quotes, and the parts join back to the row |
| `CsvRepair.Merge` | scripts/fix_csv_quotes.js:34-36 | with too many parts, the first `n-1` are kept and the rest joined into the last; the joined row is unchanged |
| `CsvRepair.Pad` | scripts/fix_csv_quotes.js:38 | missing fields are added empty after the kept ones |
| `CsvRepair.RepairKeepsLongRow` | scripts/fix_csv_quotes.js:34-36 | a row with too many fields loses nothing: its repaired fields join back to it |
| `CsvRepair.RepairPadsShortRow` | scripts/fix_csv_quotes.js:38 | a short row keeps its fields in order, and the rest are empty |
| `CsvRepair.UndoubleDouble` | scripts/fix_csv_quotes.js:40 | reading pairs of quotes back as one undoes the doubling |
| `CsvRepair.Quote` | scripts/fix_csv_quotes.js:40 | a written field starts and ends with a double quote; `UnquoteQuote` states that un-quoting recovers the field |
| `CsvRepair.UnquoteQuote` | scripts/fix_csv_quotes.js:40 | un-quoting a written field recovers it |
| `CsvRepair.CountDouble` | scripts/fix_csv_quotes.js:40 | a doubled field has twice the quotes |
| `CsvRepair.QuotePrefixOdd` | scripts/fix_csv_quotes.js:24-40 | inside a quoted field every comma follows an odd number of quotes, so it does not separate |
| `CsvRepair.AppendQuotedField` | scripts/fix_csv_quotes.js:40-41 | a separating comma and a quoted field add exactly that field |
| `CsvRepair.QuoteRow` | scripts/fix_csv_quotes.js:40-41 | the written line; `FieldsOfQuoteRow` states that the quote-aware split gives back exactly the quoted fields |
| `CsvRepair.FieldsOfQuoteRow` | scripts/fix_csv_quotes.js:40-41 | the quote-aware split of a written line gives back exactly the quoted fields |
| `CsvRepair.RepairRow` | scripts/fix_csv_quotes.js:34-41 | a repaired line splits into exactly `numCols` fields, and each reads back as the field written |
| `CsvRepair.RepairLine` | scripts/fix_csv_quotes.js:19-41 | one data line through the loop body: split, merge, pad, quote |
| `CsvRepair.KeepMap` | scripts/fix_csv_quotes.js:16-41 | a loop that skips the lines a test rejects appends exactly one output per kept line, in order |
| `CsvRepair.RepairLines` | scripts/fix_csv_quotes.js:16-41 | one repaired line per data line, in order, each the repair of its own line |
| `CsvRepair.KeptMappedIsRepairLines` | scripts/fix_csv_quotes.js:16-41 | skipping blank lines and repairing the others line by line gives the repaired non-blank lines |
| `CsvRepair.RepairData` | scripts/fix_csv_quotes.js:16-42 | blank data lines are skipped and every other line gives one repaired line, in order |
| `CsvRepair.FixCsv` | scripts/fix_csv_quotes.js:11-42 | the header comes first and unchanged, followed by one repaired line per non-blank data line |
| `PadCsv.Segments` | scripts/pad_offer_csv.js:17 | at least one segment; each is trimmed and free of the pipe character |
| `PadCsv.Fit` | scripts/pad_offer_csv.js:18-19 | exactly `count` segments: the first ones kept, then `''` padding |
| `PadCsv.SegmentsOfJoin` | scripts/pad_offer_csv.js:17-20 | trimmed, pipe-free segments come back from their join with space, pipe, space |
| `PadCsv.PadOrTrim` | scripts/pad_offer_csv.js:16-21 | for `count >= 1` the result splits into the input's trimmed segments padded with empty ones or cut to `count` |
| `PadCsv.PadOrTrimSegments` | scripts/pad_offer_csv.js:16-21 | the result splits at the pipe character into exactly `count` segments: the first input segments in order, then empty ones |
| `PadCsv.PadOrTrimIdempotent` | scripts/pad_offer_csv.js:16-21 | `padOrTrim(padOrTrim(s, c), c) == padOrTrim(s, c)` |
| `PadCsv.ExtraSegmentsDropped` | scripts/pad_offer_csv.js:19 | text after the `count`-th bar has no effect |
| `PadCsv.EmptyCell` | scripts/pad_offer_csv.js:17-20 | an empty cell becomes three empty segments joined by space, pipe, space, and six for a count of 6 |
| `PadCsv.PadRowWith` | scripts/pad_offer_csv.js:23-28 | the three list columns are rewritten with counts 3, 6 and 6; every other column is untouched |
| `PadCsv.PadRow` | scripts/pad_offer_csv.js:23-28 | the per-row rewrite; `PadRowCounts` states the list columns get 3, 6 and 6 segments and every other column is kept, `PadRowIdempotent` that a second run changes nothing |
| `PadCsv.PadRowCounts` | scripts/pad_offer_csv.js:23-28 | after the rewrite the list columns split into 3, 6 and 6 segments, and other columns are unchanged |
| `PadCsv.PadRowIdempotent` | scripts/pad_offer_csv.js:23-28 | running the script on its own output changes nothing |
| `PartnerPages.FirstSentence` | generate_partner_pages.js:53 | the text before the first full stop or newline is the longest prefix without a full stop or newline |
| `PartnerPages.FirstSentenceOf` | generate_partner_pages.js:53 | a sentence followed by a break has itself as first sentence |
| `PartnerPages.EscapeQuotes` | generate_partner_pages.js:53 | no raw `"` is left; quote-free text is unchanged |
| `PartnerPages.DecodeEscape` | generate_partner_pages.js:53 | text without `&` reads back exactly from its escaped form |
| `PartnerPages.MetaDescription` | generate_partner_pages.js:53 | the meta description has no raw `"` |
| `PartnerPages.MetaReadsFirstSentence` | generate_partner_pages.js:53 | for a description without `&`, the meta description reads back as its first sentence |
| `PartnerPages.Render` | generate_partner_pages.js:44-88 | the program is the Affiliate Program cell; the paragraphs are the description's lines, in order; the meta description is `MetaDescription` of the Description cell and holds no double quote; the embed is `getVideoEmbed` of the Video cell; the sign-up link is the Referral Link cell |
| `PartnerPages.FileOf` | generate_partner_pages.js:101-102 | a program is written to the slug of its name followed by `.html` |
| `PartnerPages.Outputs` | generate_partner_pages.js:100-105 | one file per distinct slug file name, holding the page of the last program with it |
| `PartnerPages.OutputNamesAreSlugs` | generate_partner_pages.js:101-102 | every output name is a slug followed by `.html` |
| `PartnerPages.LaterProgramOverwrites` | generate_partner_pages.js:100-105 | two programs with the same slug share a file, and the later one's page is written |
| `Disclosure.AddDisclosure` | scripts/add-affiliate-disclosure.js:31-53 | a page mentioning the marker, or with no container tag, is unchanged; otherwise the banner goes right after the first container tag |
| `Disclosure.BlockHasMarker` | scripts/add-affiliate-disclosure.js:39-46 | the banner contains the marker |
| `Disclosure.InsertedHasMarker` | scripts/add-affiliate-disclosure.js:31-41 | the page with the banner mentions the marker |
| `Disclosure.AddDisclosureIdempotent` | scripts/add-affiliate-disclosure.js:31-48 | running the transform twice is running it once |
| `Disclosure.InsertAt` | scripts/add-affiliate-disclosure.js:48 | the banner placed right after a container tag; `InsertKeepsRest` and `RemoveBlockRestores` state that the text before and after is kept and that removing the banner restores the page |
| `Disclosure.InsertKeepsRest` | scripts/add-affiliate-disclosure.js:48 | the output is prefix + tag + banner + suffix, and grows by exactly the banner's length |
| `Disclosure.RemoveBlockRestores` | scripts/add-affiliate-disclosure.js:48 | cutting the banner out again gives back the page |
| `Disclosure.InsertKeepsFirstTag` | scripts/add-affiliate-disclosure.js:37-48 | the first container tag is still where it was |
| `Disclosure.InsertAfterKeepsFirst` | scripts/add-affiliate-disclosure.js:37-48 | text inserted right after the first occurrence of a tag leaves that occurrence the first |
| `CardWrap.ProcessLines` | update_offer_cards.py:16-31 | the loop writes exactly the lines of the pass over the page |
| `CardWrap.ProcessLine` | update_offer_cards.py:21-31 | one loop iteration writes the lines the pass writes for that line and leaves the flag the rest of the pass starts from |
| `CardWrap.PassRender` | update_offer_cards.py:23-31 | the pass from a line writes an opening tag exactly when the line starts a card outside one, then the line, then a closing tag exactly when a card is open and the next line ends it |
| `CardWrap.Wrap` | update_offer_cards.py:17-31 | deleting the inserted tags gives back the input lines exactly; inserted tags alternate open and close, start with an open, and no card is open at the end |
| `CardWrap.Pass` | update_offer_cards.py:19-31 | the pass over the lines; `PassKeepsLines` and `PassNested` state that the original lines survive in order and the inserted tags nest |
| `CardWrap.PassKeepsLines` | update_offer_cards.py:20-31 | from any line and flag on, the pass copies the remaining input lines through unchanged and in order |
| `CardWrap.PassNested` | update_offer_cards.py:20-31 | from any line, with a card open only if a line remains, the tags the pass inserts nest and leave no card open |
| `CardWrap.ShouldWrap` | update_offer_cards.py:13-14 | `should_wrap`: a heading word occurs and no card tag; `WrapOpensBeforeHeading` states that a card is opened only before such a line |
| `CardWrap.WrapOpensBeforeHeading` | update_offer_cards.py:23-26 | an opening tag is only inserted directly before a line that `should_wrap` accepts |
| `CardWrap.WrapClosesBeforeBoundary` | update_offer_cards.py:29-31 | a closing tag follows an input line, and comes at the end, before a line that starts a card, or before a line that strips to `</div>` |
| `CardWrap.NoHeadingUnchanged` | update_offer_cards.py:13-23 | a page with no line that `should_wrap` accepts is written back unchanged |
| `CardWrap.ContainerEndWithSpaces` | update_offer_cards.py:29 | white space around `</div>` does not stop the line from closing the container |
| `CardWrap.StripSurrounded` | update_offer_cards.py:29 | `strip()` removes exactly the white space around text that does not itself start or end with white space |
| `CardWrap.LStrip` | update_offer_cards.py:29 | `lstrip` removes exactly the leading `isspace` characters |
| `CardWrap.RStrip` | update_offer_cards.py:29 | `rstrip` removes exactly the trailing `isspace` characters |

## Left out

- File, network and DOM I/O: reading and writing files, `fetch`, `process.exit`, the `innerHTML` writes, `setTimeout`, event-listener wiring and `matchMedia`. The viewport test is a parameter of `Carousel.MaxVisible`.
- CSV parsing and printing (csv-parse, csv-stringify, PapaParse). The model starts from parsed rows.
- The HTML template text, the share buttons, `encodeURIComponent`, and the colour and gradient tables. Pages are modelled by the values they show.
- The carousel's resize handler. The pager bound holds for a fixed viewport only. `Carousel.ResizeLeavesRange` shows that after a narrow-to-wide resize `start` can be past the new last window.
- The navbar's active-button and bold-link styling (public/scripts/inject-navbar.js:66-76,93-98). It changes how links look, not which ones there are.
- The Unicode emoji classes and locale-aware `localeCompare`. Both are parameters; sortedness is proved for any total comparator.
- `toLowerCase` is modelled on ASCII letters only. Other characters are kept as they are.
- `findOfferPages` in scripts/add-affiliate-disclosure.js: directory walking.
- scripts/extract_offer_data.py (HTML parsing with a foreign library), scripts/remove_white_bg_and_make_ico.py (image I/O), the root inject-navbar.js and both inject-banner.js (fetch-and-splice into the DOM). None of them is part of this model.
- `CsvRepair.FixCsv` returns the output lines; the final `join('\n')` is in `CsvRepair.SplitLinesOfJoin`.
- `PartnerPages.Render`: a row without an `Affiliate Program` cell makes the script throw in `slugify`; the model reads the missing cell as `''`.
- `PartnerPages.Render`: a row without a `Referral Link` cell (or any other cell the template interpolates directly) is printed by the script as the text `undefined`; the model reads the missing cell as `''`, so its `referral` is the empty string there rather than `undefined`.
- `YouTube.QueryVFallback` cuts the segment to 11 characters. The script's `substring(0, 11)` counts UTF-16 code units, so a segment with a character outside the Basic Multilingual Plane is cut at a different point (or through a surrogate pair). The model counts characters; lengths and positions elsewhere are also in characters.
- `OfferVideo.SlugOfHref` reads the slug from the link text. The script reads `location.pathname`, which the browser percent-encodes, so the two agree only for folders that need no encoding.
- `OfferVideo.GeneratedPageGetsVideo` reads the slug from the link as the model writes it. The browser's `location.pathname` is percent-encoded, so for a folder with a space, a non-ASCII character or another character the path must encode, the script sees the encoded slug and finds no row. The property is proved for the unencoded path only; it holds in the browser for folders that need no encoding.
- The link builders come in two forms. `Carousel.SiteCarousels`, `Carousel.ClientCarousels`, `Navbar.SiteNavbar` and `Navbar.ClientNavbar` link each row as the scripts do, from the raw File cell (`Links.HrefAsWritten`); their `*Corrected` counterparts link to the folder the row's page was written to (`Links.Href` of `Manifest.FolderName`). The lemmas state both, member by member; the findings below say where they differ.
- `PartnerPages.MetaReadsFirstSentence` is proved only for descriptions without `&`, because the script escapes `"` but not `&`.
- `Grouping.SortBy` is a stable insertion sort. Any stable sort with the same comparator gives the same order.
- `Grouping.GroupBy` treats every category name as a fresh key of `categories`. In the script, a Category cell that names a member every object inherits (`constructor`, `toString`, `__proto__`, …) finds that member instead of an empty bucket, so `categories[cat].push(row)` throws or the row is lost. The model does not cover such sheets.
- `Grouping.Distinct` lists names in order of first appearance. `Object.keys` puts integer-like keys first, in ascending order. The keys are sorted with `localeCompare` straight away, so this can matter only for two names the comparator ranks equal.

## Findings

| source | as written | input that shows it | evidently intended | confidence | as-written member | corrected member |
|---|---|---|---|---|---|---|
| scripts/update_site.js:22-24 | `row[colMap[key]]` with the key absent from the map reads `row[undefined]`, the column literally named `undefined` | a sheet with a column `undefined` holding `x`, asking for the absent column `Video` | `''` for an absent column | not executed | `Columns.GetValAsWrittenReadsUndefinedColumn` | `Columns.GetValAgrees` |
| public/scripts/inject-navbar.js:12-16 | the navbar keeps a row only when its File, with `.html` still on, is in the manifest of folder names | one row with File `wise.html`: the manifest is `["wise"]`, the carousel shows it, the navbar does not | strip `.html` as the carousel filter does | not executed | `Manifest.NavbarAsWrittenCounterexample` | `Manifest.GeneratedRowsKept` |
| public/scripts/inject-offer-video.js:13-15 | the row is looked up by its raw File with `/.html$/i` removed, not by the folder its page is in | one row with File `Wise.html` and a video: its page is `/pages/offers/wise/`, whose slug `wise` matches no row | look rows up by their folder | not executed | `OfferVideo.VideoAsWrittenCounterexample` | `OfferVideo.GeneratedPageGetsVideo` |
| public/scripts/inject-navbar.js:30 | the link is built from the raw File with `/.html$/i`, whose dot matches any character, and without trimming or lower-casing; scripts/update_site.js:195 and 271 and public/scripts/inject-carousels.js:77 build their links the same way | File `shopxhtml` is linked as `/pages/offers/shop/` and File `Wise.html` as `/pages/offers/Wise/`, while the pages are in `shopxhtml` and `wise` | link to the folder the generator wrote | not executed | `Links.HrefAsWrittenMissesFolder` | `Links.HrefReachesFolder` |

=== FILE: BrandClass.dfy ===
/** `normalizeBrandClass` (scripts/update_site.js, scripts/generate_missing_offers.js):
    lower-case the name, delete every `brand`, `brand-` and `brand_`, delete
    everything outside `[a-z0-9]`, and put `brand-` in front. */
module BrandClass {
  import opened JsString

  const Prefix: string := "brand-"

  /** `.replace(/brand[-_]?/g, '')`: a left-to-right scan that deletes each
      `brand`, together with one `-` or `_` right after it. */
  function StripBrand(s: string): (r: string)
    ensures |r| <= |s|
    decreases |s|
  {
    if |s| >= 5 && s[..5] == "brand" then
      if |s| >= 6 && (s[5] == '-' || s[5] == '_') then StripBrand(s[6..]) else StripBrand(s[5..])
    else if s == [] then []
    else [s[0]] + StripBrand(s[1..])
  }

  /** `.replace(/[^a-z0-9]/g, '')`. */
  function KeepSlugChars(s: string): (r: string)
    ensures |r| <= |s|
    ensures AllLowerAlnum(r)
    decreases |s|
  {
    if s == [] then []
    else (if IsLowerAlnum(s[0]) then [s[0]] else []) + KeepSlugChars(s[1..])
  }

  /** `normalizeBrandClass(str)`. */
  function NormalizeBrandClass(s: string): (r: string)
    ensures |r| >= |Prefix| && r[..|Prefix|] == Prefix
    ensures AllLowerAlnum(r[|Prefix|..])
  {
    var suffix := KeepSlugChars(StripBrand(Lower(s)));
    assert (Prefix + suffix)[|Prefix|..] == suffix;
    Prefix + suffix
  }

  /** The part after `brand-`. */
  function Suffix(cls: string): string
    requires |cls| >= |Prefix|
  {
    cls[|Prefix|..]
  }

  lemma {:induction false} KeepSlugCharsOfSlug(s: string)
    requires AllLowerAlnum(s)
    ensures KeepSlugChars(s) == s
    decreases |s|
  {
    if s != [] {
      KeepSlugCharsOfSlug(s[1..]);
    }
  }

  lemma {:induction false} StripBrandWithoutBrand(s: string)
    requires !Contains(s, "brand")
    ensures StripBrand(s) == s
    decreases |s|
  {
    if s != [] {
      assert !OccursAt(s, "brand", 0);
      assert !Contains(s[1..], "brand") by {
        if Contains(s[1..], "brand") {
          var j := IndexOf(s[1..], "brand").value;
          assert s[1..][j..j + 5] == s[j + 1..j + 6];
          assert OccursAt(s, "brand", j + 1);
        }
      }
      StripBrandWithoutBrand(s[1..]);
    }
  }

  /** Deleting at least one `brand` makes the string strictly shorter. */
  lemma {:induction false} StripBrandShrinks(s: string)
    requires Contains(s, "brand")
    ensures |StripBrand(s)| < |s|
    decreases |s|
  {
    var j := IndexOf(s, "brand").value;
    if |s| >= 5 && s[..5] == "brand" {
    } else {
      assert j != 0;
      assert s[1..][j - 1..j + 4] == s[j..j + 5];
      ContainsWitness(s[1..], "brand", j - 1);
      StripBrandShrinks(s[1..]);
    }
  }

  lemma NormalizeOfPrefixed(t: string)
    requires AllLowerAlnum(t)
    ensures NormalizeBrandClass(Prefix + t) == Prefix + KeepSlugChars(StripBrand(t))
  {
    var s := Prefix + t;
    assert IsLower(s);
    LowerIsLower(s);
    assert s[..5] == "brand" && s[5] == '-';
    assert s[6..] == t;
  }

  /** Normalising a class a second time leaves it alone exactly when the part
      after `brand-` contains no `brand`: `bra-nd` normalises to `brand-brand`,
      and that to `brand-`. */
  lemma NormalizeIdempotentIff(s: string)
    ensures var cls := NormalizeBrandClass(s);
            NormalizeBrandClass(cls) == cls <==> !Contains(Suffix(cls), "brand")
  {
    var cls := NormalizeBrandClass(s);
    var t := Suffix(cls);
    assert cls == Prefix + t;
    NormalizeOfPrefixed(t);
    if Contains(t, "brand") {
      StripBrandShrinks(t);
      assert |NormalizeBrandClass(cls)| < |cls|;
    } else {
      StripBrandWithoutBrand(t);
      KeepSlugCharsOfSlug(t);
    }
  }

  lemma StripBrandKeepsBraNd()
    ensures StripBrand("bra-nd") == "bra-nd"
  {
    assert StripBrand("d") == "d";
    assert StripBrand("nd") == "nd";
    assert StripBrand("-nd") == "-nd";
    assert StripBrand("a-nd") == "a-nd";
    assert "ra-nd"[..5][0] == 'r';
    assert "ra-nd"[..5] != "brand" && "ra-nd"[1..] == "a-nd";
    assert StripBrand("ra-nd") == "ra-nd";
    assert "bra-nd"[..5][3] == '-';
    assert "bra-nd"[..5] != "brand" && "bra-nd"[1..] == "ra-nd";
  }

  lemma KeepSlugCharsOfBraNd()
    ensures KeepSlugChars("bra-nd") == "brand"
  {
    assert KeepSlugChars("d") == "d";
    assert KeepSlugChars("nd") == "nd";
    assert KeepSlugChars("-nd") == "nd";
    assert KeepSlugChars("a-nd") == "and";
    assert KeepSlugChars("ra-nd") == "rand";
  }

  lemma StripBrandOfBrandBrand()
    ensures StripBrand("brand-brand") == ""
  {
    assert StripBrand("brand") == "";
    assert "brand-brand"[6..] == "brand";
  }

  /** Normalising a lower-case string, given what the two deletions leave. */
  lemma NormalizeOfLower(x: string, kept: string)
    requires IsLower(x)
    requires KeepSlugChars(StripBrand(x)) == kept
    ensures NormalizeBrandClass(x) == Prefix + kept
  {
    LowerIsLower(x);
  }

  lemma NormalizeOfBraNd(x: string)
    requires x == "bra-nd"
    ensures NormalizeBrandClass(x) == "brand-brand"
  {
    assert IsLower(x);
    StripBrandKeepsBraNd();
    KeepSlugCharsOfBraNd();
    NormalizeOfLower(x, "brand");
    PrefixOfBrand();
  }

  lemma PrefixOfBrand()
    ensures Prefix + "brand" == "brand-brand"
  {
    var r := Prefix + "brand";
    assert |r| == 11;
    forall k | 0 <= k < 11
      ensures r[k] == "brand-brand"[k]
    {
      if k < 6 {
        assert r[k] == Prefix[k];
      } else {
        assert r[k] == "brand"[k - 6];
      }
    }
  }

  lemma NormalizeOfBrandBrand(y: string)
    requires y == "brand-brand"
    ensures NormalizeBrandClass(y) == "brand-"
  {
    assert IsLower(y);
    StripBrandOfBrandBrand();
    assert KeepSlugChars("") == "";
    NormalizeOfLower(y, "");
    assert Prefix + "" == "brand-";
  }

  /** The counterexample to unconditional idempotence. */
  lemma NormalizeNotIdempotentExample()
    ensures NormalizeBrandClass("bra-nd") == "brand-brand"
    ensures NormalizeBrandClass(NormalizeBrandClass("bra-nd")) == "brand-"
  {
    NormalizeOfBraNd("bra-nd");
    NormalizeOfBrandBrand("brand-brand");
  }
}

=== FILE: CardWrap.dfy ===
/** update_offer_cards.py: one pass over an offer page's lines that wraps
    each block starting at a card heading in a `<div class="card">`.  Lines
    are the strings `readlines()` returns, line ends included; reading and
    writing the file and the directory walk are left out. */
module CardWrap {
  import opened JsString

  /** The headings that start a card block. */
  const CardHeadings: seq<string> := [
    "Earn with", "Get", "How It Works", "Why Choose", "Popular", "Features",
    "Goodybags", "Benefits", "Details", "Overview", "Summary"]

  const OpenTag: string := "<div class=\"card\""

  /** `<div class="card"[ >]` matches at `i`. */
  predicate CardTagAt(line: string, i: int) {
    OccursAt(line, OpenTag, i) && i + |OpenTag| < |line| && line[i + |OpenTag|] in {' ', '>'}
  }

  /** `should_wrap(line)`: a heading occurs in the line and no card tag does. */
  predicate ShouldWrap(line: string) {
    && (exists k :: 0 <= k < |CardHeadings| && Contains(line, CardHeadings[k]))
    && !(exists i :: 0 <= i < |line| && CardTagAt(line, i))
  }

  /** Python's `str.isspace` characters: what `strip()` removes. */
  predicate PyIsSpace(c: char) {
    || ('\t' <= c <= '\r') || ('\U{001C}' <= c <= '\U{001F}') || c == ' '
    || c == '\U{0085}' || c == '\U{00A0}' || c == '\U{1680}' || ('\U{2000}' <= c <= '\U{200A}')
    || c == '\U{2028}' || c == '\U{2029}' || c == '\U{202F}' || c == '\U{205F}' || c == '\U{3000}'
  }

  function LStrip(s: string): (r: string)
    ensures |r| <= |s| && r == s[|s| - |r|..]
    ensures forall i :: 0 <= i < |s| - |r| ==> PyIsSpace(s[i])
    ensures r == [] || !PyIsSpace(r[0])
    decreases |s|
  {
    if s != [] && PyIsSpace(s[0]) then LStrip(s[1..]) else s
  }

  function RStrip(s: string): (r: string)
    ensures |r| <= |s| && r == s[..|r|]
    ensures forall i :: |r| <= i < |s| ==> PyIsSpace(s[i])
    ensures r == [] || !PyIsSpace(r[|r| - 1])
    decreases |s|
  {
    if s != [] && PyIsSpace(s[|s| - 1]) then RStrip(s[..|s| - 1]) else s
  }

  /** `line.strip()`. */
  function Strip(s: string): string {
    RStrip(LStrip(s))
  }

  /** A line that closes the enclosing container. */
  predicate IsContainerEnd(line: string) {
    Strip(line) == "</div>"
  }

  /** An output line: an inserted opening tag, an inserted closing tag, or
      an input line copied through. */
  datatype Out = Open | Close | Orig(line: string)

  /** Whether a card closes after line `i`: it is the last line, or the next
      one starts another card or closes the container. */
  predicate ClosesAfter(lines: seq<string>, i: nat, starts: string -> bool, ends: string -> bool)
    requires i < |lines|
  {
    i + 1 == |lines| || starts(lines[i + 1]) || ends(lines[i + 1])
  }

  /** The loop of `process_file` from line `i` on, `inCard` being the flag on
      entry, for a given test of lines that start a card and lines that close
      the container. */
  function Pass(lines: seq<string>, i: nat, inCard: bool, starts: string -> bool, ends: string -> bool): seq<Out>
    requires i <= |lines|
    decreases |lines| - i
  {
    if i == |lines| then []
    else
      var opens := starts(lines[i]) && !inCard;
      var open := inCard || opens;
      var closes := open && ClosesAfter(lines, i, starts, ends);
      (if opens then [Open] else []) + [Orig(lines[i])] + (if closes then [Close] else [])
        + Pass(lines, i + 1, open && !closes, starts, ends)
  }

  /** The script's pass over a page: deleting the inserted tags gives back
      the input lines exactly, and the tags open and close cards in
      alternation, starting with an open, with none left open at the end. */
  function Wrap(lines: seq<string>): (out: seq<Out>)
    ensures Originals(out) == lines
    ensures Nested(out, false)
  {
    PassKeepsLines(lines, 0, false, ShouldWrap, IsContainerEnd);
    PassNested(lines, 0, false, ShouldWrap, IsContainerEnd);
    Pass(lines, 0, false, ShouldWrap, IsContainerEnd)
  }

  /** The text of the output lines. */
  function Render(out: seq<Out>): (text: seq<string>)
    ensures |text| == |out|
  {
    seq(|out|, k requires 0 <= k < |out| =>
      match out[k]
      case Open => OpenLine
      case Close => CloseLine
      case Orig(line) => line)
  }

  lemma RenderAppend(a: seq<Out>, b: seq<Out>)
    ensures Render(a + b) == Render(a) + Render(b)
  {
  }

  /** `process_file` on the lines of a page. */
  method ProcessLines(lines: seq<string>) returns (newLines: seq<string>)
    ensures newLines == Render(Wrap(lines))
  {
    newLines := [];
    var inCard := false;
    var i := 0;
    while i < |lines|
      invariant 0 <= i <= |lines|
      invariant newLines + Render(Pass(lines, i, inCard, ShouldWrap, IsContainerEnd)) == Render(Wrap(lines))
    {
      var emitted, next := ProcessLine(lines, i, inCard, ShouldWrap, IsContainerEnd);
      newLines := newLines + emitted;
      inCard := next;
      i := i + 1;
    }
  }

  const OpenLine: string := "<div class=\"card\">\n"
  const CloseLine: string := "</div>\n"

  /** The text one line gives: an optional opening tag, the line, an
      optional closing tag. */
  function LineText(opens: bool, line: string, closes: bool): seq<string> {
    (if opens then [OpenLine] else []) + [line] + (if closes then [CloseLine] else [])
  }

  /** The pass from line `i` writes that line's text, then the pass from the
      next line with the flag the line leaves. */
  lemma PassRender(lines: seq<string>, i: nat, inCard: bool, starts: string -> bool, ends: string -> bool)
    requires i < |lines|
    ensures var opens := starts(lines[i]) && !inCard;
            var open := inCard || opens;
            var closes := open && ClosesAfter(lines, i, starts, ends);
            Render(Pass(lines, i, inCard, starts, ends))
              == LineText(opens, lines[i], closes) + Render(Pass(lines, i + 1, open && !closes, starts, ends))
  {
    var opens := starts(lines[i]) && !inCard;
    var open := inCard || opens;
    var closes := open && ClosesAfter(lines, i, starts, ends);
    var chunk := (if opens then [Open] else []) + [Orig(lines[i])] + (if closes then [Close] else []);
    var after := Pass(lines, i + 1, open && !closes, starts, ends);
    RenderAppend(chunk, after);
    assert Render(chunk) == LineText(opens, lines[i], closes);
  }

  /** The loop body for line `i`, for the given line tests: the lines it
      appends and the flag it leaves. */
  method ProcessLine(lines: seq<string>, i: nat, inCard: bool, starts: string -> bool, ends: string -> bool)
    returns (emitted: seq<string>, next: bool)
    requires i < |lines|
    ensures Render(Pass(lines, i, inCard, starts, ends)) == emitted + Render(Pass(lines, i + 1, next, starts, ends))
  {
    var line := lines[i];
    var opens := starts(line) && !inCard;
    var open := inCard || opens;
    var closes := open && (i + 1 == |lines| || starts(lines[i + 1]) || ends(lines[i + 1]));
    emitted := LineText(opens, line, closes);
    next := open && !closes;
    PassRender(lines, i, inCard, starts, ends);
  }

  // ---------------------------------------------------------------------------
  // Properties of the pass
  // ---------------------------------------------------------------------------

  /** The input lines among the output, in order. */
  function Originals(out: seq<Out>): seq<string>
    decreases |out|
  {
    if out == [] then []
    else (if out[0].Orig? then [out[0].line] else []) + Originals(out[1..])
  }

  lemma {:induction false} OriginalsAppend(a: seq<Out>, b: seq<Out>)
    ensures Originals(a + b) == Originals(a) + Originals(b)
    decreases |a|
  {
    if a == [] {
      assert a + b == b;
    } else {
      assert (a + b)[0] == a[0];
      assert (a + b)[1..] == a[1..] + b;
      OriginalsAppend(a[1..], b);
    }
  }

  /** The output of one line: an optional opening tag, the line, an optional
      closing tag. */
  lemma OneLineOriginals(opens: bool, line: string, closes: bool)
    ensures Originals((if opens then [Open] else []) + [Orig(line)] + (if closes then [Close] else [])) == [line]
  {
    var pre: seq<Out> := if opens then [Open] else [];
    var post: seq<Out> := if closes then [Close] else [];
    OriginalsAppend(pre + [Orig(line)], post);
    OriginalsAppend(pre, [Orig(line)]);
    assert Originals([Orig(line)]) == [line];
  }

  lemma {:induction false} PassKeepsLines(lines: seq<string>, i: nat, inCard: bool, starts: string -> bool, ends: string -> bool)
    requires i <= |lines|
    ensures Originals(Pass(lines, i, inCard, starts, ends)) == lines[i..]
    decreases |lines| - i
  {
    if i < |lines| {
      var opens := starts(lines[i]) && !inCard;
      var open := inCard || opens;
      var closes := open && ClosesAfter(lines, i, starts, ends);
      var chunk := (if opens then [Open] else []) + [Orig(lines[i])] + (if closes then [Close] else []);
      var rest := Pass(lines, i + 1, open && !closes, starts, ends);
      PassKeepsLines(lines, i + 1, open && !closes, starts, ends);
      OriginalsAppend(chunk, rest);
      OneLineOriginals(opens, lines[i], closes);
      assert lines[i..] == [lines[i]] + lines[i + 1..];
    }
  }

  /** The inserted tags nest: every opening tag comes when no card is open,
      every closing tag when one is, and none is left open at the end. */
  predicate Nested(out: seq<Out>, inCard: bool)
    decreases |out|
  {
    if out == [] then !inCard
    else match out[0]
      case Open => !inCard && Nested(out[1..], true)
      case Close => inCard && Nested(out[1..], false)
      case Orig(_) => Nested(out[1..], inCard)
  }

  lemma NestedCons(x: Out, rest: seq<Out>, inCard: bool)
    ensures Nested([x] + rest, inCard) ==
            match x
            case Open => !inCard && Nested(rest, true)
            case Close => inCard && Nested(rest, false)
            case Orig(_) => Nested(rest, inCard)
  {
    assert ([x] + rest)[1..] == rest;
  }

  lemma {:induction false} PassNested(lines: seq<string>, i: nat, inCard: bool, starts: string -> bool, ends: string -> bool)
    requires i <= |lines|
    requires inCard ==> i < |lines|
    ensures Nested(Pass(lines, i, inCard, starts, ends), inCard)
    decreases |lines| - i
  {
    if i < |lines| {
      var opens := starts(lines[i]) && !inCard;
      var open := inCard || opens;
      var closes := open && ClosesAfter(lines, i, starts, ends);
      var next := open && !closes;
      var rest := Pass(lines, i + 1, next, starts, ends);
      PassNested(lines, i + 1, next, starts, ends);
      var tail: seq<Out> := (if closes then [Close] else []) + rest;
      if closes {
        NestedCons(Close, rest, open);
      } else {
        assert tail == rest;
      }
      NestedCons(Orig(lines[i]), tail, open);
      var body := [Orig(lines[i])] + tail;
      PassStep(lines, i, inCard, starts, ends);
      if opens {
        NestedCons(Open, body, inCard);
      }
    }
  }

  /** One step of the pass, with the pieces grouped from the right. */
  lemma PassStep(lines: seq<string>, i: nat, inCard: bool, starts: string -> bool, ends: string -> bool)
    requires i < |lines|
    ensures var opens := starts(lines[i]) && !inCard;
            var open := inCard || opens;
            var closes := open && ClosesAfter(lines, i, starts, ends);
            var body := [Orig(lines[i])] + ((if closes then [Close] else []) + Pass(lines, i + 1, open && !closes, starts, ends));
            Pass(lines, i, inCard, starts, ends) == if opens then [Open] + body else body
  {
    var opens := starts(lines[i]) && !inCard;
    var open := inCard || opens;
    var closes := open && ClosesAfter(lines, i, starts, ends);
    var o: seq<Out> := if opens then [Open] else [];
    var c: seq<Out> := if closes then [Close] else [];
    var rest := Pass(lines, i + 1, open && !closes, starts, ends);
    assert Pass(lines, i, inCard, starts, ends) == o + [Orig(lines[i])] + c + rest;
    assert o + [Orig(lines[i])] + c + rest == o + ([Orig(lines[i])] + (c + rest));
  }

  /** An opening tag is always directly followed by a line that starts a card. */
  predicate OpensBeforeStart(out: seq<Out>, starts: string -> bool) {
    forall k :: 0 <= k < |out| && out[k].Open? ==>
      k + 1 < |out| && out[k + 1].Orig? && starts(out[k + 1].line)
  }

  lemma OpensBeforeStartAppend(a: seq<Out>, b: seq<Out>, starts: string -> bool)
    requires OpensBeforeStart(a, starts) && OpensBeforeStart(b, starts)
    ensures OpensBeforeStart(a + b, starts)
  {
    forall k | 0 <= k < |a + b| && (a + b)[k].Open?
      ensures k + 1 < |a + b| && (a + b)[k + 1].Orig? && starts((a + b)[k + 1].line)
    {
      if k < |a| {
        assert (a + b)[k + 1] == a[k + 1];
      } else {
        assert (a + b)[k] == b[k - |a|];
        assert (a + b)[k + 1] == b[k + 1 - |a|];
      }
    }
  }

  lemma {:induction false} PassOpensBeforeStart(lines: seq<string>, i: nat, inCard: bool, starts: string -> bool, ends: string -> bool)
    requires i <= |lines|
    ensures OpensBeforeStart(Pass(lines, i, inCard, starts, ends), starts)
    decreases |lines| - i
  {
    if i < |lines| {
      var opens := starts(lines[i]) && !inCard;
      var open := inCard || opens;
      var closes := open && ClosesAfter(lines, i, starts, ends);
      var pre: seq<Out> := (if opens then [Open] else []) + [Orig(lines[i])];
      var post: seq<Out> := if closes then [Close] else [];
      var rest := Pass(lines, i + 1, open && !closes, starts, ends);
      PassOpensBeforeStart(lines, i + 1, open && !closes, starts, ends);
      OpensBeforeStartAppend(pre, post, starts);
      OpensBeforeStartAppend(pre + post, rest, starts);
    }
  }

  /** An opening tag is only ever inserted directly before a line
      `should_wrap` accepts. */
  lemma WrapOpensBeforeHeading(lines: seq<string>)
    ensures OpensBeforeStart(Wrap(lines), ShouldWrap)
  {
    PassOpensBeforeStart(lines, 0, false, ShouldWrap, IsContainerEnd);
  }

  /** The first output of the pass from line `j` with no card open. */
  lemma PassStart(lines: seq<string>, j: nat, starts: string -> bool, ends: string -> bool)
    requires j < |lines|
    ensures Pass(lines, j, false, starts, ends)[0] == if starts(lines[j]) then Open else Orig(lines[j])
  {
  }

  /** A closing tag comes right after an input line and is followed by the
      end of the output, an opening tag, or a line that closes the container. */
  predicate ClosesBeforeBoundary(out: seq<Out>, ends: string -> bool) {
    forall k :: 0 <= k < |out| && out[k].Close? ==>
      && k > 0 && out[k - 1].Orig?
      && (k + 1 == |out| || out[k + 1].Open? || (out[k + 1].Orig? && ends(out[k + 1].line)))
  }

  lemma {:induction false} PassClosesBeforeBoundary(lines: seq<string>, i: nat, inCard: bool, starts: string -> bool, ends: string -> bool)
    requires i <= |lines|
    ensures ClosesBeforeBoundary(Pass(lines, i, inCard, starts, ends), ends)
    decreases |lines| - i
  {
    if i < |lines| {
      var opens := starts(lines[i]) && !inCard;
      var open := inCard || opens;
      var closes := open && ClosesAfter(lines, i, starts, ends);
      var next := open && !closes;
      var pre: seq<Out> := (if opens then [Open] else []) + [Orig(lines[i])];
      var post: seq<Out> := if closes then [Close] else [];
      var rest := Pass(lines, i + 1, next, starts, ends);
      PassClosesBeforeBoundary(lines, i + 1, next, starts, ends);
      if closes && i + 1 < |lines| {
        PassStart(lines, i + 1, starts, ends);
      }
      ClosesJoin(pre, post, rest, closes, ends);
    }
  }

  /** Joining one line's output to the rest keeps the closing-tag property,
      given what the rest starts with. */
  lemma ClosesJoin(pre: seq<Out>, post: seq<Out>, rest: seq<Out>, closes: bool, ends: string -> bool)
    requires |pre| >= 1 && pre[|pre| - 1].Orig? && forall k :: 0 <= k < |pre| ==> !pre[k].Close?
    requires post == if closes then [Close] else []
    requires ClosesBeforeBoundary(rest, ends)
    requires closes ==> rest == [] || rest[0].Open? || (rest[0].Orig? && ends(rest[0].line))
    ensures ClosesBeforeBoundary(pre + post + rest, ends)
  {
    var out := pre + post + rest;
    assert forall j :: 0 <= j < |pre| ==> out[j] == pre[j];
    forall k | 0 <= k < |out| && out[k].Close?
      ensures k > 0 && out[k - 1].Orig?
      ensures k + 1 == |out| || out[k + 1].Open? || (out[k + 1].Orig? && ends(out[k + 1].line))
    {
      if k < |pre| + |post| {
        assert k == |pre| && out[k - 1] == pre[|pre| - 1];
        if k + 1 < |out| {
          assert out[k + 1] == rest[0];
        }
      } else {
        var m := k - |pre| - |post|;
        assert out[k] == rest[m];
        assert out[k - 1] == rest[m - 1];
        if m + 1 < |rest| {
          assert out[k + 1] == rest[m + 1];
        }
      }
    }
  }

  /** A closing tag is only ever inserted after the last line, before a line
      that starts another card (so before its opening tag), or before a line
      that closes the container. */
  lemma WrapClosesBeforeBoundary(lines: seq<string>)
    ensures ClosesBeforeBoundary(Wrap(lines), IsContainerEnd)
  {
    PassClosesBeforeBoundary(lines, 0, false, ShouldWrap, IsContainerEnd);
  }

  lemma {:induction false} PassWithoutStarts(lines: seq<string>, i: nat, starts: string -> bool, ends: string -> bool)
    requires i <= |lines|
    requires forall k :: 0 <= k < |lines| ==> !starts(lines[k])
    ensures Render(Pass(lines, i, false, starts, ends)) == lines[i..]
    decreases |lines| - i
  {
    if i < |lines| {
      var rest := Pass(lines, i + 1, false, starts, ends);
      PassWithoutStarts(lines, i + 1, starts, ends);
      assert Pass(lines, i, false, starts, ends) == [Orig(lines[i])] + rest;
      RenderAppend([Orig(lines[i])], rest);
      assert lines[i..] == [lines[i]] + lines[i + 1..];
    }
  }

  /** A page with no line that `should_wrap` accepts is written back unchanged. */
  lemma NoHeadingUnchanged(lines: seq<string>)
    requires forall k :: 0 <= k < |lines| ==> !ShouldWrap(lines[k])
    ensures Render(Wrap(lines)) == lines
  {
    PassWithoutStarts(lines, 0, ShouldWrap, IsContainerEnd);
  }

  /** Surrounding white space does not stop a line from closing the container. */
  lemma ContainerEndWithSpaces(a: string, b: string, line: string)
    requires forall i :: 0 <= i < |a| ==> PyIsSpace(a[i])
    requires forall i :: 0 <= i < |b| ==> PyIsSpace(b[i])
    requires line == a + "</div>" + b
    ensures IsContainerEnd(line)
  {
    StripSurrounded(a, "</div>", b);
  }

  /** `strip()` removes exactly the white space around text that neither
      starts nor ends with white space. */
  lemma StripSurrounded(a: string, x: string, b: string)
    requires forall i :: 0 <= i < |a| ==> PyIsSpace(a[i])
    requires forall i :: 0 <= i < |b| ==> PyIsSpace(b[i])
    requires x != [] && !PyIsSpace(x[0]) && !PyIsSpace(x[|x| - 1])
    ensures Strip(a + x + b) == x
  {
    LStripSpacePrefix(a, x + b);
    assert a + x + b == a + (x + b);
    RStripSpaceSuffix(x, b);
  }

  lemma {:induction false} LStripSpacePrefix(a: string, x: string)
    requires forall i :: 0 <= i < |a| ==> PyIsSpace(a[i])
    requires x == [] || !PyIsSpace(x[0])
    ensures LStrip(a + x) == x
    decreases |a|
  {
    if a != [] {
      assert (a + x)[1..] == a[1..] + x;
      LStripSpacePrefix(a[1..], x);
    } else {
      assert a + x == x;
    }
  }

  lemma {:induction false} RStripSpaceSuffix(x: string, b: string)
    requires forall i :: 0 <= i < |b| ==> PyIsSpace(b[i])
    requires x == [] || !PyIsSpace(x[|x| - 1])
    ensures RStrip(x + b) == x
    decreases |b|
  {
    if b != [] {
      assert (x + b)[..|x + b| - 1] == x + b[..|b| - 1];
      RStripSpaceSuffix(x, b[..|b| - 1]);
    } else {
      assert x + b == x;
    }
  }
}

=== FILE: Carousel.dfy ===
/** The home-page carousels: one section per category with a card per offer
    (`buildCarousels` in scripts/update_site.js and the builder in
    public/scripts/inject-carousels.js), and the client pager that scrolls a
    section's cards.  Colours, gradients and markup are left out; a card is
    the values it shows. */
module Carousel {
  import opened JsString
  import opened Columns
  import BrandClass
  import Grouping
  import Links
  import Manifest

  // ---------------------------------------------------------------------------
  // Rendering
  // ---------------------------------------------------------------------------

  /** What a card shows: brand, subheadline, link and brand class. */
  datatype CardView = CardView(brand: string, subheadline: string, href: string, brandClass: string)

  /** A card with the class it is first rendered with. */
  datatype Card = Card(view: CardView, visible: bool)

  /** A category section: its name, its CSS class, its cards and whether it
      has the two scroll buttons. */
  datatype Section = Section(name: string, cls: string, cards: seq<Card>, chevrons: bool)

  /** The site updater's card as the script writes it: cells through the
      column map, the brand class normalised, the link from the raw File cell. */
  function SiteCardView(cm: ColMap): Row -> CardView {
    row => CardView(GetVal(row, "Brand", cm), GetVal(row, "Subheadline", cm),
                    Links.HrefAsWritten(GetVal(row, "File", cm)),
                    BrandClass.NormalizeBrandClass(GetVal(row, "Brand Class", cm)))
  }

  /** The client's card as the script writes it: cells by their exact header,
      the brand class raw, the link from the raw File cell. */
  function ClientCardView(row: Row): CardView {
    CardView(Field(row, "Brand"), Field(row, "Subheadline"),
             Links.HrefAsWritten(Field(row, "File")), Field(row, "Brand Class"))
  }

  /** A card view corrected to link to the folder its row's page is in. */
  function Corrected(view: Row -> CardView, key: Row -> string): Row -> CardView {
    row => view(row).(href := Links.Href(Manifest.FolderName(row, key)))
  }

  /** The cards of one group, in member order; the first two are marked
      visible and the rest hidden. */
  function RenderCards(members: seq<Row>, view: Row -> CardView): (cards: seq<Card>)
    ensures |cards| == |members|
    ensures forall i :: 0 <= i < |cards| ==> cards[i].view == view(members[i])
    ensures forall i :: 0 <= i < |cards| ==> (cards[i].visible <==> i < 2)
  {
    seq(|members|, i requires 0 <= i < |members| => Card(view(members[i]), i < 2))
  }

  /** One section; the scroll buttons are there only for more than two cards. */
  function RenderSection(g: Grouping.Group, view: Row -> CardView): (s: Section)
    ensures s.name == g.name && s.cls == Grouping.CategoryClass(g.name)
    ensures s.cards == RenderCards(g.members, view)
    ensures s.chevrons <==> |s.cards| > 2
  {
    Section(g.name, Grouping.CategoryClass(g.name), RenderCards(g.members, view), |g.members| > 2)
  }

  /** One section per group, in group order. */
  function RenderGroups(gs: seq<Grouping.Group>, view: Row -> CardView): (ss: seq<Section>)
    ensures |ss| == |gs|
    ensures forall i :: 0 <= i < |ss| ==> ss[i] == RenderSection(gs[i], view)
  {
    seq(|gs|, i requires 0 <= i < |gs| => RenderSection(gs[i], view))
  }

  /** All sections, one per category in sorted order. */
  function RenderCarousels(rows: seq<Row>, cat: Row -> string, brand: Row -> string,
                           leq: (string, string) -> bool, view: Row -> CardView): (ss: seq<Section>)
    ensures |ss| == |Grouping.GroupBy(rows, cat, brand, leq)|
    ensures forall i :: 0 <= i < |ss| ==> ss[i] == RenderSection(Grouping.GroupBy(rows, cat, brand, leq)[i], view)
  {
    RenderGroups(Grouping.GroupBy(rows, cat, brand, leq), view)
  }

  /** `buildCarousels(records, colMap)`, as written. */
  function SiteCarousels(rows: seq<Row>, cm: ColMap, leq: (string, string) -> bool): seq<Section> {
    RenderCarousels(rows, Grouping.SiteCategory(cm), Grouping.SiteBrand(cm), leq, SiteCardView(cm))
  }

  /** The site carousels with every card linking to its row's folder. */
  function SiteCarouselsCorrected(rows: seq<Row>, cm: ColMap, leq: (string, string) -> bool): seq<Section> {
    RenderCarousels(rows, Grouping.SiteCategory(cm), Grouping.SiteBrand(cm), leq,
                    Corrected(SiteCardView(cm), Manifest.FileKeyOf(cm)))
  }

  /** The rows the client builder keeps: those the manifest names. */
  function ClientKept(manifest: seq<string>, rows: seq<Row>): seq<Row> {
    Grouping.Select(rows, row => Manifest.CarouselKeeps(manifest, row))
  }

  /** The client builder, as written: the kept rows in the same layout. */
  function ClientCarousels(manifest: seq<string>, rows: seq<Row>, leq: (string, string) -> bool): seq<Section> {
    RenderCarousels(ClientKept(manifest, rows), Grouping.ClientCategory, Grouping.ClientBrand, leq, ClientCardView)
  }

  /** The client carousels with every card linking to its row's folder. */
  function ClientCarouselsCorrected(manifest: seq<string>, rows: seq<Row>, leq: (string, string) -> bool): seq<Section> {
    RenderCarousels(ClientKept(manifest, rows), Grouping.ClientCategory, Grouping.ClientBrand, leq,
                    Corrected(ClientCardView, Manifest.ClientFileKey))
  }

  /** Card `j` of section `i` of the site carousels shows member `j` of group
      `i`, linked as the script writes it from the raw File cell; corrected,
      the same card links to the folder that member's page was written to. */
  lemma SiteCardLinks(rows: seq<Row>, cm: ColMap, leq: (string, string) -> bool, i: int, j: int)
    requires 0 <= i < |SiteCarousels(rows, cm, leq)| && 0 <= j < |SiteCarousels(rows, cm, leq)[i].cards|
    ensures var g := Grouping.GroupBy(rows, Grouping.SiteCategory(cm), Grouping.SiteBrand(cm), leq)[i];
            && j < |g.members|
            && SiteCarousels(rows, cm, leq)[i].cards[j].view.href == Links.HrefAsWritten(GetVal(g.members[j], "File", cm))
            && SiteCarousels(rows, cm, leq)[i].cards[j].view.brand == GetVal(g.members[j], "Brand", cm)
            && |SiteCarouselsCorrected(rows, cm, leq)| == |SiteCarousels(rows, cm, leq)|
            && j < |SiteCarouselsCorrected(rows, cm, leq)[i].cards|
            && SiteCarouselsCorrected(rows, cm, leq)[i].cards[j].view.href
               == Links.Href(Manifest.FolderName(g.members[j], Manifest.FileKeyOf(cm)))
            && Links.LinkedFolder(SiteCarouselsCorrected(rows, cm, leq)[i].cards[j].view.href)
               == Manifest.FolderName(g.members[j], Manifest.FileKeyOf(cm))
  {
    var cat, brand := Grouping.SiteCategory(cm), Grouping.SiteBrand(cm);
    SectionsFollowGroups(rows, cat, brand, leq, SiteCardView(cm), i);
    SectionsFollowGroups(rows, cat, brand, leq, Corrected(SiteCardView(cm), Manifest.FileKeyOf(cm)), i);
  }

  /** Card `j` of section `i` of the client carousels shows member `j` of
      group `i` of the kept rows, linked from its raw File cell; corrected,
      the same card links to that member's folder. */
  lemma ClientCardLinks(manifest: seq<string>, rows: seq<Row>, leq: (string, string) -> bool, i: int, j: int)
    requires 0 <= i < |ClientCarousels(manifest, rows, leq)| && 0 <= j < |ClientCarousels(manifest, rows, leq)[i].cards|
    ensures var g := Grouping.GroupBy(ClientKept(manifest, rows), Grouping.ClientCategory, Grouping.ClientBrand, leq)[i];
            && j < |g.members|
            && ClientCarousels(manifest, rows, leq)[i].cards[j].view.href == Links.HrefAsWritten(Field(g.members[j], "File"))
            && |ClientCarouselsCorrected(manifest, rows, leq)| == |ClientCarousels(manifest, rows, leq)|
            && j < |ClientCarouselsCorrected(manifest, rows, leq)[i].cards|
            && ClientCarouselsCorrected(manifest, rows, leq)[i].cards[j].view.href
               == Links.Href(Manifest.FolderName(g.members[j], Manifest.ClientFileKey))
            && Links.LinkedFolder(ClientCarouselsCorrected(manifest, rows, leq)[i].cards[j].view.href)
               == Manifest.FolderName(g.members[j], Manifest.ClientFileKey)
  {
    var kept := ClientKept(manifest, rows);
    SectionsFollowGroups(kept, Grouping.ClientCategory, Grouping.ClientBrand, leq, ClientCardView, i);
    SectionsFollowGroups(kept, Grouping.ClientCategory, Grouping.ClientBrand, leq,
                         Corrected(ClientCardView, Manifest.ClientFileKey), i);
  }

  /** The client shows a row iff the manifest names it, then in the section
      of its category. */
  lemma ClientCarouselsShowKeptRows(manifest: seq<string>, rows: seq<Row>, leq: (string, string) -> bool, k: int)
    requires 0 <= k < |rows|
    ensures var kept := Grouping.Select(rows, row => Manifest.CarouselKeeps(manifest, row));
            var gs := Grouping.GroupBy(kept, Grouping.ClientCategory, Grouping.ClientBrand, leq);
            Manifest.CarouselKeeps(manifest, rows[k]) <==>
              exists j :: 0 <= j < |gs| && gs[j].name == Grouping.ClientCategory(rows[k]) && rows[k] in gs[j].members
  {
    var keep := row => Manifest.CarouselKeeps(manifest, row);
    if keep(rows[k]) {
      Grouping.SelectedRowInItsGroup(rows, keep, Grouping.ClientCategory, Grouping.ClientBrand, leq, k);
    } else {
      Grouping.UnselectedRowInNoGroup(rows, keep, Grouping.ClientCategory, Grouping.ClientBrand, leq, rows[k]);
    }
  }

  /** The cards of section `i` show the members of group `i`, in order, and
      the section has scroll buttons iff the group has more than two. */
  lemma SectionsFollowGroups(rows: seq<Row>, cat: Row -> string, brand: Row -> string,
                             leq: (string, string) -> bool, view: Row -> CardView, i: int)
    requires 0 <= i < |RenderCarousels(rows, cat, brand, leq, view)|
    ensures var g := Grouping.GroupBy(rows, cat, brand, leq)[i];
            var s := RenderCarousels(rows, cat, brand, leq, view)[i];
            && s.name == g.name
            && |s.cards| == |g.members|
            && (forall j :: 0 <= j < |s.cards| ==> s.cards[j].view == view(g.members[j]))
            && (s.chevrons <==> |g.members| > 2)
  {
    var g := Grouping.GroupBy(rows, cat, brand, leq)[i];
    var s := RenderCarousels(rows, cat, brand, leq, view)[i];
    assert s == RenderSection(g, view);
  }

  // ---------------------------------------------------------------------------
  // The pager (public/scripts/inject-carousels.js, per section)
  // ---------------------------------------------------------------------------

  /** `getMaxVisible()`: one card on a narrow viewport, otherwise two or
      fewer when there are fewer cards.  The media query is a parameter. */
  function MaxVisible(narrow: bool, n: nat): (mv: nat)
    ensures mv <= 2
    ensures !narrow ==> mv <= n
    ensures mv == 0 <==> !narrow && n == 0
  {
    if narrow then 1 else if n < 2 then n else 2
  }

  /** The largest first-visible index: `n - maxVisible`, or 0 when negative. */
  function LastStart(n: nat, mv: nat): nat {
    if n >= mv then n - mv else 0
  }

  /** The pager invariant for a fixed viewport. */
  predicate InRange(start: int, n: nat, mv: nat) {
    0 <= start <= LastStart(n, mv)
  }

  /** The left button's handler. */
  function Left(start: int): (r: int)
    ensures start > 0 ==> r == start - 1
    ensures start <= 0 ==> r == start
  {
    if start > 0 then start - 1 else start
  }

  /** The right button's handler. */
  function Right(start: int, n: nat, mv: nat): (r: int)
    ensures start < n - mv ==> r == start + 1
    ensures start >= n - mv ==> r == start
  {
    if start < n - mv then start + 1 else start
  }

  datatype Click = LeftClick | RightClick

  function Step(start: int, n: nat, mv: nat, c: Click): int {
    match c
    case LeftClick => Left(start)
    case RightClick => Right(start, n, mv)
  }

  /** The first-visible index after a sequence of clicks. */
  function Run(start: int, n: nat, mv: nat, clicks: seq<Click>): int
    decreases |clicks|
  {
    if clicks == [] then start else Run(Step(start, n, mv, clicks[0]), n, mv, clicks[1..])
  }

  /** A click moves by at most one card and keeps the invariant. */
  lemma StepKeepsRange(start: int, n: nat, mv: nat, c: Click)
    requires InRange(start, n, mv)
    ensures InRange(Step(start, n, mv, c), n, mv)
    ensures -1 <= Step(start, n, mv, c) - start <= 1
  {
  }

  /** From the initial index 0, no sequence of clicks leaves the range. */
  lemma {:induction false} RunKeepsRange(start: int, n: nat, mv: nat, clicks: seq<Click>)
    requires InRange(start, n, mv)
    ensures InRange(Run(start, n, mv, clicks), n, mv)
    decreases |clicks|
  {
    if clicks != [] {
      StepKeepsRange(start, n, mv, clicks[0]);
      RunKeepsRange(Step(start, n, mv, clicks[0]), n, mv, clicks[1..]);
    }
  }

  /** `update()`: card `i` is visible iff it is in the window. */
  function Visibility(start: int, mv: nat, n: nat): (flags: seq<bool>)
    ensures |flags| == n
    ensures forall i :: 0 <= i < n ==> (flags[i] <==> start <= i < start + mv)
  {
    seq(n, i requires 0 <= i < n => start <= i < start + mv)
  }

  /** The left button is hidden at the first card, the right one at the last
      window. */
  predicate LeftHidden(start: int) {
    start == 0
  }

  predicate RightHidden(start: int, n: nat, mv: nat) {
    start >= n - mv
  }

  /** In range, a button is hidden exactly when its click would do nothing. */
  lemma HiddenIffNoMove(start: int, n: nat, mv: nat)
    requires InRange(start, n, mv)
    ensures LeftHidden(start) <==> Left(start) == start
    ensures RightHidden(start, n, mv) <==> Right(start, n, mv) == start
  {
  }

  /** When both moves are possible, right then left, or left then right,
      returns to the same window. */
  lemma RightThenLeft(start: int, n: nat, mv: nat)
    requires InRange(start, n, mv) && start < n - mv
    ensures Left(Right(start, n, mv)) == start
  {
  }

  lemma LeftThenRight(start: int, n: nat, mv: nat)
    requires InRange(start, n, mv) && start > 0
    ensures Right(Left(start), n, mv) == start
  {
  }

  /** Number of visible cards. */
  function CountVisible(flags: seq<bool>): nat
    decreases |flags|
  {
    if flags == [] then 0
    else CountVisible(flags[..|flags| - 1]) + (if flags[|flags| - 1] then 1 else 0)
  }

  /** A window `[a, b)` of flags holds `b - a` visible cards. */
  lemma {:induction false} WindowCount(flags: seq<bool>, a: nat, b: nat)
    requires a <= b <= |flags|
    requires forall i :: 0 <= i < |flags| ==> (flags[i] <==> a <= i < b)
    ensures CountVisible(flags) == b - a
    decreases |flags|
  {
    if flags != [] {
      var m := |flags| - 1;
      var init := flags[..m];
      var a' := if a < m then a else m;
      var b' := if b < m then b else m;
      WindowCount(init, a', b');
    }
  }

  /** In range, with at least as many cards as the window, exactly
      `maxVisible` consecutive cards are visible. */
  lemma VisibleWindow(start: int, n: nat, mv: nat)
    requires InRange(start, n, mv) && mv <= n
    ensures CountVisible(Visibility(start, mv, n)) == mv
  {
    WindowCount(Visibility(start, mv, n), start, start + mv);
  }

  /** On a wide viewport the first `update()` shows the same cards the markup
      marked visible, and shows the right button exactly when the markup has
      the scroll buttons. */
  lemma InitialRenderAgrees(g: Grouping.Group, view: Row -> CardView)
    ensures var s := RenderSection(g, view);
            var n := |s.cards|;
            var mv := MaxVisible(false, n);
            && (forall i :: 0 <= i < n ==> (Visibility(0, mv, n)[i] <==> s.cards[i].visible))
            && LeftHidden(0)
            && (s.chevrons <==> !RightHidden(0, n, mv))
  {
  }

  /** The range is kept for a fixed viewport only: the last window on a
      narrow screen is past the last window on a wide one. */
  lemma ResizeLeavesRange(n: nat)
    requires n >= 3
    ensures InRange(LastStart(n, MaxVisible(true, n)), n, MaxVisible(true, n))
    ensures !InRange(LastStart(n, MaxVisible(true, n)), n, MaxVisible(false, n))
  {
  }
}

=== FILE: Columns.dfy ===
/** Column lookup (`getColMap` / `getVal` in scripts/update_site.js and
    scripts/generate_missing_offers.js).  A row is an already-parsed record,
    column name to cell text; a column missing from the row is JavaScript's
    `undefined`. */
module Columns {
  import opened JsString
  import LastWins

  type Row = map<string, string>

  /** Normalised column name to the header as it appears in the rows. */
  type ColMap = map<string, string>

  /** The key both headers and requested names are looked up by. */
  function Normalize(name: string): string {
    Lower(Trim(name))
  }

  /** `getColMap(headers)`: every header under its normalised name; when two
      headers normalise alike the later one wins. */
  function ColMapOf(headers: seq<string>): (m: ColMap)
    ensures m.Keys == set h | h in headers :: Normalize(h)
    ensures forall k :: 0 <= k < |headers| && LastWins.IsLast(headers, Normalize, k) ==>
              m[Normalize(headers[k])] == headers[k]
  {
    LastWins.Index(headers, Normalize)
  }

  /** `row[name] || ''`: a cell read by its exact column name. */
  function Field(row: Row, name: string): (v: string)
    ensures v != "" ==> name in row && v == row[name]
    ensures name in row ==> v == row[name]
  {
    if name in row then row[name] else ""
  }

  /** `getVal(row, col, colMap)` as the scripts define it: when the requested
      name is not in the column map, `colMap[...]` is `undefined` and
      `row[undefined]` reads the column whose name is the string "undefined". */
  function GetValAsWritten(row: Row, col: string, cm: ColMap): string {
    var header := if Normalize(col) in cm then cm[Normalize(col)] else "undefined";
    Field(row, header)
  }

  /** `getVal` as intended: the cell of the header the requested name
      normalises to, and "" when no header does or the cell is empty. */
  function GetVal(row: Row, col: string, cm: ColMap): (v: string)
    ensures Normalize(col) !in cm ==> v == ""
    ensures v != "" ==> Normalize(col) in cm && cm[Normalize(col)] in row && v == row[cm[Normalize(col)]]
    ensures Normalize(col) in cm && cm[Normalize(col)] in row ==> v == row[cm[Normalize(col)]]
  {
    if Normalize(col) in cm then Field(row, cm[Normalize(col)]) else ""
  }

  /** The two agree except when a column is literally named "undefined". */
  lemma GetValAgrees(row: Row, col: string, cm: ColMap)
    requires "undefined" !in row || Normalize(col) in cm
    ensures GetValAsWritten(row, col, cm) == GetVal(row, col, cm)
  {
  }

  /** The discrepancy: with a column named "undefined", asking for any absent
      column returns that column's cell instead of "". */
  lemma GetValAsWrittenReadsUndefinedColumn(headers: seq<string>, row: Row, col: string)
    requires "undefined" in row && row["undefined"] != ""
    requires Normalize(col) !in ColMapOf(headers)
    ensures GetValAsWritten(row, col, ColMapOf(headers)) == row["undefined"]
    ensures GetVal(row, col, ColMapOf(headers)) == ""
  {
  }

  /** Padding a name with white space and changing the case of its letters
      yields a name that looks up the same column. */
  lemma VariantNormalizesAlike(a: string, x: string, b: string, header: string)
    requires AllSpace(a) && AllSpace(b) && IsTrimmed(x)
    requires Lower(x) == Lower(Trim(header))
    ensures Normalize(a + x + b) == Normalize(header)
  {
    TrimOfPadded(a, x, b);
  }

  /** `getVal` with any case or white-space variant of a present header reads
      that header's cell (or "" when the cell is empty or missing). */
  lemma GetValOfVariant(headers: seq<string>, k: int, row: Row, col: string)
    requires 0 <= k < |headers| && LastWins.IsLast(headers, Normalize, k)
    requires Normalize(col) == Normalize(headers[k])
    ensures GetVal(row, col, ColMapOf(headers)) == Field(row, headers[k])
  {
  }

  /** A requested name that matches no header reads as "". */
  lemma GetValOfAbsent(headers: seq<string>, row: Row, col: string)
    requires forall h :: h in headers ==> Normalize(h) != Normalize(col)
    ensures GetVal(row, col, ColMapOf(headers)) == ""
  {
  }

  /** When two headers normalise alike, the later one is the one read. */
  lemma LaterHeaderWins(headers: seq<string>, i: int, j: int, row: Row)
    requires 0 <= i < j < |headers| && LastWins.IsLast(headers, Normalize, j)
    requires Normalize(headers[i]) == Normalize(headers[j])
    ensures GetVal(row, headers[i], ColMapOf(headers)) == Field(row, headers[j])
  {
  }
}

=== FILE: CsvRepair.dfy ===
/** scripts/fix_csv_quotes.js: a line-based repair of the offers spreadsheet.
    The file is cut into lines, the first line is kept as the header, and
    every other non-blank line is split on the commas that are outside
    double quotes (the quote characters stay in the fields), brought to the
    header's number of fields, and written back with every field quoted and
    every inner quote doubled, as section 2 item 7 of RFC 4180 prescribes.
    Reading and writing the files is left out. */
module CsvRepair {
  import opened JsString

  // ---------------------------------------------------------------------------
  // Lines
  // ---------------------------------------------------------------------------

  /** A carriage return ending a line before its newline is dropped. */
  function DropCR(s: string): (r: string)
    ensures |s| > 0 && s[|s| - 1] == '\r' ==> r == s[..|s| - 1]
    ensures !(|s| > 0 && s[|s| - 1] == '\r') ==> r == s
  {
    if |s| > 0 && s[|s| - 1] == '\r' then s[..|s| - 1] else s
  }

  /** `content.split(/\r?\n/)`: cut at every newline, each newline taking
      the carriage return just before it along. */
  function SplitLines(content: string): (lines: seq<string>)
    ensures |lines| == |Split(content, '\n')| >= 1
    ensures forall k :: 0 <= k < |lines| - 1 ==> lines[k] == DropCR(Split(content, '\n')[k])
    ensures lines[|lines| - 1] == Split(content, '\n')[|lines| - 1]
  {
    var ps := Split(content, '\n');
    seq(|ps|, k requires 0 <= k < |ps| => if k < |ps| - 1 then DropCR(ps[k]) else ps[k])
  }

  /** Lines without newlines and not ending in a carriage return come back
      from their join, whether the file uses LF line ends or not. */
  lemma SplitLinesOfJoin(lines: seq<string>)
    requires |lines| >= 1
    requires forall k :: 0 <= k < |lines| ==> '\n' !in lines[k]
    requires forall k :: 0 <= k < |lines| - 1 ==> !(|lines[k]| > 0 && lines[k][|lines[k]| - 1] == '\r')
    ensures SplitLines(Join(lines, "\n")) == lines
  {
    SplitOfJoin(lines, '\n');
  }

  /** The number of fields of a line as `split(',')` counts them. */
  function NumCols(header: string): (n: nat)
    ensures n >= 1
    ensures n == Count(header, ',') + 1
  {
    SplitCount(header, ',');
    |Split(header, ',')|
  }

  lemma {:induction false} SplitCount(s: string, sep: char)
    ensures |Split(s, sep)| == Count(s, sep) + 1
    decreases |s|
  {
    if s != [] {
      SplitCount(s[1..], sep);
      assert s == [s[0]] + s[1..];
      CountAppend([s[0]], s[1..], sep);
      assert Count([s[0]], sep) == if s[0] == sep then 1 else 0 by {
        assert [s[0]][..0] == [];
      }
    }
  }

  /** `!row.trim()`: a line of white space only. */
  predicate Blank(line: string) {
    Trim(line) == ""
  }

  /** The data lines the loop does not skip, in order. */
  function NonBlank(lines: seq<string>): (r: seq<string>)
    ensures |r| <= |lines|
    ensures forall k :: 0 <= k < |r| ==> !Blank(r[k]) && r[k] in lines
    decreases |lines|
  {
    if lines == [] then []
    else
      var init := NonBlank(lines[..|lines| - 1]);
      var last := lines[|lines| - 1];
      if Blank(last) then init else init + [last]
  }

  /** A data line is skipped exactly when it is blank. */
  lemma {:induction false} NonBlankKeeps(lines: seq<string>, x: string)
    requires x in lines
    ensures x in NonBlank(lines) <==> !Blank(x)
    decreases |lines|
  {
    var init := lines[..|lines| - 1];
    if x in init {
      NonBlankKeeps(init, x);
    } else {
      assert x == lines[|lines| - 1];
    }
  }

  // ---------------------------------------------------------------------------
  // The quote-aware split
  // ---------------------------------------------------------------------------

  /** An odd number of quote characters: after reading `s`, the split is
      inside a quoted section. */
  predicate Odd(s: string)
    decreases |s|
  {
    s != [] && (Odd(s[..|s| - 1]) != (s[|s| - 1] == '"'))
  }

  /** The parity is the count of quotes modulo two. */
  lemma {:induction false} OddIsCountParity(s: string)
    ensures Odd(s) <==> Count(s, '"') % 2 == 1
    decreases |s|
  {
    if s != [] {
      OddIsCountParity(s[..|s| - 1]);
    }
  }

  /** The parity of a concatenation. */
  lemma {:induction false} OddAppend(s: string, t: string)
    ensures Odd(s + t) == (Odd(s) != Odd(t))
    decreases |t|
  {
    if t == [] {
      assert s + t == s;
    } else {
      var t' := t[..|t| - 1];
      OddAppend(s, t');
      assert (s + t)[..|s + t| - 1] == s + t';
    }
  }

  /** One character is odd exactly when it is a quote. */
  lemma OddOfChar(c: char)
    ensures Odd([c]) == (c == '"')
  {
    assert [c][..0] == [];
  }

  /** Text without quote characters is even. */
  lemma {:induction false} NoQuotesEven(s: string)
    requires '"' !in s
    ensures !Odd(s)
    decreases |s|
  {
    if s != [] {
      assert forall x :: x in s[..|s| - 1] ==> x in s;
      NoQuotesEven(s[..|s| - 1]);
    }
  }

  /** Position `j` of `row` is a separating comma: a comma with an even number
      of quote characters before it. */
  predicate Separator(row: string, j: int)
    requires 0 <= j < |row|
  {
    row[j] == ',' && !Odd(row[..j])
  }

  /** The fields of `row`, defined from the left: every separating comma
      closes a field and opens the next, every other character is appended to
      the current field. */
  function Fields(row: string): (parts: seq<string>)
    ensures |parts| >= 1
    decreases |row|
  {
    if row == [] then [""]
    else
      var j := |row| - 1;
      var init := Fields(row[..j]);
      if Separator(row, j) then init + [""]
      else init[..|init| - 1] + [init[|init| - 1] + [row[j]]]
  }

  lemma JoinExtendLast(parts: seq<string>, c: char, sep: string)
    requires |parts| >= 1
    ensures Join(parts[..|parts| - 1] + [parts[|parts| - 1] + [c]], sep) == Join(parts, sep) + [c]
  {
    var n := |parts| - 1;
    if n == 0 {
      assert parts[..n] + [parts[n] + [c]] == [parts[0] + [c]];
    } else {
      var init := parts[..n];
      JoinAppend(init, parts[n] + [c], sep);
      JoinAppend(init, parts[n], sep);
      assert init + [parts[n]] == parts;
    }
  }

  /** Joining the fields with commas gives the row back. */
  lemma {:induction false} FieldsJoin(row: string)
    ensures Join(Fields(row), ",") == row
    decreases |row|
  {
    if row != [] {
      var j := |row| - 1;
      var init := Fields(row[..j]);
      FieldsJoin(row[..j]);
      if Separator(row, j) {
        JoinAppend(init, "", ",");
      } else {
        JoinExtendLast(init, row[j], ",");
      }
      assert row[..j] + [row[j]] == row;
    }
  }

  /** Without quote characters, every comma separates. */
  lemma {:induction false} FieldsWithoutQuotes(row: string)
    requires '"' !in row
    ensures forall k :: 0 <= k < |Fields(row)| ==> ',' !in Fields(row)[k]
    decreases |row|
  {
    if row != [] {
      var j := |row| - 1;
      assert forall x :: x in row[..j] ==> x in row;
      FieldsWithoutQuotes(row[..j]);
      NoQuotesEven(row[..j]);
    }
  }

  /** For a row without quote characters the quote-aware split is the plain
      `split(',')`. */
  lemma FieldsOfQuoteFreeRow(row: string)
    requires '"' !in row
    ensures Fields(row) == Split(row, ',')
  {
    FieldsJoin(row);
    FieldsWithoutQuotes(row);
    SplitOfJoin(Fields(row), ',');
  }

  /** Appending a character to the last of the fields `parts + [current]`. */
  lemma ExtendLast(parts: seq<string>, current: string, c: char)
    ensures var init := parts + [current];
            init[..|init| - 1] + [init[|init| - 1] + [c]] == parts + [current + [c]]
  {
    var init := parts + [current];
    assert init[..|init| - 1] == parts;
  }

  /** The state of the split loop: the closed fields, the open one, and
      whether the last quote opened a quoted section. */
  datatype ScanState = ScanState(parts: seq<string>, current: string, inQuotes: bool)

  /** One character of the loop: a quote flips the in-quotes state, a comma
      outside quotes closes the current field, anything else is appended. */
  function ScanStep(st: ScanState, c: char): ScanState {
    var q := if c == '"' then !st.inQuotes else st.inQuotes;
    if c == ',' && !q then ScanState(st.parts + [st.current], "", q)
    else ScanState(st.parts, st.current + [c], q)
  }

  /** The loop state after reading `s`. */
  function Scan(s: string): ScanState
    decreases |s|
  {
    if s == [] then ScanState([], "", false) else ScanStep(Scan(s[..|s| - 1]), s[|s| - 1])
  }

  /** The loop is in quotes exactly after an odd number of quote characters. */
  lemma {:induction false} ScanQuotes(s: string)
    ensures Scan(s).inQuotes == Odd(s)
    decreases |s|
  {
    if s != [] {
      ScanQuotes(s[..|s| - 1]);
    }
  }

  /** One step of the loop extends the fields the way `Fields` does, given
      the parity of the quotes read so far. */
  lemma ScanStepFields(st: ScanState, c: char, odd: bool, init: seq<string>)
    requires init == st.parts + [st.current] && st.inQuotes == odd
    ensures var t := ScanStep(st, c);
            t.parts + [t.current]
            == if c == ',' && !odd then init + [""] else init[..|init| - 1] + [init[|init| - 1] + [c]]
  {
    ExtendLast(st.parts, st.current, c);
  }

  /** The loop state after reading `s` holds the fields of `s`. */
  lemma {:induction false} ScanIsFields(s: string)
    ensures Scan(s).parts + [Scan(s).current] == Fields(s)
    decreases |s|
  {
    if s != [] {
      var init := s[..|s| - 1];
      ScanIsFields(init);
      ScanQuotes(init);
      ScanStepFields(Scan(init), s[|s| - 1], Odd(init), Fields(init));
    }
  }

  /** The loop of scripts/fix_csv_quotes.js: a quote flips the in-quotes
      state, a comma outside quotes closes the current field. */
  method SplitRow(row: string) returns (parts: seq<string>)
    ensures parts == Fields(row)
    ensures Join(parts, ",") == row
  {
    parts := [];
    var current := "";
    var inQuotes := false;
    var j := 0;
    while j < |row|
      invariant 0 <= j <= |row|
      invariant ScanState(parts, current, inQuotes) == Scan(row[..j])
    {
      var c := row[j];
      assert row[..j + 1][..j] == row[..j];
      if c == '"' {
        inQuotes := !inQuotes;
      }
      if c == ',' && !inQuotes {
        parts := parts + [current];
        current := "";
      } else {
        current := current + [c];
      }
      j := j + 1;
    }
    assert row[..j] == row;
    ScanIsFields(row);
    parts := parts + [current];
    FieldsJoin(row);
  }

  // ---------------------------------------------------------------------------
  // Fitting to the header and quoting
  // ---------------------------------------------------------------------------

  /** Extra fields are joined with commas into the last one. */
  function Merge(parts: seq<string>, n: nat): (r: seq<string>)
    requires n >= 1 && |parts| >= 1
    ensures |r| == if |parts| > n then n else |parts|
    ensures |parts| <= n ==> r == parts
    ensures |parts| > n ==> r[..n - 1] == parts[..n - 1] && r[n - 1] == Join(parts[n - 1..], ",")
    ensures Join(r, ",") == Join(parts, ",")
  {
    if |parts| > n then
      MergeJoin(parts, n);
      parts[..n - 1] + [Join(parts[n - 1..], ",")]
    else parts
  }

  lemma MergeJoin(parts: seq<string>, n: nat)
    requires 1 <= n < |parts|
    ensures Join(parts[..n - 1] + [Join(parts[n - 1..], ",")], ",") == Join(parts, ",")
  {
    if n > 1 {
      JoinSplitAt(parts, n - 1, ",");
      JoinAppend(parts[..n - 1], Join(parts[n - 1..], ","), ",");
    } else {
      assert parts[n - 1..] == parts;
      assert parts[..n - 1] + [Join(parts, ",")] == [Join(parts, ",")];
    }
  }

  /** Missing fields are added empty. */
  function Pad(parts: seq<string>, n: nat): (r: seq<string>)
    ensures |r| == if |parts| < n then n else |parts|
    ensures r[..|parts|] == parts
    ensures forall k :: |parts| <= k < |r| ==> r[k] == ""
    decreases n - |parts|
  {
    if |parts| < n then Pad(parts + [""], n) else parts
  }

  /** The fields written for a data row. */
  function RepairFields(row: string, n: nat): (fields: seq<string>)
    requires n >= 1
    ensures |fields| == n
  {
    Pad(Merge(Fields(row), n), n)
  }

  /** Too many fields: nothing of the row is lost, the extra fields end up
      in the last one. */
  lemma RepairKeepsLongRow(row: string, n: nat)
    requires n >= 1 && |Fields(row)| >= n
    ensures Join(RepairFields(row, n), ",") == row
    ensures RepairFields(row, n)[..n - 1] == Fields(row)[..n - 1]
  {
    FieldsJoin(row);
  }

  /** Too few fields: they are kept in order and the rest are empty. */
  lemma RepairPadsShortRow(row: string, n: nat)
    requires n >= 1 && |Fields(row)| <= n
    ensures RepairFields(row, n)[..|Fields(row)|] == Fields(row)
    ensures forall k :: |Fields(row)| <= k < n ==> RepairFields(row, n)[k] == ""
  {
  }

  /** `f.replace(/"/g, '""')`. */
  function Double(f: string): (r: string)
    ensures |r| == |f| + Count(f, '"')
    decreases |f|
  {
    if f == [] then []
    else
      var init := f[..|f| - 1];
      var c := f[|f| - 1];
      Double(init) + (if c == '"' then "\"\"" else [c])
  }

  /** `'"' + f.replace(/"/g, '""') + '"'`. */
  function Quote(f: string): (q: string)
    ensures |q| >= 2 && q[0] == '"' && q[|q| - 1] == '"'
  {
    "\"" + Double(f) + "\""
  }

  /** Reading a doubled field back: a pair of quotes is one quote. */
  function Undouble(s: string): string
    decreases |s|
  {
    if s == [] then []
    else if |s| >= 2 && s[|s| - 2] == '"' && s[|s| - 1] == '"' then Undouble(s[..|s| - 2]) + "\""
    else Undouble(s[..|s| - 1]) + [s[|s| - 1]]
  }

  /** Reading a quoted field back. */
  function Unquote(q: string): string {
    if |q| >= 2 && q[0] == '"' && q[|q| - 1] == '"' then Undouble(q[1..|q| - 1]) else q
  }

  /** Every quote in a doubled field is one of a pair, so the field can be
      read back. */
  lemma {:induction false} UndoubleDouble(f: string)
    ensures Undouble(Double(f)) == f
    decreases |f|
  {
    if f != [] {
      var init := f[..|f| - 1];
      var c := f[|f| - 1];
      UndoubleDouble(init);
      var d := Double(init);
      if c == '"' {
        assert Double(f) == d + "\"\"";
        assert (d + "\"\"")[..|d|] == d;
      } else {
        assert Double(f) == d + [c];
        assert (d + [c])[..|d|] == d;
        UndoubleLastNotPair(d, c);
      }
      assert init + [c] == f;
    }
  }

  lemma UndoubleLastNotPair(d: string, c: char)
    requires c != '"'
    ensures Undouble(d + [c]) == Undouble(d) + [c]
  {
    var s := d + [c];
    assert s[|s| - 1] == c;
    assert s[..|s| - 1] == d;
  }

  /** Un-quoting a written field recovers it. */
  lemma UnquoteQuote(f: string)
    ensures Unquote(Quote(f)) == f
  {
    var q := Quote(f);
    assert q[1..|q| - 1] == Double(f);
    UndoubleDouble(f);
  }

  /** `parts.map(f => '"' + ... + '"')`. */
  function QuoteAll(fields: seq<string>): (qs: seq<string>)
    ensures |qs| == |fields| && forall k :: 0 <= k < |fields| ==> qs[k] == Quote(fields[k])
  {
    seq(|fields|, k requires 0 <= k < |fields| => Quote(fields[k]))
  }

  /** `quoted.join(',')` of the quoted fields. */
  function QuoteRow(fields: seq<string>): string {
    Join(QuoteAll(fields), ",")
  }

  // ---------------------------------------------------------------------------
  // Reading a repaired line back
  // ---------------------------------------------------------------------------

  /** A doubled field holds twice the quotes of the field. */
  lemma {:induction false} CountDouble(f: string)
    ensures Count(Double(f), '"') == 2 * Count(f, '"')
    decreases |f|
  {
    if f != [] {
      var init := f[..|f| - 1];
      var c := f[|f| - 1];
      CountDouble(init);
      var tail: string := if c == '"' then "\"\"" else [c];
      CountAppend(Double(init), tail, '"');
      CountTail(c, tail);
      assert f[..|f| - 1] == init;
    }
  }

  lemma CountTail(c: char, tail: string)
    requires tail == if c == '"' then "\"\"" else [c]
    ensures Count(tail, '"') == if c == '"' then 2 else 0
  {
    if c == '"' {
      assert tail[..1] == "\"";
      assert tail[..1][..0] == [];
      assert Count(tail[..1], '"') == 1;
    } else {
      assert tail[..0] == [];
    }
  }

  /** Before any character of a doubled field that is not a quote, the quotes
      so far come in pairs. */
  lemma {:induction false} DoublePrefixEven(f: string, m: nat)
    requires m < |Double(f)| && Double(f)[m] != '"'
    ensures !Odd(Double(f)[..m])
    decreases |f|
  {
    var init := f[..|f| - 1];
    var c := f[|f| - 1];
    var d := Double(init);
    assert Double(f) == d + (if c == '"' then "\"\"" else [c]);
    if m < |d| {
      assert Double(f)[..m] == d[..m];
      DoublePrefixEven(init, m);
    } else {
      assert c != '"' && m == |d|;
      assert Double(f)[..m] == d;
      DoubleEven(init);
    }
  }

  /** Inside a quoted field every comma has an odd number of quotes before
      it, counted from the field's opening quote. */
  lemma QuotePrefixOdd(f: string, j: nat)
    requires j < |Quote(f)| && Quote(f)[j] == ','
    ensures Odd(Quote(f)[..j])
  {
    var q := Quote(f);
    var d := Double(f);
    assert q == "\"" + d + "\"";
    assert 1 <= j < |q| - 1;
    assert q[..j] == "\"" + d[..j - 1];
    assert d[j - 1] == q[j];
    DoublePrefixEven(f, j - 1);
    OddAppend("\"", d[..j - 1]);
    OddOfChar('"');
  }

  /** A character that does not separate goes into the last field. */
  lemma ExtendLastField(s: string, c: char)
    requires !Separator(s + [c], |s|)
    ensures var init := Fields(s);
            Fields(s + [c]) == init[..|init| - 1] + [init[|init| - 1] + [c]]
  {
    assert (s + [c])[..|s|] == s;
  }

  /** Every comma of `t` sits after an odd number of quotes, counting from
      the start of `s`. */
  predicate InField(s: string, t: string) {
    forall j :: 0 <= j < |t| && t[j] == ',' ==> Odd(s + t[..j])
  }

  lemma InFieldPrefix(s: string, t: string)
    requires t != [] && InField(s, t)
    ensures InField(s, t[..|t| - 1])
    ensures !Separator(s + t, |s + t| - 1)
  {
    var t' := t[..|t| - 1];
    forall j | 0 <= j < |t'| && t'[j] == ','
      ensures Odd(s + t'[..j])
    {
      assert t'[..j] == t[..j];
    }
    assert (s + t)[..|s + t| - 1] == s + t[..|t'|];
  }

  /** Text whose commas all sit after an odd number of quotes goes, whole,
      into the last field. */
  lemma {:induction false} AppendInField(s: string, t: string)
    requires InField(s, t)
    ensures var init := Fields(s);
            Fields(s + t) == init[..|init| - 1] + [init[|init| - 1] + t]
    decreases |t|
  {
    var init := Fields(s);
    var n := |init|;
    if t == [] {
      AppendNothing(s, t);
    } else {
      InFieldPrefix(s, t);
      AppendInField(s, t[..|t| - 1]);
      AppendInFieldStep(s, t, init[..n - 1], init[n - 1]);
    }
  }

  lemma AppendNothing(s: string, t: string)
    requires t == []
    ensures var init := Fields(s);
            Fields(s + t) == init[..|init| - 1] + [init[|init| - 1] + t]
  {
    var init := Fields(s);
    assert s + t == s;
    assert init[|init| - 1] + t == init[|init| - 1];
    assert init[..|init| - 1] + [init[|init| - 1]] == init;
  }

  lemma AppendInFieldStep(s: string, t: string, parts: seq<string>, current: string)
    requires t != [] && InField(s, t)
    requires Fields(s + t[..|t| - 1]) == parts + [current + t[..|t| - 1]]
    ensures Fields(s + t) == parts + [current + t]
  {
    var t', c := t[..|t| - 1], t[|t| - 1];
    InFieldPrefix(s, t);
    assert s + t == s + t' + [c];
    ExtendLastField(s + t', c);
    ExtendLast(parts, current + t', c);
    assert current + t' + [c] == current + t;
  }

  /** A separating comma and a quoted field add that field, unchanged. */
  lemma AppendQuotedField(s: string, f: string)
    requires !Odd(s)
    ensures Fields(s + "," + Quote(f)) == Fields(s) + [Quote(f)]
  {
    var s' := s + ",";
    assert s'[..|s|] == s;
    assert Fields(s') == Fields(s) + [""];
    OddAppend(s, ",");
    OddOfChar(',');
    QuotedInField(s', f);
    assert ("" + Quote(f)) == Quote(f);
  }

  lemma QuotedInField(s: string, f: string)
    requires !Odd(s)
    ensures var init := Fields(s);
            Fields(s + Quote(f)) == init[..|init| - 1] + [init[|init| - 1] + Quote(f)]
  {
    QuoteInField(s, f);
    AppendInField(s, Quote(f));
  }

  lemma QuoteInField(s: string, f: string)
    requires !Odd(s)
    ensures InField(s, Quote(f))
  {
    var q := Quote(f);
    forall j | 0 <= j < |q| && q[j] == ','
      ensures Odd(s + q[..j])
    {
      QuotePrefixOdd(f, j);
      OddAppend(s, q[..j]);
    }
  }

  /** A doubled field holds an even number of quotes. */
  lemma {:induction false} DoubleEven(f: string)
    ensures !Odd(Double(f))
    decreases |f|
  {
    if f != [] {
      var init := f[..|f| - 1];
      var c := f[|f| - 1];
      DoubleEven(init);
      var tail: string := if c == '"' then "\"\"" else [c];
      OddAppend(Double(init), tail);
      if c == '"' {
        OddAppend("\"", "\"");
        OddOfChar('"');
        assert "\"" + "\"" == tail;
      } else {
        OddOfChar(c);
      }
      assert f[..|f| - 1] == init;
    }
  }

  /** A quoted field holds an even number of quotes. */
  lemma QuoteEven(f: string)
    ensures !Odd(Quote(f))
  {
    OddAppend("\"", Double(f));
    OddAppend("\"" + Double(f), "\"");
    OddOfChar('"');
    DoubleEven(f);
  }

  /** The quote-aware split of a written row gives back exactly the quoted
      fields: the row has as many fields as were written. */
  lemma {:induction false} FieldsOfQuoteRow(fields: seq<string>)
    requires |fields| >= 1
    ensures Fields(QuoteRow(fields)) == QuoteAll(fields)
    ensures !Odd(QuoteRow(fields))
    decreases |fields|
  {
    var m := |fields| - 1;
    if m == 0 {
      FieldsOfOneQuoted(fields);
    } else {
      FieldsOfQuoteRow(fields[..m]);
      FieldsOfQuoteRowStep(fields[..m], fields[m]);
      assert fields[..m] + [fields[m]] == fields;
    }
  }

  lemma FieldsOfOneQuoted(fields: seq<string>)
    requires |fields| == 1
    ensures Fields(QuoteRow(fields)) == QuoteAll(fields)
    ensures !Odd(QuoteRow(fields))
  {
    var q := Quote(fields[0]);
    assert QuoteAll(fields) == [q];
    assert QuoteRow(fields) == q;
    assert "" + q == q;
    QuotedInField("", fields[0]);
    QuoteEven(fields[0]);
  }

  lemma FieldsOfQuoteRowStep(init: seq<string>, f: string)
    requires |init| >= 1
    requires Fields(QuoteRow(init)) == QuoteAll(init)
    requires !Odd(QuoteRow(init))
    ensures Fields(QuoteRow(init + [f])) == QuoteAll(init + [f])
    ensures !Odd(QuoteRow(init + [f]))
  {
    var r := QuoteRow(init);
    QuoteEven(f);
    assert QuoteAll(init + [f]) == QuoteAll(init) + [Quote(f)];
    JoinAppend(QuoteAll(init), Quote(f), ",");
    assert QuoteRow(init + [f]) == r + "," + Quote(f);
    AppendQuotedField(r, f);
    OddAppend(r + ",", Quote(f));
    OddAppend(r, ",");
    OddOfChar(',');
  }

  /** The repaired line of a data row: it splits, by the script's own rule,
      into exactly the header's number of fields, and each reads back as the
      field written. */
  function RepairRow(row: string, n: nat): (line: string)
    requires n >= 1
    ensures |Fields(line)| == n
    ensures forall k :: 0 <= k < n ==> Unquote(Fields(line)[k]) == RepairFields(row, n)[k]
  {
    var fields := RepairFields(row, n);
    FieldsOfQuoteRow(fields);
    forall k | 0 <= k < n
      ensures Unquote(Fields(QuoteRow(fields))[k]) == fields[k]
    {
      UnquoteQuote(fields[k]);
    }
    QuoteRow(fields)
  }

  // ---------------------------------------------------------------------------
  // The whole file
  // ---------------------------------------------------------------------------

  /** Each line through `f`, in order. */
  function MapLines(data: seq<string>, f: string -> string): (out: seq<string>)
    ensures |out| == |data| && forall k :: 0 <= k < |data| ==> out[k] == f(data[k])
  {
    seq(|data|, k requires 0 <= k < |data| => f(data[k]))
  }

  lemma MapLinesAppend(data: seq<string>, x: string, f: string -> string)
    ensures MapLines(data + [x], f) == MapLines(data, f) + [f(x)]
  {
    var a, b := MapLines(data + [x], f), MapLines(data, f) + [f(x)];
    assert |a| == |b|;
    forall k | 0 <= k < |a|
      ensures a[k] == b[k]
    {
      if k < |data| {
        assert (data + [x])[k] == data[k];
      }
    }
  }

  /** `RepairRow` for a fixed column count, as a function value. */
  function Repairer(n: nat): string -> string
    requires n >= 1
  {
    line => RepairRow(line, n)
  }

  /** The repaired lines of the data lines, in order. */
  function RepairLines(data: seq<string>, n: nat): (out: seq<string>)
    requires n >= 1
    ensures |out| == |data| && forall k :: 0 <= k < |data| ==> out[k] == RepairRow(data[k], n)
  {
    MapLines(data, Repairer(n))
  }

  /** The lines `keep` accepts, each through `f`, in order. */
  function KeptMapped(rows: seq<string>, keep: string -> bool, f: string -> string): seq<string>
    decreases |rows|
  {
    if rows == [] then []
    else
      var last := rows[|rows| - 1];
      KeptMapped(rows[..|rows| - 1], keep, f) + if keep(last) then [f(last)] else []
  }

  /** Keeping the non-blank lines and repairing each is repairing the
      non-blank lines. */
  lemma {:induction false} KeptMappedIsRepairLines(rows: seq<string>, n: nat, keep: string -> bool, f: string -> string)
    requires n >= 1
    requires forall line :: keep(line) == !Blank(line)
    requires forall line :: f(line) == RepairRow(line, n)
    ensures KeptMapped(rows, keep, f) == RepairLines(NonBlank(rows), n)
    decreases |rows|
  {
    if rows != [] {
      var init := rows[..|rows| - 1];
      KeptMappedIsRepairLines(init, n, keep, f);
      if !Blank(rows[|rows| - 1]) {
        MapLinesAppend(NonBlank(init), rows[|rows| - 1], Repairer(n));
      }
    }
  }

  /** One data line through the loop body: split, fit to `n` fields, quote. */
  method RepairLine(row: string, n: nat) returns (line: string)
    requires n >= 1
    ensures line == RepairRow(row, n)
  {
    var parts := SplitRow(row);
    line := QuoteRow(Pad(Merge(parts, n), n));
  }

  /** A loop over lines that keeps those `keep` accepts, each through `f`. */
  method KeepMap(rows: seq<string>, keep: string -> bool, f: string -> string) returns (out: seq<string>)
    ensures out == KeptMapped(rows, keep, f)
  {
    out := [];
    var i := 0;
    while i < |rows|
      invariant 0 <= i <= |rows|
      invariant out == KeptMapped(rows[..i], keep, f)
    {
      assert rows[..i + 1][..i] == rows[..i];
      if keep(rows[i]) {
        out := out + [f(rows[i])];
      }
      i := i + 1;
    }
    assert rows[..i] == rows;
  }

  /** The loop over the data lines: blank ones are skipped, the others
      repaired as `RepairLine` repairs them. */
  method RepairData(rows: seq<string>, n: nat) returns (out: seq<string>)
    requires n >= 1
    ensures out == RepairLines(NonBlank(rows), n)
  {
    var keep := line => !Blank(line);
    var repair := line => RepairRow(line, n);
    out := KeepMap(rows, keep, repair);
    KeptMappedIsRepairLines(rows, n, keep, repair);
  }

  /** The script's main loop.  The output lines are the header line followed
      by one repaired line per non-blank data line, in order. */
  method FixCsv(content: string) returns (fixed: seq<string>)
    ensures var lines := SplitLines(content);
            var data := NonBlank(lines[1..]);
            && |fixed| == 1 + |data|
            && fixed[0] == lines[0]
            && fixed[1..] == RepairLines(data, NumCols(lines[0]))
  {
    var lines := SplitLines(content);
    var header := lines[0];
    var out := RepairData(lines[1..], NumCols(header));
    fixed := [header] + out;
  }
}

=== FILE: Disclosure.dfy ===
/** The string transform of `addAffiliateDisclosure` in
    scripts/add-affiliate-disclosure.js: a page that does not mention the
    disclosure yet gets the disclosure banner right after its first container
    opening tag.  Reading and writing the file, the directory walk and the
    console messages are left out. */
module Disclosure {
  import opened Wrappers
  import opened JsString

  /** What marks a page as already done. */
  const Marker: string := "affiliate-disclosure"

  /** `/<div class="container">/`: the tag the banner goes after. */
  const Container: string := "<div class=\"container\">"

  /** The inserted banner, white space included: the marker appears as the
      class of its `div`, right after `BannerHead`. */
  const BannerHead: string := "\n        <!-- Affiliate Disclosure Banner -->\n        <div class=\""
  const BannerTail: string :=
    "\">"
    + "\n            This page contains affiliate links. We may earn a commission if you sign up or make a purchase through our links. "
    + "\n            <a href=\"/pages/information.html#affiliate-disclosure\">Learn more about our affiliate relationships</a>."
    + "\n        </div>"
    + "\n        "
    + "\n        "
  const Block: string := BannerHead + Marker + BannerTail

  /** The page with the banner after the container tag at `i`. */
  function InsertAt(content: string, i: nat): string
    requires OccursAt(content, Container, i)
  {
    content[..i + |Container|] + Block + content[i + |Container|..]
  }

  /** The transform: pages that mention the marker and pages without the
      container tag are left as they are; otherwise the banner goes after the
      first container tag only. */
  function AddDisclosure(content: string): (r: string)
    ensures Contains(content, Marker) ==> r == content
    ensures IndexOf(content, Container).None? ==> r == content
    ensures !Contains(content, Marker) && IndexOf(content, Container).Some? ==>
              r == InsertAt(content, IndexOf(content, Container).value)
  {
    if Contains(content, Marker) then content
    else match IndexOf(content, Container)
      case None => content
      case Some(i) => InsertAt(content, i)
  }

  /** The banner mentions the marker. */
  lemma BlockHasMarker()
    ensures OccursAt(Block, Marker, |BannerHead|)
  {
    assert Block[|BannerHead|..|BannerHead| + |Marker|] == Marker;
  }

  /** The inserted page mentions the marker. */
  lemma InsertedHasMarker(content: string, i: nat)
    requires OccursAt(content, Container, i)
    ensures Contains(InsertAt(content, i), Marker)
  {
    BlockHasMarker();
    ContainsWitness(Block, Marker, |BannerHead|);
    ContainsInContext(content[..i + |Container|], Block, content[i + |Container|..], Marker);
  }

  /** Running the script twice is running it once: the banner it inserts
      mentions the marker, so a second run skips the page. */
  lemma AddDisclosureIdempotent(content: string)
    ensures AddDisclosure(AddDisclosure(content)) == AddDisclosure(content)
  {
    if !Contains(content, Marker) && IndexOf(content, Container).Some? {
      InsertedHasMarker(content, IndexOf(content, Container).value);
    }
  }

  /** The banner is inserted whole and nothing else changes: the text before
      the end of the tag and the text after it are kept, and the page grows
      by the banner's length. */
  lemma InsertKeepsRest(content: string, i: nat)
    requires OccursAt(content, Container, i)
    ensures var r := InsertAt(content, i);
            var e := i + |Container|;
            && |r| == |content| + |Block|
            && r[..e] == content[..e]
            && r[e..e + |Block|] == Block
            && r[e + |Block|..] == content[e..]
  {
  }

  /** Cutting the banner out again gives back the page. */
  lemma RemoveBlockRestores(content: string, i: nat)
    requires OccursAt(content, Container, i)
    ensures var r := InsertAt(content, i);
            var e := i + |Container|;
            r[..e] + r[e + |Block|..] == content
  {
    InsertKeepsRest(content, i);
  }

  /** The first container tag is still where it was, so the banner sits right
      after the first container tag of the result too. */
  lemma InsertKeepsFirstTag(content: string, i: nat)
    requires IndexOf(content, Container) == Some(i)
    ensures IndexOf(InsertAt(content, i), Container) == Some(i)
  {
    InsertAfterKeepsFirst(content, Container, Block, i);
  }

  /** Text inserted right after the first occurrence of `t` leaves that
      occurrence the first. */
  lemma InsertAfterKeepsFirst(content: string, t: string, b: string, i: nat)
    requires IndexOf(content, t) == Some(i)
    ensures IndexOf(content[..i + |t|] + b + content[i + |t|..], t) == Some(i)
  {
    var e := i + |t|;
    var r := content[..e] + b + content[e..];
    assert r[..e] == content[..e];
    assert r[i..e] == content[i..e];
    forall j | 0 <= j < i
      ensures !OccursAt(r, t, j)
    {
      assert !OccursAt(content, t, j);
      if j + |t| <= |r| {
        assert r[j..j + |t|] == content[j..j + |t|];
      }
    }
    IndexOfFirst(r, t, i);
  }
}

=== FILE: Grouping.dfy ===
/** Grouping offers by category, as the navbar and carousel builders do
    (`buildNavbar` and `buildCarousels` in scripts/update_site.js, and
    public/scripts/inject-navbar.js and public/scripts/inject-carousels.js):
    rows are bucketed under their category in record order, the category
    names are sorted, and each bucket is sorted by brand.  `localeCompare` is
    a parameter: `leq(a, b)` stands for `a.localeCompare(b) <= 0`. */
module Grouping {
  import opened JsString
  import opened Columns

  /** Any two names are comparable one way or the other, as `localeCompare` is. */
  ghost predicate Total(leq: (string, string) -> bool) {
    forall a, b :: leq(a, b) || leq(b, a)
  }

  /** Adjacent elements are in `leq` order of their keys. */
  ghost predicate SortedBy<T>(xs: seq<T>, key: T -> string, leq: (string, string) -> bool) {
    forall i :: 0 < i < |xs| ==> leq(key(xs[i - 1]), key(xs[i]))
  }

  /** Inserts `x` after every element whose key is not strictly after its own,
      so that equal keys keep their record order. */
  function Insert<T>(x: T, s: seq<T>, key: T -> string, leq: (string, string) -> bool): (r: seq<T>)
    ensures |r| == |s| + 1
    ensures multiset(r) == multiset(s) + multiset{x}
    ensures r[0] == x || (s != [] && r[0] == s[0])
    ensures Total(leq) && SortedBy(s, key, leq) ==> SortedBy(r, key, leq)
    decreases |s|
  {
    if s == [] then [x]
    else if leq(key(x), key(s[0])) && !leq(key(s[0]), key(x)) then [x] + s
    else
      var rest := Insert(x, s[1..], key, leq);
      assert s == [s[0]] + s[1..];
      assert SortedBy(s, key, leq) ==> SortedBy(s[1..], key, leq);
      [s[0]] + rest
  }

  /** The stable sort `Array.prototype.sort` performs with a consistent comparator. */
  function SortBy<T>(xs: seq<T>, key: T -> string, leq: (string, string) -> bool): (r: seq<T>)
    ensures |r| == |xs|
    ensures multiset(r) == multiset(xs)
    ensures Total(leq) ==> SortedBy(r, key, leq)
    decreases |xs|
  {
    if xs == [] then []
    else
      assert xs == xs[..|xs| - 1] + [xs[|xs| - 1]];
      Insert(xs[|xs| - 1], SortBy(xs[..|xs| - 1], key, leq), key, leq)
  }

  predicate NoDuplicates(xs: seq<string>) {
    forall i, j :: 0 <= i < j < |xs| ==> xs[i] != xs[j]
  }

  /** The distinct names in order of first appearance.  `Object.keys` gives
      this order for keys that are not integer-like; it lists integer-like
      keys first, in ascending order. */
  function Distinct(xs: seq<string>): (r: seq<string>)
    ensures NoDuplicates(r)
    ensures forall x :: x in r <==> x in xs
    decreases |xs|
  {
    if xs == [] then []
    else
      var d := Distinct(xs[..|xs| - 1]);
      assert xs == xs[..|xs| - 1] + [xs[|xs| - 1]];
      if xs[|xs| - 1] in d then d else d + [xs[|xs| - 1]]
  }

  lemma {:induction false} NoDuplicatesCount(xs: seq<string>, x: string)
    requires NoDuplicates(xs)
    ensures multiset(xs)[x] <= 1
    decreases |xs|
  {
    if xs != [] {
      assert xs == [xs[0]] + xs[1..];
      NoDuplicatesCount(xs[1..], x);
      if xs[0] == x {
        assert x !in xs[1..];
      }
    }
  }

  /** A permutation of a list without duplicates has none either. */
  lemma PermutationKeepsNoDuplicates(a: seq<string>, b: seq<string>)
    requires multiset(a) == multiset(b) && NoDuplicates(b)
    ensures NoDuplicates(a)
  {
    forall i, j | 0 <= i < j < |a| ensures a[i] != a[j] {
      if a[i] == a[j] {
        var x := a[i];
        assert a == a[..i] + [x] + a[i + 1..j] + [x] + a[j + 1..];
        assert multiset(a)[x] >= 2;
        NoDuplicatesCount(b, x);
        assert false;
      }
    }
  }

  /** The rows of category `name`, in record order. */
  function Filter(rows: seq<Row>, cat: Row -> string, name: string): (r: seq<Row>)
    ensures forall k :: 0 <= k < |r| ==> cat(r[k]) == name
    ensures forall x :: multiset(r)[x] == if cat(x) == name then multiset(rows)[x] else 0
    decreases |rows|
  {
    if rows == [] then []
    else
      var rest := Filter(rows[1..], cat, name);
      assert rows == [rows[0]] + rows[1..];
      if cat(rows[0]) == name then [rows[0]] + rest else rest
  }

  /** `rows.filter(keep)`: the kept rows, in record order. */
  function Select(rows: seq<Row>, keep: Row -> bool): (r: seq<Row>)
    ensures forall k :: 0 <= k < |r| ==> keep(r[k])
    ensures forall x :: multiset(r)[x] == if keep(x) then multiset(rows)[x] else 0
    decreases |rows|
  {
    if rows == [] then []
    else
      var rest := Select(rows[1..], keep);
      assert rows == [rows[0]] + rows[1..];
      if keep(rows[0]) then [rows[0]] + rest else rest
  }

  function Categories(rows: seq<Row>, cat: Row -> string): (names: seq<string>)
    ensures |names| == |rows|
    ensures forall k :: 0 <= k < |rows| ==> names[k] == cat(rows[k])
  {
    seq(|rows|, k requires 0 <= k < |rows| => cat(rows[k]))
  }

  /** One category with its rows. */
  datatype Group = Group(name: string, members: seq<Row>)

  function Id(s: string): string { s }

  /** The category names, distinct and sorted. */
  function GroupNames(rows: seq<Row>, cat: Row -> string, leq: (string, string) -> bool): (names: seq<string>)
    ensures NoDuplicates(names)
    ensures forall x :: x in names <==> exists k :: 0 <= k < |rows| && cat(rows[k]) == x
    ensures Total(leq) ==> SortedBy(names, Id, leq)
  {
    var cats := Categories(rows, cat);
    var distinct := Distinct(cats);
    var names := SortBy(distinct, Id, leq);
    PermutationKeepsNoDuplicates(names, distinct);
    forall x ensures x in names <==> x in cats {
      assert x in names <==> x in multiset(names);
      assert x in distinct <==> x in multiset(distinct);
    }
    forall x ensures x in cats <==> exists k :: 0 <= k < |rows| && cat(rows[k]) == x {
      if x in cats {
        var k :| 0 <= k < |cats| && cats[k] == x;
      }
    }
    names
  }

  /** `categories` built by pushing each row under its category, the keys
      sorted, each bucket sorted by brand. */
  function GroupBy(rows: seq<Row>, cat: Row -> string, brand: Row -> string,
                   leq: (string, string) -> bool): (gs: seq<Group>)
    ensures |gs| == |GroupNames(rows, cat, leq)|
    ensures forall i :: 0 <= i < |gs| ==> gs[i].name == GroupNames(rows, cat, leq)[i]
    ensures forall i :: 0 <= i < |gs| ==> gs[i].members == SortBy(Filter(rows, cat, gs[i].name), brand, leq)
  {
    var names := GroupNames(rows, cat, leq);
    seq(|names|, i requires 0 <= i < |names| => Group(names[i], SortBy(Filter(rows, cat, names[i]), brand, leq)))
  }

  /** The groups are named by distinct categories, in `leq` order, and every
      group's name is the category of some row. */
  lemma GroupNamesDistinctSorted(rows: seq<Row>, cat: Row -> string, brand: Row -> string,
                                 leq: (string, string) -> bool)
    ensures var gs := GroupBy(rows, cat, brand, leq);
            forall i, j :: 0 <= i < j < |gs| ==> gs[i].name != gs[j].name
    ensures var gs := GroupBy(rows, cat, brand, leq);
            forall i :: 0 <= i < |gs| ==> exists k :: 0 <= k < |rows| && cat(rows[k]) == gs[i].name
    ensures var gs := GroupBy(rows, cat, brand, leq);
            Total(leq) ==> forall i :: 0 < i < |gs| ==> leq(gs[i - 1].name, gs[i].name)
  {
    var gs := GroupBy(rows, cat, brand, leq);
    var names := GroupNames(rows, cat, leq);
    forall i | 0 <= i < |gs| ensures exists k :: 0 <= k < |rows| && cat(rows[k]) == gs[i].name {
      assert names[i] in names;
    }
    if Total(leq) {
      forall i | 0 < i < |gs| ensures leq(gs[i - 1].name, gs[i].name) {
        assert leq(Id(names[i - 1]), Id(names[i]));
      }
    }
  }

  /** A group holds every row of its category, as many times as the records
      do, and nothing else, sorted by brand. */
  lemma GroupMembers(rows: seq<Row>, cat: Row -> string, brand: Row -> string,
                     leq: (string, string) -> bool, i: int)
    requires 0 <= i < |GroupBy(rows, cat, brand, leq)|
    ensures var g := GroupBy(rows, cat, brand, leq)[i];
            forall x :: multiset(g.members)[x] == if cat(x) == g.name then multiset(rows)[x] else 0
    ensures var g := GroupBy(rows, cat, brand, leq)[i];
            forall k :: 0 <= k < |g.members| ==> cat(g.members[k]) == g.name
    ensures Total(leq) ==> SortedBy(GroupBy(rows, cat, brand, leq)[i].members, brand, leq)
  {
    var g := GroupBy(rows, cat, brand, leq)[i];
    var f := Filter(rows, cat, g.name);
    assert g.members == SortBy(f, brand, leq);
    forall k | 0 <= k < |g.members| ensures cat(g.members[k]) == g.name {
      assert g.members[k] in multiset(g.members);
      assert g.members[k] in multiset(f);
    }
  }

  /** Every row lands in exactly one group: the one named by its category. */
  lemma EachRowInOneGroup(rows: seq<Row>, cat: Row -> string, brand: Row -> string,
                          leq: (string, string) -> bool, k: int)
    requires 0 <= k < |rows|
    ensures var gs := GroupBy(rows, cat, brand, leq);
            exists i :: 0 <= i < |gs| && gs[i].name == cat(rows[k]) && rows[k] in gs[i].members
    ensures var gs := GroupBy(rows, cat, brand, leq);
            forall i :: 0 <= i < |gs| && rows[k] in gs[i].members ==> gs[i].name == cat(rows[k])
  {
    RowInItsGroup(rows, cat, brand, leq, k);
    var gs := GroupBy(rows, cat, brand, leq);
    forall j | 0 <= j < |gs| && rows[k] in gs[j].members ensures gs[j].name == cat(rows[k]) {
      MemberOfGroup(rows, cat, brand, leq, j, rows[k]);
    }
  }

  lemma RowInItsGroup(rows: seq<Row>, cat: Row -> string, brand: Row -> string,
                      leq: (string, string) -> bool, k: int)
    requires 0 <= k < |rows|
    ensures var gs := GroupBy(rows, cat, brand, leq);
            exists i :: 0 <= i < |gs| && gs[i].name == cat(rows[k]) && rows[k] in gs[i].members
  {
    var gs := GroupBy(rows, cat, brand, leq);
    var names := GroupNames(rows, cat, leq);
    assert cat(rows[k]) in names;
    var i :| 0 <= i < |names| && names[i] == cat(rows[k]);
    GroupMembers(rows, cat, brand, leq, i);
    assert rows[k] in multiset(rows);
    assert rows[k] in multiset(gs[i].members);
  }

  lemma MemberOfGroup(rows: seq<Row>, cat: Row -> string, brand: Row -> string,
                      leq: (string, string) -> bool, j: int, x: Row)
    requires 0 <= j < |GroupBy(rows, cat, brand, leq)|
    requires x in GroupBy(rows, cat, brand, leq)[j].members
    ensures GroupBy(rows, cat, brand, leq)[j].name == cat(x)
  {
    GroupMembers(rows, cat, brand, leq, j);
    var ms := GroupBy(rows, cat, brand, leq)[j].members;
    var m :| 0 <= m < |ms| && ms[m] == x;
  }

  /** After a filter, a row is in some group iff the filter keeps it, and
      then in the group of its category. */
  lemma SelectedRowInItsGroup(rows: seq<Row>, keep: Row -> bool, cat: Row -> string, brand: Row -> string,
                              leq: (string, string) -> bool, k: int)
    requires 0 <= k < |rows| && keep(rows[k])
    ensures var gs := GroupBy(Select(rows, keep), cat, brand, leq);
            exists i :: 0 <= i < |gs| && gs[i].name == cat(rows[k]) && rows[k] in gs[i].members
  {
    SelectKeeps(rows, keep, k);
    MemberInItsGroup(Select(rows, keep), cat, brand, leq, rows[k]);
  }

  lemma SelectKeeps(rows: seq<Row>, keep: Row -> bool, k: int)
    requires 0 <= k < |rows| && keep(rows[k])
    ensures rows[k] in Select(rows, keep)
  {
    var x := rows[k];
    assert x in multiset(rows);
    assert x in multiset(Select(rows, keep));
  }

  lemma MemberInItsGroup(rows: seq<Row>, cat: Row -> string, brand: Row -> string,
                         leq: (string, string) -> bool, x: Row)
    requires x in rows
    ensures var gs := GroupBy(rows, cat, brand, leq);
            exists i :: 0 <= i < |gs| && gs[i].name == cat(x) && x in gs[i].members
  {
    var m :| 0 <= m < |rows| && rows[m] == x;
    RowInItsGroup(rows, cat, brand, leq, m);
  }

  lemma UnselectedRowInNoGroup(rows: seq<Row>, keep: Row -> bool, cat: Row -> string, brand: Row -> string,
                               leq: (string, string) -> bool, x: Row)
    requires !keep(x)
    ensures var gs := GroupBy(Select(rows, keep), cat, brand, leq);
            forall i :: 0 <= i < |gs| ==> x !in gs[i].members
  {
    var kept := Select(rows, keep);
    var gs := GroupBy(kept, cat, brand, leq);
    forall i | 0 <= i < |gs| ensures x !in gs[i].members {
      GroupMembers(kept, cat, brand, leq, i);
      assert multiset(gs[i].members)[x] == 0;
    }
  }

  /** `(value || 'Other').trim()` for a category cell. */
  function CategoryName(cell: string): (name: string)
    ensures IsTrimmed(name)
    ensures cell == "" ==> name == "Other"
    ensures cell != "" ==> name == Trim(cell)
  {
    Trim(if cell == "" then "Other" else cell)
  }

  /** The site updater's category of a row. */
  function SiteCategory(cm: ColMap): Row -> string {
    row => CategoryName(GetVal(row, "Category", cm))
  }

  /** The site updater's sort key, the brand. */
  function SiteBrand(cm: ColMap): Row -> string {
    row => GetVal(row, "Brand", cm)
  }

  /** The client scripts' category of a row, read by the exact header `Category`. */
  function ClientCategory(row: Row): string {
    CategoryName(Field(row, "Category"))
  }

  function ClientBrand(row: Row): string {
    Field(row, "Brand")
  }

  /** With the exact headers `Category` and `Brand`, the site updater and the
      client scripts file each row under the same category and sort it by the
      same brand. */
  lemma SiteAndClientReadAlike(cm: ColMap, row: Row)
    requires "category" in cm && cm["category"] == "Category"
    requires "brand" in cm && cm["brand"] == "Brand"
    ensures SiteCategory(cm)(row) == ClientCategory(row)
    ensures SiteBrand(cm)(row) == ClientBrand(row)
  {
    CategoryKey();
    BrandKey();
  }

  lemma CategoryKey()
    ensures Normalize("Category") == "category"
  {
    TrimOfTrimmed("Category");
    var l := Lower("Category");
    assert l[0] == 'c';
    assert forall i :: 1 <= i < 8 ==> l[i] == "Category"[i];
    assert l == "category";
  }

  lemma BrandKey()
    ensures Normalize("Brand") == "brand"
  {
    TrimOfTrimmed("Brand");
    var l := Lower("Brand");
    assert l[0] == 'b';
    assert forall i :: 1 <= i < 5 ==> l[i] == "Brand"[i];
    assert l == "brand";
  }

  /** `cat.replace(/\s+/g, '').toLowerCase()`: the class and row id suffix of
      a category section. */
  function CategoryClass(name: string): (cls: string)
    ensures forall k :: 0 <= k < |cls| ==> !IsSpace(cls[k])
    ensures |cls| <= |name|
    decreases |name|
  {
    if name == [] then []
    else (if IsSpace(name[0]) then [] else [LowerChar(name[0])]) + CategoryClass(name[1..])
  }

  /** The class of a concatenation is the concatenation of the classes. */
  lemma {:induction false} CategoryClassAppend(a: string, b: string)
    ensures CategoryClass(a + b) == CategoryClass(a) + CategoryClass(b)
    decreases |a|
  {
    if a == [] {
      assert a + b == b;
    } else {
      assert (a + b)[0] == a[0];
      assert (a + b)[1..] == a[1..] + b;
      CategoryClassAppend(a[1..], b);
    }
  }

  /** A name without white space is only lower-cased. */
  lemma {:induction false} CategoryClassOfWord(w: string)
    requires forall k :: 0 <= k < |w| ==> !IsSpace(w[k])
    ensures CategoryClass(w) == Lower(w)
    decreases |w|
  {
    if w != [] {
      CategoryClassOfWord(w[1..]);
      var l := Lower(w);
      assert l == [LowerChar(w[0])] + Lower(w[1..]);
    }
  }

  /** A name of white space only has the empty class. */
  lemma {:induction false} CategoryClassOfSpaces(s: string)
    requires forall k :: 0 <= k < |s| ==> IsSpace(s[k])
    ensures CategoryClass(s) == ""
    decreases |s|
  {
    if s != [] {
      CategoryClassOfSpaces(s[1..]);
    }
  }
}

=== FILE: JsString.dfy ===
/** The JavaScript string primitives the scripts rely on: `trim`, ASCII
    `toLowerCase`, `split` and `join` on a one-character separator,
    `includes`/`indexOf` and character counting.  Strings are sequences of
    Unicode scalar values; JavaScript strings are sequences of UTF-16 code
    units, and the two agree on every string without characters outside the
    Basic Multilingual Plane. */
module JsString {
  import opened Wrappers

  /** ECMAScript LineTerminator: the characters `.` in a regex does not match. */
  predicate IsLineTerminator(c: char) {
    c == '\n' || c == '\r' || c == '\U{2028}' || c == '\U{2029}'
  }

  /** ECMAScript WhiteSpace or LineTerminator: what `trim` removes and `\s` matches. */
  predicate IsSpace(c: char) {
    || IsLineTerminator(c)
    || c == '\t' || c == '\U{000B}' || c == '\U{000C}' || c == ' '
    || c == '\U{00A0}' || c == '\U{1680}' || ('\U{2000}' <= c <= '\U{200A}')
    || c == '\U{202F}' || c == '\U{205F}' || c == '\U{3000}' || c == '\U{FEFF}'
  }

  predicate AllSpace(s: string) {
    forall i :: 0 <= i < |s| ==> IsSpace(s[i])
  }

  /** A string with no white space at either end: what `trim` returns. */
  predicate IsTrimmed(s: string) {
    s == [] || (!IsSpace(s[0]) && !IsSpace(s[|s| - 1]))
  }

  function TrimStart(s: string): (r: string)
    ensures |r| <= |s| && r == s[|s| - |r|..]
    ensures AllSpace(s[..|s| - |r|])
    ensures r == [] || !IsSpace(r[0])
  {
    if |s| > 0 && IsSpace(s[0]) then
      var r := TrimStart(s[1..]);
      assert s[1..][..|s| - 1 - |r|] == s[1..|s| - |r|];
      r
    else s
  }

  function TrimEnd(s: string): (r: string)
    ensures |r| <= |s| && r == s[..|r|]
    ensures AllSpace(s[|r|..])
    ensures r == [] || !IsSpace(r[|r| - 1])
  {
    if |s| > 0 && IsSpace(s[|s| - 1]) then
      var init := s[..|s| - 1];
      var r := TrimEnd(init);
      assert s[|r|..] == init[|r|..] + [s[|s| - 1]];
      assert init[..|r|] == s[..|r|];
      r
    else s
  }

  /** `r` is `s[i..j]`, and everything of `s` outside that slice is white space. */
  predicate SpaceAround(s: string, r: string, i: int, j: int) {
    0 <= i <= j <= |s| && r == s[i..j] && AllSpace(s[..i]) && AllSpace(s[j..])
  }

  /** `String.prototype.trim`: the input with the white space at both ends
      cut, and no white space left at either end. */
  function Trim(s: string): (r: string)
    ensures IsTrimmed(r)
    ensures |r| <= |s|
    ensures exists i, j :: SpaceAround(s, r, i, j)
  {
    var t := TrimStart(s);
    var r := TrimEnd(t);
    CutAround(s, t, r);
    r
  }

  /** Cutting white space from the front and then from the back leaves a
      slice with white space only around it. */
  lemma CutAround(s: string, t: string, r: string)
    requires |t| <= |s| && t == s[|s| - |t|..] && AllSpace(s[..|s| - |t|])
    requires |r| <= |t| && r == t[..|r|] && AllSpace(t[|r|..])
    ensures SpaceAround(s, r, |s| - |t|, |s| - |t| + |r|)
  {
    SliceOfSuffix(s, t, r, |s| - |t|);
  }

  lemma SliceOfSuffix<T>(s: seq<T>, t: seq<T>, r: seq<T>, i: int)
    requires 0 <= i <= |s| && t == s[i..] && |r| <= |t| && r == t[..|r|]
    ensures r == s[i..i + |r|] && s[i + |r|..] == t[|r|..]
  {
  }

  /** `trim` only removes characters: it adds none that were not there. */
  lemma TrimKeepsOut(s: string, c: char)
    requires c !in s
    ensures c !in Trim(s)
  {
    var t := TrimStart(s);
    assert forall x :: x in t ==> x in s;
    assert forall x :: x in TrimEnd(t) ==> x in t;
  }

  /** `trim` gives the empty string exactly for all-white-space input. */
  lemma TrimEmptyIff(s: string)
    ensures Trim(s) == [] <==> AllSpace(s)
  {
    if AllSpace(s) {
      AllSpaceTrimsToEmpty(s);
    }
  }

  lemma TrimStartOfNonSpace(s: string)
    requires s == [] || !IsSpace(s[0])
    ensures TrimStart(s) == s
  {
  }

  lemma TrimEndOfNonSpace(s: string)
    requires s == [] || !IsSpace(s[|s| - 1])
    ensures TrimEnd(s) == s
  {
  }

  /** Trimming a trimmed string changes nothing. */
  lemma TrimOfTrimmed(s: string)
    requires IsTrimmed(s)
    ensures Trim(s) == s
  {
    TrimStartOfNonSpace(s);
    TrimEndOfNonSpace(s);
  }

  lemma {:induction false} TrimStartSpacePrefix(a: string, x: string)
    requires AllSpace(a)
    requires x == [] || !IsSpace(x[0])
    ensures TrimStart(a + x) == x
    decreases |a|
  {
    if a == [] {
      assert a + x == x;
      TrimStartOfNonSpace(x);
    } else {
      assert (a + x)[1..] == a[1..] + x;
      TrimStartSpacePrefix(a[1..], x);
    }
  }

  lemma {:induction false} TrimEndSpaceSuffix(x: string, b: string)
    requires AllSpace(b)
    requires x == [] || !IsSpace(x[|x| - 1])
    ensures TrimEnd(x + b) == x
    decreases |b|
  {
    if b == [] {
      assert x + b == x;
      TrimEndOfNonSpace(x);
    } else {
      assert (x + b)[..|x + b| - 1] == x + b[..|b| - 1];
      TrimEndSpaceSuffix(x, b[..|b| - 1]);
    }
  }

  lemma AllSpaceOfEmpty(x: string)
    requires x == []
    ensures AllSpace(x)
  {
  }

  /** Padding a trimmed string with white space on both sides is undone by `trim`. */
  lemma TrimOfPadded(a: string, x: string, b: string)
    requires AllSpace(a) && AllSpace(b) && IsTrimmed(x)
    ensures Trim(a + x + b) == x
  {
    if x == [] {
      assert a + x + b == a + b;
      assert AllSpace(a + b);
      AllSpaceTrimsToEmpty(a + b);
    } else {
      assert a + x + b == a + (x + b);
      TrimStartSpacePrefix(a, x + b);
      TrimEndSpaceSuffix(x, b);
    }
  }

  lemma {:induction false} AllSpaceTrimsToEmpty(s: string)
    requires AllSpace(s)
    ensures TrimStart(s) == [] && Trim(s) == []
    decreases |s|
  {
    if s != [] {
      AllSpaceTrimsToEmpty(s[1..]);
    }
  }

  /** ASCII `toLowerCase`. */
  function LowerChar(c: char): (r: char)
    ensures 'A' <= c <= 'Z' ==> 'a' <= r <= 'z'
    ensures !('A' <= c <= 'Z') ==> r == c
  {
    if 'A' <= c <= 'Z' then (c as int + 32) as char else c
  }

  function Lower(s: string): (r: string)
    ensures |r| == |s|
    ensures forall i :: 0 <= i < |s| ==> r[i] == LowerChar(s[i])
  {
    seq(|s|, i requires 0 <= i < |s| => LowerChar(s[i]))
  }

  /** The class `[a-z0-9]`. */
  predicate IsLowerAlnum(c: char) {
    'a' <= c <= 'z' || '0' <= c <= '9'
  }

  predicate AllLowerAlnum(s: string) {
    forall i :: 0 <= i < |s| ==> IsLowerAlnum(s[i])
  }

  /** A string `toLowerCase` leaves alone. */
  predicate IsLower(s: string) {
    forall i :: 0 <= i < |s| ==> !('A' <= s[i] <= 'Z')
  }

  /** A prefix of a lower-case string is lower-case. */
  lemma PrefixOfLower(s: string, n: nat)
    requires IsLower(s) && n <= |s|
    ensures IsLower(s[..n])
  {
    assert forall i :: 0 <= i < n ==> s[..n][i] == s[i];
  }

  lemma LowerIsLower(s: string)
    ensures IsLower(Lower(s))
    ensures IsLower(s) ==> Lower(s) == s
  {
  }

  /** `s.split(sep)` for a one-character separator: always at least one part
      (`"".split("|")` is `[""]`), no part contains the separator, and the parts
      joined again with the separator give back `s`. */
  function Split(s: string, sep: char): (parts: seq<string>)
    ensures |parts| >= 1
    ensures forall k :: 0 <= k < |parts| ==> sep !in parts[k]
    ensures Join(parts, [sep]) == s
    decreases |s|
  {
    if s == [] then [""]
    else
      var rest := Split(s[1..], sep);
      if s[0] == sep then
        assert Join([""] + rest, [sep]) == "" + [sep] + Join(rest, [sep]);
        [""] + rest
      else
        var parts := [[s[0]] + rest[0]] + rest[1..];
        JoinConsHead(s[0], rest, [sep]);
        parts
  }

  /** `parts.join(sep)`. */
  function Join(parts: seq<string>, sep: string): string
    decreases |parts|
  {
    if |parts| == 0 then ""
    else if |parts| == 1 then parts[0]
    else parts[0] + sep + Join(parts[1..], sep)
  }

  lemma JoinConsHead(c: char, parts: seq<string>, sep: string)
    requires |parts| >= 1
    ensures Join([[c] + parts[0]] + parts[1..], sep) == [c] + Join(parts, sep)
  {
    var ps := [[c] + parts[0]] + parts[1..];
    assert ps[1..] == parts[1..];
  }

  lemma JoinAppend(parts: seq<string>, x: string, sep: string)
    requires |parts| >= 1
    ensures Join(parts + [x], sep) == Join(parts, sep) + sep + x
    decreases |parts|
  {
    if |parts| == 1 {
      assert (parts + [x])[1..] == [x];
    } else {
      assert (parts + [x])[1..] == parts[1..] + [x];
      JoinAppend(parts[1..], x, sep);
    }
  }

  lemma JoinSplitAt(parts: seq<string>, k: nat, sep: string)
    requires 1 <= k < |parts|
    ensures Join(parts, sep) == Join(parts[..k], sep) + sep + Join(parts[k..], sep)
    decreases k
  {
    if k == 1 {
      assert parts[..1] == [parts[0]];
      assert parts[1..] == parts[k..];
    } else {
      assert parts[1..][..k - 1] == parts[1..k];
      assert parts[1..][k - 1..] == parts[k..];
      JoinSplitAt(parts[1..], k - 1, sep);
      assert parts[..k][1..] == parts[1..k];
    }
  }

  /** The converse of Split's join property: parts that do not contain the
      separator are exactly what `split` recovers from their join. */
  lemma {:induction false} SplitOfJoin(parts: seq<string>, sep: char)
    requires |parts| >= 1
    requires forall k :: 0 <= k < |parts| ==> sep !in parts[k]
    ensures Split(Join(parts, [sep]), sep) == parts
    decreases |parts|, |parts[0]|
  {
    var s := Join(parts, [sep]);
    if parts[0] == [] {
      if |parts| == 1 {
      } else {
        assert s == [sep] + Join(parts[1..], [sep]);
        assert s[1..] == Join(parts[1..], [sep]);
        SplitOfJoin(parts[1..], sep);
        assert [""] + parts[1..] == parts;
      }
    } else {
      var c := parts[0][0];
      var tail := [parts[0][1..]] + parts[1..];
      assert tail[1..] == parts[1..];
      assert parts[0] == [c] + parts[0][1..];
      assert [[c] + tail[0]] + tail[1..] == parts;
      JoinConsHead(c, tail, [sep]);
      assert s == [c] + Join(tail, [sep]);
      assert s[1..] == Join(tail, [sep]);
      assert forall k :: 0 <= k < |tail| ==> sep !in tail[k] by {
        forall k | 0 <= k < |tail|
          ensures sep !in tail[k]
        {
          if k == 0 {
            assert forall x :: x in parts[0][1..] ==> x in parts[0];
          } else {
            assert tail[k] == parts[k];
          }
        }
      }
      SplitOfJoin(tail, sep);
    }
  }

  /** `t` occurs in `s` at position `i`. */
  predicate OccursAt(s: string, t: string, i: int) {
    0 <= i && i + |t| <= |s| && s[i..i + |t|] == t
  }

  /** `s.indexOf(t, from)`: the first occurrence at or after `from`. */
  function IndexFrom(s: string, t: string, from: nat): (r: Option<nat>)
    ensures r.Some? ==> from <= r.value && OccursAt(s, t, r.value)
    ensures r.Some? ==> forall j :: from <= j < r.value ==> !OccursAt(s, t, j)
    ensures r.None? ==> forall j :: from <= j ==> !OccursAt(s, t, j)
    decreases |s| - from
  {
    if from + |t| > |s| then None
    else if s[from..from + |t|] == t then Some(from)
    else IndexFrom(s, t, from + 1)
  }

  function IndexOf(s: string, t: string): (r: Option<nat>)
    ensures r.Some? ==> OccursAt(s, t, r.value)
    ensures r.Some? ==> forall j :: 0 <= j < r.value ==> !OccursAt(s, t, j)
    ensures r.None? ==> forall j :: !OccursAt(s, t, j)
  {
    IndexFrom(s, t, 0)
  }

  /** The search stops at the first occurrence at or after `from`. */
  lemma {:induction false} IndexFromFinds(s: string, t: string, from: nat, i: nat)
    requires from <= i && OccursAt(s, t, i)
    requires forall j :: from <= j < i ==> !OccursAt(s, t, j)
    ensures IndexFrom(s, t, from) == Some(i)
    decreases i - from
  {
    if from < i {
      IndexFromFinds(s, t, from + 1, i);
    }
  }

  /** `indexOf` returns the first occurrence. */
  lemma IndexOfFirst(s: string, t: string, i: nat)
    requires OccursAt(s, t, i)
    requires forall j :: 0 <= j < i ==> !OccursAt(s, t, j)
    ensures IndexOf(s, t) == Some(i)
  {
    IndexFromFinds(s, t, 0, i);
  }

  /** `s.includes(t)`. */
  predicate Contains(s: string, t: string) {
    IndexOf(s, t).Some?
  }

  lemma ContainsWitness(s: string, t: string, i: int)
    requires OccursAt(s, t, i)
    ensures Contains(s, t)
  {
  }

  /** Whatever a string contains, any string it is part of contains too. */
  lemma ContainsInContext(a: string, b: string, c: string, t: string)
    requires Contains(b, t)
    ensures Contains(a + b + c, t)
  {
    var i := IndexOf(b, t).value;
    var s := a + b + c;
    assert s[|a| + i..|a| + i + |t|] == b[i..i + |t|];
    ContainsWitness(s, t, |a| + i);
  }

  /** Number of occurrences of `c` in `s`. */
  function Count(s: string, c: char): nat
    decreases |s|
  {
    if s == [] then 0
    else (if s[|s| - 1] == c then 1 else 0) + Count(s[..|s| - 1], c)
  }

  lemma CountAppend(s: string, t: string, c: char)
    ensures Count(s + t, c) == Count(s, c) + Count(t, c)
    decreases |t|
  {
    if t == [] {
      assert s + t == s;
    } else {
      assert (s + t)[..|s + t| - 1] == s + t[..|t| - 1];
      CountAppend(s, t[..|t| - 1], c);
    }
  }

  lemma CountAbsent(s: string, c: char)
    requires c !in s
    ensures Count(s, c) == 0
    decreases |s|
  {
    if s != [] {
      assert forall x :: x in s[..|s| - 1] ==> x in s;
      CountAbsent(s[..|s| - 1], c);
    }
  }
}

=== FILE: LastWins.dfy ===
/** What a loop `index[key(x)] = x` over a list builds: one entry per key,
    and for a key shared by several elements the last one wins.  The scripts
    build their column map, their File-keyed row map and their output files
    this way. */
module LastWins {

  /** Element `k` is the last one in `xs` with its key. */
  ghost predicate IsLast<T>(xs: seq<T>, key: T -> string, k: int)
    requires 0 <= k < |xs|
  {
    forall j :: k < j < |xs| ==> key(xs[j]) != key(xs[k])
  }

  function Index<T>(xs: seq<T>, key: T -> string): (m: map<string, T>)
    ensures m.Keys == set x | x in xs :: key(x)
    ensures forall k :: 0 <= k < |xs| && IsLast(xs, key, k) ==> m[key(xs[k])] == xs[k]
    decreases |xs|
  {
    if xs == [] then map[]
    else
      var init := xs[..|xs| - 1];
      var last := xs[|xs| - 1];
      var m := Index(init, key)[key(last) := last];
      assert xs == init + [last];
      assert forall k :: 0 <= k < |xs| - 1 && IsLast(xs, key, k) ==> IsLast(init, key, k);
      m
  }

  /** Every key's entry is the last element carrying that key. */
  lemma IndexIsLast<T>(xs: seq<T>, key: T -> string, k: int)
    requires 0 <= k < |xs|
    ensures key(xs[k]) in Index(xs, key)
    ensures exists j :: k <= j < |xs| && IsLast(xs, key, j) && key(xs[j]) == key(xs[k])
                        && Index(xs, key)[key(xs[k])] == xs[j]
    decreases |xs| - k
  {
    if !IsLast(xs, key, k) {
      var j :| k < j < |xs| && key(xs[j]) == key(xs[k]);
      IndexIsLast(xs, key, j);
    }
  }
}

=== FILE: Links.dfy ===
/** The links from the navbar and the carousels to an offer page
    (`/pages/offers/<file>/` in scripts/update_site.js,
    public/scripts/inject-navbar.js and public/scripts/inject-carousels.js).
    The link is derived from the raw File cell with `/.html$/i`, whose dot is
    not escaped, while the page itself is written to the trimmed, lower-cased
    folder name. */
module Links {
  import opened JsString
  import opened Columns
  import Manifest

  const OffersPath: string := "/pages/offers/"

  /** `.replace(/.html$/i, '')`: the last five characters are any character
      but a line terminator followed by `html` in any case. */
  predicate EndsWithLooseHtml(s: string) {
    |s| >= 5 && !IsLineTerminator(s[|s| - 5]) && Lower(s[|s| - 4..]) == "html"
  }

  function StripLooseHtml(s: string): (r: string)
    ensures EndsWithLooseHtml(s) ==> r == s[..|s| - 5]
    ensures !EndsWithLooseHtml(s) ==> r == s
  {
    if EndsWithLooseHtml(s) then s[..|s| - 5] else s
  }

  /** The loose pattern removes whatever `.html` removes. */
  lemma LooseCoversExact(s: string)
    requires Manifest.EndsWithHtml(s)
    ensures StripLooseHtml(s) == Manifest.StripHtml(s)
  {
    var t := s[|s| - 5..];
    assert Lower(t) == ".html";
    assert Lower(t)[0] == '.';
    assert s[|s| - 5] == t[0];
    assert Lower(s[|s| - 4..]) == Lower(t)[1..] by {
      assert s[|s| - 4..] == t[1..];
    }
  }

  /** The page link as the scripts write it, from the raw File cell. */
  function HrefAsWritten(file: string): (href: string)
    ensures |href| > |OffersPath| && href[..|OffersPath|] == OffersPath && href[|href| - 1] == '/'
  {
    OffersPath + StripLooseHtml(file) + "/"
  }

  /** The link to the folder the generator wrote. */
  function Href(folder: string): (href: string)
    ensures |href| > |OffersPath| && href[..|OffersPath|] == OffersPath && href[|href| - 1] == '/'
  {
    OffersPath + folder + "/"
  }

  /** A link names the folder between the prefix and the closing slash. */
  function LinkedFolder(href: string): string
    requires |href| > |OffersPath| && href[|href| - 1] == '/'
  {
    href[|OffersPath|..|href| - 1]
  }

  /** The corrected link leads to exactly the folder the page was written to. */
  lemma HrefReachesFolder(row: Row, cm: ColMap)
    ensures var href := Href(Manifest.FolderName(row, Manifest.FileKeyOf(cm)));
            LinkedFolder(href) == Manifest.FolderName(row, Manifest.FileKeyOf(cm))
  {
  }

  /** Two different folders get two different links. */
  lemma HrefInjective(a: string, b: string)
    requires Href(a) == Href(b)
    ensures a == b
  {
    assert LinkedFolder(Href(a)) == a;
    assert LinkedFolder(Href(b)) == b;
  }

  /** A File cell that is trimmed, lower-case and ends in exactly `.html`
      gets a link to its own folder even as written. */
  lemma HrefAsWrittenAgrees(row: Row, cm: ColMap)
    requires "file" in cm && cm["file"] == "File"
    requires var f := Field(row, "File"); IsTrimmed(f) && IsLower(f)
    requires !EndsWithLooseHtml(Field(row, "File")) || Manifest.EndsWithHtml(Field(row, "File"))
    ensures HrefAsWritten(Field(row, "File")) == Href(Manifest.FolderName(row, Manifest.FileKeyOf(cm)))
  {
    var f := Field(row, "File");
    KeyOfTrimmedLower(row, cm);
    assert Manifest.FolderName(row, Manifest.FileKeyOf(cm)) == Manifest.StripHtml(f);
    if Manifest.EndsWithHtml(f) {
      LooseCoversExact(f);
    }
  }

  lemma KeyOfTrimmedLower(row: Row, cm: ColMap)
    requires "file" in cm && cm["file"] == "File"
    requires var f := Field(row, "File"); IsTrimmed(f) && IsLower(f)
    ensures Manifest.FileKey(row, cm) == Field(row, "File")
  {
    var f := Field(row, "File");
    Manifest.FileKeyIsClientKey(cm, row);
    TrimOfTrimmed(f);
    LowerIsLower(f);
  }

  /** Lower-casing keeps an exact `.html` ending and commutes with cutting it off. */
  lemma LowerKeepsHtml(f: string)
    requires Manifest.EndsWithHtml(f)
    ensures Manifest.EndsWithHtml(Lower(f))
    ensures Manifest.StripHtml(Lower(f)) == Lower(f[..|f| - 5])
  {
    var l := Lower(f);
    var tail := f[|f| - 5..];
    assert l[|l| - 5..] == Lower(tail);
    LowerIsLower(tail);
    assert l[..|l| - 5] == Lower(f[..|f| - 5]);
  }

  /** The written link is the corrected link of the loosely stripped name. */
  lemma AsWrittenIsHref(f: string)
    ensures HrefAsWritten(f) == Href(StripLooseHtml(f))
  {
  }

  lemma DifferentFoldersDifferentHrefs(a: string, b: string)
    requires a != b
    ensures Href(a) != Href(b)
  {
    if Href(a) == Href(b) {
      HrefInjective(a, b);
    }
  }

  /** The folder of a trimmed File cell ending in `.html`. */
  lemma FolderOfHtmlFile(f: string)
    requires IsTrimmed(f) && Manifest.EndsWithHtml(f)
    ensures Manifest.StripHtml(Lower(Trim(f))) == Lower(f[..|f| - 5])
  {
    TrimOfTrimmed(f);
    LowerKeepsHtml(f);
  }

  lemma LowerChangesUpper(s: string, i: nat)
    requires i < |s| && 'A' <= s[i] <= 'Z'
    ensures Lower(s) != s
  {
    assert Lower(s)[i] != s[i];
  }

  /** With an upper-case letter before `.html`, the loosely stripped name and
      the folder differ. */
  lemma UpperCaseFolders(f: string, i: nat)
    requires IsTrimmed(f) && Manifest.EndsWithHtml(f)
    requires i < |f| - 5 && 'A' <= f[i] <= 'Z'
    ensures StripLooseHtml(f) == f[..|f| - 5]
    ensures Manifest.StripHtml(Lower(Trim(f))) == Lower(f[..|f| - 5])
    ensures StripLooseHtml(f) != Manifest.StripHtml(Lower(Trim(f)))
  {
    LooseCoversExact(f);
    FolderOfHtmlFile(f);
    LowerChangesUpper(f[..|f| - 5], i);
  }

  /** A File cell ending in `.html` with an upper-case letter before it is
      linked with the upper case kept, while the page is in the lower-cased
      folder. */
  lemma UpperCaseMissesFolder(f: string, i: nat)
    requires IsTrimmed(f) && Manifest.EndsWithHtml(f)
    requires i < |f| - 5 && 'A' <= f[i] <= 'Z'
    ensures HrefAsWritten(f) == Href(f[..|f| - 5])
    ensures Href(Manifest.StripHtml(Lower(Trim(f)))) == Href(Lower(f[..|f| - 5]))
    ensures HrefAsWritten(f) != Href(Manifest.StripHtml(Lower(Trim(f))))
  {
    UpperCaseFolders(f, i);
    AsWrittenIsHref(f);
    DifferentFoldersDifferentHrefs(StripLooseHtml(f), Manifest.StripHtml(Lower(Trim(f))));
  }

  /** `.html$` needs a dot where the loose pattern takes any character. */
  lemma NotHtmlEnding(s: string)
    requires |s| >= 5 && s[|s| - 5] != '.'
    ensures Manifest.StripHtml(s) == s
  {
    var t := s[|s| - 5..];
    assert t[0] == s[|s| - 5];
    assert Lower(t)[0] != '.';
  }

  lemma LooseDotFolders(f: string)
    requires IsTrimmed(f) && IsLower(f)
    requires EndsWithLooseHtml(f) && f[|f| - 5] != '.'
    ensures StripLooseHtml(f) == f[..|f| - 5]
    ensures Manifest.StripHtml(Lower(Trim(f))) == f
  {
    TrimOfTrimmed(f);
    LowerIsLower(f);
    NotHtmlEnding(f);
  }

  /** A lower-case File cell ending in some character other than a dot
      followed by `html` is linked with those five characters cut off, while
      the page keeps them in its folder name. */
  lemma LooseDotMissesFolder(f: string)
    requires IsTrimmed(f) && IsLower(f)
    requires EndsWithLooseHtml(f) && f[|f| - 5] != '.'
    ensures HrefAsWritten(f) == Href(f[..|f| - 5])
    ensures Href(Manifest.StripHtml(Lower(Trim(f)))) == Href(f)
    ensures HrefAsWritten(f) != Href(Manifest.StripHtml(Lower(Trim(f))))
  {
    LooseDotFolders(f);
    AsWrittenIsHref(f);
    DifferentFoldersDifferentHrefs(f[..|f| - 5], f);
  }

  /** Two File cells that show both ways: `shopxhtml` is linked as `shop` but
      written to `shopxhtml`, and `Wise.html` is linked as `Wise` but written
      to `wise`. */
  lemma HrefAsWrittenMissesFolder(shop: string, wise: string)
    requires shop == "shopxhtml" && wise == "Wise.html"
    ensures HrefAsWritten(shop) != Href(Manifest.StripHtml(Lower(Trim(shop))))
    ensures HrefAsWritten(wise) != Href(Manifest.StripHtml(Lower(Trim(wise))))
  {
    ShopPreconditions(shop);
    LooseDotMissesFolder(shop);
    WisePreconditions(wise);
    UpperCaseMissesFolder(wise, 0);
  }

  lemma ShopPreconditions(shop: string)
    requires shop == "shopxhtml"
    ensures IsTrimmed(shop) && IsLower(shop)
    ensures EndsWithLooseHtml(shop) && shop[|shop| - 5] != '.'
  {
    assert shop[5..] == "html";
    LowerIsLower(shop[5..]);
  }

  lemma WisePreconditions(wise: string)
    requires wise == "Wise.html"
    ensures IsTrimmed(wise) && Manifest.EndsWithHtml(wise)
    ensures 0 < |wise| - 5 && 'A' <= wise[0] <= 'Z'
  {
    assert wise[4..] == ".html";
    LowerIsLower(wise[4..]);
  }
}

=== FILE: ListFields.dfy ===
/** The list fields of an offer (How It Works, Why Choose, Features) and the
    mini cards they become (`offerTemplate`, `extractEmojiAndTitle` and
    `miniCard` in scripts/update_site.js and scripts/generate_missing_offers.js). */
module ListFields {
  import opened JsString

  lemma TrimKeepsAbsent(s: string, c: char)
    requires c !in s
    ensures c !in Trim(s)
  {
    var a := TrimStart(s);
    assert forall x :: x in a ==> x in s;
    assert forall x :: x in TrimEnd(a) ==> x in a;
  }

  /** `.map(s => s.trim())`. */
  function TrimAll(parts: seq<string>): (r: seq<string>)
    ensures |r| == |parts|
    ensures forall k :: 0 <= k < |r| ==> r[k] == Trim(parts[k])
  {
    seq(|parts|, k requires 0 <= k < |parts| => Trim(parts[k]))
  }

  /** `.filter(Boolean)` on strings: drops the empty ones, keeps the order. */
  function NonEmpty(xs: seq<string>): (r: seq<string>)
    ensures forall k :: 0 <= k < |r| ==> r[k] != "" && r[k] in xs
    ensures multiset(r) == multiset(xs)["" := 0]
    ensures (forall k :: 0 <= k < |xs| ==> xs[k] != "") ==> r == xs
    decreases |xs|
  {
    if xs == [] then []
    else
      assert xs == [xs[0]] + xs[1..];
      if xs[0] == "" then NonEmpty(xs[1..])
      else [xs[0]] + NonEmpty(xs[1..])
  }

  /** Filtering a concatenation filters each part, in order. */
  lemma {:induction false} NonEmptyAppend(xs: seq<string>, ys: seq<string>)
    ensures NonEmpty(xs + ys) == NonEmpty(xs) + NonEmpty(ys)
    decreases |xs|
  {
    if xs == [] {
      assert xs + ys == ys;
    } else {
      var zs := xs + ys;
      assert zs[0] == xs[0] && zs[1..] == xs[1..] + ys;
      NonEmptyAppend(xs[1..], ys);
      if xs[0] == "" {
        assert NonEmpty(zs) == NonEmpty(zs[1..]);
      } else {
        assert NonEmpty(zs) == [xs[0]] + NonEmpty(zs[1..]);
      }
    }
  }

  /** `(value || '').split('|').map(s => s.trim()).filter(Boolean)`: the
      trimmed, non-empty segments between pipes. */
  function ListItems(field: string): (items: seq<string>)
    ensures forall k :: 0 <= k < |items| ==>
              items[k] != "" && IsTrimmed(items[k]) && '|' !in items[k]
  {
    var parts := Split(field, '|');
    forall k | 0 <= k < |parts| ensures '|' !in Trim(parts[k]) {
      TrimKeepsAbsent(parts[k], '|');
    }
    NonEmpty(TrimAll(parts))
  }

  /** Any pipe-free segments joined by pipes give back their trimmed,
      non-empty members, in order: the segments' own list, filtered. */
  lemma ListItemsOfSegments(segs: seq<string>)
    requires |segs| >= 1
    requires forall k :: 0 <= k < |segs| ==> '|' !in segs[k]
    ensures ListItems(Join(segs, "|")) == NonEmpty(TrimAll(segs))
  {
    SplitOfJoin(segs, '|');
  }

  /** Items that are already trimmed, non-empty and pipe-free come back out of
      the field they are joined into, all of them and in order. */
  lemma ListItemsOfJoin(items: seq<string>)
    requires forall k :: 0 <= k < |items| ==> items[k] != "" && IsTrimmed(items[k]) && '|' !in items[k]
    ensures ListItems(Join(items, "|")) == items
  {
    if items == [] {
      ListItemsOfEmpty();
    } else {
      SplitOfJoin(items, '|');
      TrimAllOfTrimmed(items);
    }
  }

  /** An empty field has no items. */
  lemma ListItemsOfEmpty()
    ensures ListItems("") == []
  {
    assert Split("", '|') == [""];
    assert TrimAll([""]) == [""] by { AllSpaceTrimsToEmpty(""); }
  }

  /** Trimming strings that are already trimmed changes nothing. */
  lemma TrimAllOfTrimmed(items: seq<string>)
    requires forall k :: 0 <= k < |items| ==> IsTrimmed(items[k])
    ensures TrimAll(items) == items
  {
    forall k | 0 <= k < |items| ensures Trim(items[k]) == items[k] {
      TrimOfTrimmed(items[k]);
    }
  }

  /** One item split at its first colon: the text before it is the title, the
      rest (colons included) trimmed is the description. */
  datatype TitleDesc = TitleDesc(title: string, desc: string)

  /** `const [title, ...descArr] = item.split(':'); descArr.join(':').trim()`. */
  function SplitTitle(item: string): (p: TitleDesc)
    ensures ':' !in p.title
    ensures ':' !in item ==> p == TitleDesc(item, "")
    ensures ':' in item ==> |p.title| < |item| && item[..|p.title| + 1] == p.title + ":"
                            && p.desc == Trim(item[|p.title| + 1..])
  {
    var parts := Split(item, ':');
    var rest := Join(parts[1..], ":");
    if |parts| == 1 then
      AllSpaceTrimsToEmpty("");
      TitleDesc(parts[0], Trim(rest))
    else
      JoinSplitAt(parts, 1, ":");
      assert parts[..1] == [parts[0]];
      assert item == parts[0] + ":" + rest;
      assert item[|parts[0]| + 1..] == rest;
      TitleDesc(parts[0], Trim(rest))
  }

  /** Joining a colon-free title and a description with a colon splits back
      into the title and the trimmed description. */
  lemma SplitTitleOfJoin(title: string, desc: string)
    requires ':' !in title
    ensures SplitTitle(title + ":" + desc) == TitleDesc(title, Trim(desc))
  {
    var item := title + ":" + desc;
    assert item[..|title| + 1] == title + ":";
    assert item[|title| + 1..] == desc;
    var p := SplitTitle(item);
    ColonFreePrefixUnique(item, p.title, title);
  }

  /** At most one colon-free prefix of a string is followed by a colon. */
  lemma ColonFreePrefixUnique(item: string, t1: string, t2: string)
    requires ':' !in t1 && ':' !in t2
    requires |t1| < |item| && item[..|t1| + 1] == t1 + ":"
    requires |t2| < |item| && item[..|t2| + 1] == t2 + ":"
    ensures t1 == t2
  {
    ColonAfterPrefix(item, t1);
    ColonAfterPrefix(item, t2);
    assert |t1| == |t2|;
    assert t1 == item[..|t1|] == t2 by {
      assert t1 == (t1 + ":")[..|t1|];
      assert t2 == (t2 + ":")[..|t2|];
    }
  }

  lemma ColonAfterPrefix(item: string, t: string)
    requires ':' !in t
    requires |t| < |item| && item[..|t| + 1] == t + ":"
    ensures item[|t|] == ':'
    ensures forall i :: 0 <= i < |t| ==> item[i] != ':'
  {
    assert item[|t|] == (t + ":")[|t|];
    assert forall i :: 0 <= i < |t| ==> item[i] == (t + ":")[i] == t[i];
  }

  /** An icon and a title, as `extractEmojiAndTitle` returns them. */
  datatype IconTitle = IconTitle(icon: string, title: string)

  predicate NoLineTerminator(s: string) {
    forall i :: 0 <= i < |s| ==> !IsLineTerminator(s[i])
  }

  /** `/^([\p{Emoji_Presentation}\p{Extended_Pictographic}])\s*(.*)$/u` matches:
      an emoji first, and after the white space that follows it no line
      terminator (`.` stops at one and `$` needs the end of the input). */
  predicate LeadingEmoji(s: string, isEmoji: char -> bool) {
    |s| > 0 && isEmoji(s[0]) && NoLineTerminator(TrimStart(s[1..]))
  }

  /** `extractEmojiAndTitle(str, fallback)`; the emoji test is a parameter. */
  function ExtractEmojiAndTitle(s: string, fallback: string, isEmoji: char -> bool): (r: IconTitle)
    ensures IsTrimmed(r.title)
    ensures LeadingEmoji(s, isEmoji) ==> r == IconTitle([s[0]], Trim(s[1..]))
    ensures !LeadingEmoji(s, isEmoji) ==> r == IconTitle(fallback, Trim(s))
  {
    if LeadingEmoji(s, isEmoji) then
      TrimStartTrimEnd(s[1..]);
      IconTitle([s[0]], Trim(TrimStart(s[1..])))
    else IconTitle(fallback, Trim(s))
  }

  lemma TrimStartTrimEnd(s: string)
    ensures Trim(TrimStart(s)) == Trim(s)
  {
    TrimStartOfNonSpace(TrimStart(s));
  }

  /** The How It Works icons, `numberEmojis`: keycap 1 to 9, then the ten symbol. */
  const NumberEmojis: seq<string> := [
    "1\U{FE0F}\U{20E3}", "2\U{FE0F}\U{20E3}", "3\U{FE0F}\U{20E3}", "4\U{FE0F}\U{20E3}",
    "5\U{FE0F}\U{20E3}", "6\U{FE0F}\U{20E3}", "7\U{FE0F}\U{20E3}", "8\U{FE0F}\U{20E3}",
    "9\U{FE0F}\U{20E3}", "\U{1F51F}"]

  const TenIcon: string := "\U{1F51F}"
  const DefaultIcon: string := "\U{1F4A1}"
  const FeatureIcon: string := "\U{2B50}"

  /** `numberEmojis[i] || numberEmojis[numberEmojis.length-1]`. */
  function StepIcon(i: nat): string {
    if i < |NumberEmojis| then NumberEmojis[i] else NumberEmojis[|NumberEmojis| - 1]
  }

  /** Step `i` falls back to the `i`-th number icon, and every step from the
      tenth on to the ten symbol. */
  lemma StepIconFallback(i: nat)
    ensures i < 9 ==> StepIcon(i) == [(('1' as int) + i) as char, '\U{FE0F}', '\U{20E3}']
    ensures i >= 9 ==> StepIcon(i) == TenIcon
  {
  }

  /** `.replace(/<c>/g, t)`. */
  function ReplaceChar(s: string, c: char, t: string): (r: string)
    ensures c !in t ==> c !in r
    ensures forall d :: d !in s && d !in t ==> d !in r
    ensures c !in s ==> r == s
    decreases |s|
  {
    if s == [] then []
    else (if s[0] == c then t else [s[0]]) + ReplaceChar(s[1..], c, t)
  }

  /** `safeIcon` in `miniCard`: `'` becomes `&#39;`, then `"` becomes `&quot;`. */
  function SafeIcon(icon: string): (r: string)
    ensures '\'' !in r && '"' !in r
    ensures '\'' !in icon && '"' !in icon ==> r == icon
  {
    ReplaceChar(ReplaceChar(icon, '\'', "&#39;"), '"', "&quot;")
  }

  /** Reading `&#39;` and `&quot;` back as the characters they stand for. */
  function UnescapeIcon(s: string): string
    decreases |s|
  {
    if |s| >= 5 && s[..5] == "&#39;" then "'" + UnescapeIcon(s[5..])
    else if |s| >= 6 && s[..6] == "&quot;" then "\"" + UnescapeIcon(s[6..])
    else if s == [] then []
    else [s[0]] + UnescapeIcon(s[1..])
  }

  /** Escaping one character at a time, which is what the two passes amount to. */
  function EscapeEach(s: string): string
    decreases |s|
  {
    if s == [] then []
    else (if s[0] == '\'' then "&#39;" else if s[0] == '"' then "&quot;" else [s[0]]) + EscapeEach(s[1..])
  }

  lemma {:induction false} ReplaceQuotesIsEscapeEach(s: string)
    ensures ReplaceChar(ReplaceChar(s, '\'', "&#39;"), '"', "&quot;") == EscapeEach(s)
    decreases |s|
  {
    if s != [] {
      ReplaceQuotesIsEscapeEach(s[1..]);
      var head := if s[0] == '\'' then "&#39;" else [s[0]];
      ReplaceAppend(head, ReplaceChar(s[1..], '\'', "&#39;"), '"', "&quot;");
    }
  }

  lemma {:induction false} ReplaceAppend(a: string, b: string, c: char, t: string)
    ensures ReplaceChar(a + b, c, t) == ReplaceChar(a, c, t) + ReplaceChar(b, c, t)
    decreases |a|
  {
    if a == [] {
      assert a + b == b;
    } else {
      assert (a + b)[0] == a[0];
      assert (a + b)[1..] == a[1..] + b;
      ReplaceAppend(a[1..], b, c, t);
      var h := if a[0] == c then t else [a[0]];
      assert ReplaceChar(a + b, c, t) == h + ReplaceChar(a[1..] + b, c, t);
      assert ReplaceChar(a, c, t) == h + ReplaceChar(a[1..], c, t);
      assert h + (ReplaceChar(a[1..], c, t) + ReplaceChar(b, c, t))
          == (h + ReplaceChar(a[1..], c, t)) + ReplaceChar(b, c, t);
    }
  }

  lemma {:induction false} UnescapeEscapeEach(s: string)
    requires '&' !in s
    ensures UnescapeIcon(EscapeEach(s)) == s
    decreases |s|
  {
    if s != [] {
      var e := EscapeEach(s);
      var rest := EscapeEach(s[1..]);
      UnescapeEscapeEach(s[1..]);
      if s[0] == '\'' {
        assert e == "&#39;" + rest;
        assert e[..5] == "&#39;" && e[5..] == rest;
      } else if s[0] == '"' {
        assert e == "&quot;" + rest;
        assert e[1] == 'q';
        assert e[..6] == "&quot;" && e[6..] == rest;
      } else {
        assert e == [s[0]] + rest;
        assert e[..1] == [s[0]] && e[1..] == rest;
      }
    }
  }

  /** For an icon with no `&` of its own, the escaping is undone exactly. */
  lemma SafeIconRoundTrip(icon: string)
    requires '&' !in icon
    ensures UnescapeIcon(SafeIcon(icon)) == icon
  {
    ReplaceQuotesIsEscapeEach(icon);
    UnescapeEscapeEach(icon);
  }

  /** What `miniCard(title, desc, icon)` shows. */
  datatype MiniCard = MiniCard(title: string, desc: string, icon: string)

  /** One list item rendered as a mini card with the given fallback icon. */
  function CardOf(item: string, fallback: string, isEmoji: char -> bool): (c: MiniCard)
    ensures '\'' !in c.icon && '"' !in c.icon
    ensures IsTrimmed(c.title) && IsTrimmed(c.desc)
  {
    var p := SplitTitle(item);
    var it := ExtractEmojiAndTitle(Trim(p.title), fallback, isEmoji);
    MiniCard(it.title, p.desc, SafeIcon(it.icon))
  }

  /** The How It Works cards: item `i` falls back to `StepIcon(i)`. */
  function StepCards(items: seq<string>, isEmoji: char -> bool): (cards: seq<MiniCard>)
    ensures |cards| == |items|
    ensures forall i :: 0 <= i < |items| ==> cards[i] == CardOf(items[i], StepIcon(i), isEmoji)
  {
    seq(|items|, i requires 0 <= i < |items| => CardOf(items[i], StepIcon(i), isEmoji))
  }

  /** The Why Choose and Features cards: every item falls back to `fallback`. */
  function PlainCards(items: seq<string>, fallback: string, isEmoji: char -> bool): (cards: seq<MiniCard>)
    ensures |cards| == |items|
    ensures forall i :: 0 <= i < |items| ==> cards[i] == CardOf(items[i], fallback, isEmoji)
  {
    seq(|items|, i requires 0 <= i < |items| => CardOf(items[i], fallback, isEmoji))
  }

  /** A card's icon is the item's leading emoji (escaped) or the fallback (escaped). */
  lemma CardIcon(item: string, fallback: string, isEmoji: char -> bool)
    ensures var t := Trim(SplitTitle(item).title);
            var c := CardOf(item, fallback, isEmoji);
            (LeadingEmoji(t, isEmoji) && c.icon == SafeIcon([t[0]]))
            || (!LeadingEmoji(t, isEmoji) && c.icon == SafeIcon(fallback))
  {
  }
}

=== FILE: Manifest.dfy ===
/** The generator loop of scripts/update_site.js and
    scripts/generate_missing_offers.js (File to folder name, one page per
    row, the `generated_offers.json` manifest, the `csvMap` index) and the
    manifest filters of the client scripts public/scripts/inject-carousels.js
    and public/scripts/inject-navbar.js. */
module Manifest {
  import opened Wrappers
  import opened JsString
  import opened Columns
  import LastWins
  import opened OfferPage

  /** `(getVal(row, 'File') || '').trim().toLowerCase()`. */
  function FileKey(row: Row, cm: ColMap): (key: string)
    ensures IsLower(key)
  {
    LowerIsLower(Trim(GetVal(row, "File", cm)));
    Lower(Trim(GetVal(row, "File", cm)))
  }

  /** The last five characters are `.html` in any case. */
  predicate EndsWithHtml(s: string) {
    |s| >= 5 && Lower(s[|s| - 5..]) == ".html"
  }

  /** `.replace(/\.html$/i, '')`. */
  function StripHtml(s: string): (r: string)
    ensures EndsWithHtml(s) ==> r == s[..|s| - 5]
    ensures !EndsWithHtml(s) ==> r == s
  {
    if EndsWithHtml(s) then s[..|s| - 5] else s
  }

  /** Removing the ending leaves a prefix, five characters shorter exactly
      when there was an ending, and lower-case when the name was. */
  lemma StripHtmlShape(s: string)
    ensures |StripHtml(s)| <= |s| && s[..|StripHtml(s)|] == StripHtml(s)
    ensures EndsWithHtml(s) <==> |StripHtml(s)| + 5 == |s|
    ensures IsLower(s) ==> IsLower(StripHtml(s))
  {
    if IsLower(s) {
      PrefixOfLower(s, |StripHtml(s)|);
    }
  }

  /** `.replace(/\.html$/, '')`, case-sensitive, as the carousel filter
      applies it to an already lower-cased name. */
  function StripLowerHtml(s: string): string {
    if |s| >= 5 && s[|s| - 5..] == ".html" then s[..|s| - 5] else s
  }

  /** On a lower-case name the two agree. */
  lemma StripHtmlOfLower(s: string)
    requires IsLower(s)
    ensures StripLowerHtml(s) == StripHtml(s)
  {
    if |s| >= 5 {
      var t := s[|s| - 5..];
      assert IsLower(t);
      LowerIsLower(t);
    }
  }

  /** The File key of a row under the column map, as a function value: the
      loop lemmas below are stated for any key function. */
  function FileKeyOf(cm: ColMap): Row -> string {
    row => FileKey(row, cm)
  }

  /** The folder a row's page is written to. */
  function FolderName(row: Row, key: Row -> string): (folder: string)
    ensures |folder| <= |key(row)| && key(row)[..|folder|] == folder
    ensures EndsWithHtml(key(row)) <==> |folder| + 5 == |key(row)|
  {
    StripHtml(key(row))
  }

  /** The manifest: the folders of the rows with a non-empty File key, in
      record order, duplicates included. */
  function Folders(rows: seq<Row>, key: Row -> string): (folders: seq<string>)
    ensures |folders| <= |rows|
    decreases |rows|
  {
    if rows == [] then []
    else (if key(rows[0]) != "" then [FolderName(rows[0], key)] else []) + Folders(rows[1..], key)
  }

  /** The manifest of a sheet is the manifests of its parts, one after the
      other; with `FoldersOfOne` this determines it completely. */
  lemma {:induction false} FoldersAppend(a: seq<Row>, b: seq<Row>, key: Row -> string)
    ensures Folders(a + b, key) == Folders(a, key) + Folders(b, key)
    decreases |a|
  {
    if a == [] {
      assert a + b == b;
    } else {
      var head := if key(a[0]) != "" then [FolderName(a[0], key)] else [];
      assert (a + b)[0] == a[0];
      assert (a + b)[1..] == a[1..] + b;
      assert Folders(a + b, key) == head + Folders(a[1..] + b, key);
      FoldersAppend(a[1..], b, key);
      assert Folders(a, key) == head + Folders(a[1..], key);
    }
  }

  /** A row with an empty File key is skipped; any other adds its folder. */
  lemma FoldersOfOne(row: Row, key: Row -> string)
    ensures key(row) == "" ==> Folders([row], key) == []
    ensures key(row) != "" ==> Folders([row], key) == [FolderName(row, key)]
  {
    assert [row][1..] == [];
  }

  /** Every generating row's folder is in the manifest, and every manifest
      entry is the folder of a generating row. */
  lemma {:induction false} FoldersCover(rows: seq<Row>, key: Row -> string)
    ensures forall k :: 0 <= k < |rows| && key(rows[k]) != "" ==> FolderName(rows[k], key) in Folders(rows, key)
    ensures forall f :: f in Folders(rows, key) ==>
              exists k :: 0 <= k < |rows| && key(rows[k]) != "" && FolderName(rows[k], key) == f
    decreases |rows|
  {
    if rows != [] {
      FoldersCover(rows[1..], key);
      var head := if key(rows[0]) != "" then [FolderName(rows[0], key)] else [];
      assert Folders(rows, key) == head + Folders(rows[1..], key);
      forall k | 0 <= k < |rows| && key(rows[k]) != "" ensures FolderName(rows[k], key) in Folders(rows, key) {
        if k > 0 {
          assert rows[1..][k - 1] == rows[k];
        }
      }
      forall f | f in Folders(rows, key)
        ensures exists k :: 0 <= k < |rows| && key(rows[k]) != "" && FolderName(rows[k], key) == f
      {
        if f !in head {
          var k :| 0 <= k < |rows[1..]| && key(rows[1..][k]) != "" && FolderName(rows[1..][k], key) == f;
          assert rows[k + 1] == rows[1..][k];
        }
      }
    }
  }

  /** When every row has a File key, the manifest has one entry per row. */
  lemma {:induction false} FoldersOfAllGenerating(rows: seq<Row>, key: Row -> string)
    requires forall k :: 0 <= k < |rows| ==> key(rows[k]) != ""
    ensures |Folders(rows, key)| == |rows|
    ensures forall k :: 0 <= k < |rows| ==> Folders(rows, key)[k] == FolderName(rows[k], key)
    decreases |rows|
  {
    if rows != [] {
      FoldersOfAllGenerating(rows[1..], key);
    }
  }

  /** One page written by the loop. */
  datatype Output = Output(folder: string, page: Page)

  /** The pages in the order the loop writes them. */
  function Outputs(rows: seq<Row>, key: Row -> string, render: Row -> Page): seq<Output>
    decreases |rows|
  {
    if rows == [] then []
    else
      (if key(rows[0]) != "" then [Output(FolderName(rows[0], key), render(rows[0]))] else [])
      + Outputs(rows[1..], key, render)
  }

  /** One page is written per manifest entry, to that entry's folder, in
      manifest order. */
  lemma {:induction false} OutputsFollowManifest(rows: seq<Row>, key: Row -> string, render: Row -> Page)
    ensures |Outputs(rows, key, render)| == |Folders(rows, key)|
    ensures forall k :: 0 <= k < |Outputs(rows, key, render)| ==>
              Outputs(rows, key, render)[k].folder == Folders(rows, key)[k]
    decreases |rows|
  {
    if rows != [] {
      OutputsFollowManifest(rows[1..], key, render);
    }
  }

  /** The pages of a sheet are the pages of its parts, one after the other. */
  lemma {:induction false} OutputsAppend(a: seq<Row>, b: seq<Row>, key: Row -> string, render: Row -> Page)
    ensures Outputs(a + b, key, render) == Outputs(a, key, render) + Outputs(b, key, render)
    decreases |a|
  {
    if a == [] {
      assert a + b == b;
    } else {
      assert (a + b)[0] == a[0];
      assert (a + b)[1..] == a[1..] + b;
      OutputsAppend(a[1..], b, key, render);
    }
  }

  /** A row with an empty File key writes no page; any other writes one. */
  lemma OutputsOfOne(row: Row, key: Row -> string, render: Row -> Page)
    ensures key(row) == "" ==> Outputs([row], key, render) == []
    ensures key(row) != "" ==> Outputs([row], key, render) == [Output(FolderName(row, key), render(row))]
  {
    assert [row][1..] == [];
  }

  /** The manifest after one more row of the loop. */
  lemma FoldersStep(rows: seq<Row>, i: int, key: Row -> string)
    requires 0 <= i < |rows|
    ensures Folders(rows[..i + 1], key)
            == Folders(rows[..i], key) + (if key(rows[i]) != "" then [StripHtml(key(rows[i]))] else [])
  {
    assert rows[..i + 1] == rows[..i] + [rows[i]];
    FoldersAppend(rows[..i], [rows[i]], key);
    FoldersOfOne(rows[i], key);
  }

  /** The pages after one more row of the loop. */
  lemma OutputsStep(rows: seq<Row>, i: int, key: Row -> string, render: Row -> Page)
    requires 0 <= i < |rows|
    ensures Outputs(rows[..i + 1], key, render)
            == Outputs(rows[..i], key, render)
               + (if key(rows[i]) != "" then [Output(StripHtml(key(rows[i])), render(rows[i]))] else [])
  {
    assert rows[..i + 1] == rows[..i] + [rows[i]];
    OutputsAppend(rows[..i], [rows[i]], key, render);
    OutputsOfOne(rows[i], key, render);
  }

  function FolderOf(o: Output): string { o.folder }

  /** What is on disk after the loop: `writeFileSync` replaces a page, so a
      folder shared by several rows holds the last row's page. */
  function WrittenPages(outs: seq<Output>): (files: map<string, Output>)
    ensures files.Keys == set o | o in outs :: o.folder
    ensures forall k :: 0 <= k < |outs| && LastWins.IsLast(outs, FolderOf, k) ==> files[outs[k].folder] == outs[k]
  {
    LastWins.Index(outs, FolderOf)
  }

  /** One run of the loop. */
  datatype Run = Run(manifest: seq<string>, created: nat, files: map<string, Output>)

  /** The loop over the records, as both generators write it, with the
      template `offerTemplate` as `render`.  An empty sheet writes nothing:
      the site updater returns early and the missing-offers generator fails
      reading the headers of a first record that is not there. */
  method GenerateOffers(rows: seq<Row>, key: Row -> string, render: Row -> Page)
    returns (result: Option<Run>)
    ensures rows == [] <==> result.None?
    ensures result.Some? ==> result.value.manifest == Folders(rows, key)
    ensures result.Some? ==> result.value.created == |result.value.manifest|
    ensures result.Some? ==> result.value.files == WrittenPages(Outputs(rows, key, render))
  {
    if rows == [] {
      return None;
    }
    var manifest: seq<string> := [];
    var created: nat := 0;
    var outs: seq<Output> := [];
    var i := 0;
    while i < |rows|
      invariant 0 <= i <= |rows|
      invariant manifest == Folders(rows[..i], key)
      invariant created == |manifest|
      invariant outs == Outputs(rows[..i], key, render)
    {
      var file := key(rows[i]);
      FoldersStep(rows, i, key);
      OutputsStep(rows, i, key, render);
      if file != "" {
        var folder := StripHtml(file);
        manifest := manifest + [folder];
        outs := outs + [Output(folder, render(rows[i]))];
        created := created + 1;
      }
      i := i + 1;
    }
    assert rows[..|rows|] == rows;
    return Some(Run(manifest, created, WrittenPages(outs)));
  }

  /** The site updater's run: its File keys, its template. */
  method SiteUpdateRun(rows: seq<Row>, cm: ColMap, isEmoji: char -> bool) returns (result: Option<Run>)
    ensures rows == [] <==> result.None?
    ensures result.Some? ==> result.value.manifest == Folders(rows, FileKeyOf(cm))
    ensures result.Some? ==> result.value.created == |result.value.manifest|
  {
    result := GenerateOffers(rows, FileKeyOf(cm), row => OfferPageOf(SiteUpdate, row, cm, isEmoji));
  }

  /** `csvMap`: rows indexed by their File key, a later row replacing an
      earlier one with the same key. */
  function CsvMap(rows: seq<Row>, key: Row -> string): (m: map<string, Row>)
    ensures m.Keys == set row | row in rows :: key(row)
    ensures forall k :: 0 <= k < |rows| && LastWins.IsLast(rows, key, k) ==> m[key(rows[k])] == rows[k]
  {
    LastWins.Index(rows, key)
  }

  /** A later row with the same File key replaces an earlier one. */
  lemma CsvMapLaterRowWins(rows: seq<Row>, key: Row -> string, i: int, j: int)
    requires 0 <= i < j < |rows| && key(rows[i]) == key(rows[j])
    requires LastWins.IsLast(rows, key, j)
    ensures CsvMap(rows, key)[key(rows[i])] == rows[j]
  {
  }

  /** `manifest.map(f => f.toLowerCase())`. */
  function LowerAll(manifest: seq<string>): (r: seq<string>)
    ensures |r| == |manifest|
    ensures forall k :: 0 <= k < |r| ==> r[k] == Lower(manifest[k])
  {
    seq(|manifest|, k requires 0 <= k < |manifest| => Lower(manifest[k]))
  }

  /** The client scripts' File key, read by the exact header `File`. */
  function ClientFileKey(row: Row): (key: string)
    ensures IsLower(key)
  {
    LowerIsLower(Trim(Field(row, "File")));
    Lower(Trim(Field(row, "File")))
  }

  /** The carousel filter: the File key without its `.html` is in the manifest. */
  predicate CarouselKeeps(manifest: seq<string>, row: Row) {
    StripLowerHtml(ClientFileKey(row)) in LowerAll(manifest)
  }

  /** The navbar filter as written: the File key itself is in the manifest. */
  predicate NavbarKeepsAsWritten(manifest: seq<string>, row: Row) {
    ClientFileKey(row) in LowerAll(manifest)
  }

  /** The navbar filter as intended: the same test as the carousel's. */
  predicate NavbarKeeps(manifest: seq<string>, row: Row) {
    CarouselKeeps(manifest, row)
  }

  /** Some manifest entry is `x` once lower-cased. */
  predicate ListedIgnoringCase(manifest: seq<string>, x: string) {
    exists i :: 0 <= i < |manifest| && Lower(manifest[i]) == x
  }

  /** Membership in the lowered manifest is a case-insensitive match of
      some entry. */
  lemma InLowerAll(manifest: seq<string>, x: string)
    ensures x in LowerAll(manifest) <==> ListedIgnoringCase(manifest, x)
  {
    var lowered := LowerAll(manifest);
    if x in lowered {
      var i :| 0 <= i < |lowered| && lowered[i] == x;
    }
  }

  /** What the carousels and the intended navbar keep: a row some manifest
      entry names, ignoring case, once its File key loses an `.html` ending
      of any case. */
  lemma KeepsMeaning(manifest: seq<string>, row: Row)
    ensures CarouselKeeps(manifest, row) <==> ListedIgnoringCase(manifest, StripHtml(ClientFileKey(row)))
    ensures NavbarKeeps(manifest, row) <==> CarouselKeeps(manifest, row)
  {
    CarouselKeepsStripped(manifest, row);
    InLowerAll(manifest, StripHtml(ClientFileKey(row)));
  }

  /** The carousel filter's case-sensitive removal of `.html` is the
      any-case one, since the key is already lower-case. */
  lemma CarouselKeepsStripped(manifest: seq<string>, row: Row)
    ensures CarouselKeeps(manifest, row) <==> StripHtml(ClientFileKey(row)) in LowerAll(manifest)
  {
    StripHtmlOfLower(ClientFileKey(row));
  }

  /** What the navbar as written keeps: a row some manifest entry names,
      ignoring case, with its whole File key, ending included. */
  lemma KeepsAsWrittenMeaning(manifest: seq<string>, row: Row)
    ensures NavbarKeepsAsWritten(manifest, row) <==> ListedIgnoringCase(manifest, ClientFileKey(row))
  {
    InLowerAll(manifest, ClientFileKey(row));
  }

  /** The rows' exact `File` header is the one the generators read. */
  predicate FileHeaderIsExact(cm: ColMap) {
    "file" in cm && cm["file"] == "File"
  }

  lemma FileKeyIsClientKey(cm: ColMap, row: Row)
    requires FileHeaderIsExact(cm)
    ensures FileKey(row, cm) == ClientFileKey(row)
  {
    TrimOfTrimmed("File");
    var l := Lower("File");
    assert l[0] == 'f';
    assert forall i :: 1 <= i < 4 ==> l[i] == "File"[i];
    assert l == "file";
  }

  /** With a key function that agrees with the client's key on row `k`, a
      row with a non-empty key passes the carousel filter of the manifest. */
  lemma KeptByClient(rows: seq<Row>, key: Row -> string, k: int)
    requires 0 <= k < |rows| && key(rows[k]) != "" && key(rows[k]) == ClientFileKey(rows[k])
    ensures CarouselKeeps(Folders(rows, key), rows[k])
  {
    var f := FolderName(rows[k], key);
    FolderInManifest(rows, key, k);
    StripHtmlOfLower(key(rows[k]));
    PrefixOfLower(key(rows[k]), |f|);
    LowerAllKeepsLower(Folders(rows, key), f);
  }

  /** Every row the generator wrote a page for is shown in the carousels, and
      (as intended) in the navbar. */
  lemma GeneratedRowsKept(rows: seq<Row>, cm: ColMap, k: int)
    requires FileHeaderIsExact(cm)
    requires 0 <= k < |rows| && FileKey(rows[k], cm) != ""
    ensures CarouselKeeps(Folders(rows, FileKeyOf(cm)), rows[k])
    ensures NavbarKeeps(Folders(rows, FileKeyOf(cm)), rows[k])
  {
    FileKeyIsClientKey(cm, rows[k]);
    KeptByClient(rows, FileKeyOf(cm), k);
  }

  lemma FolderInManifest(rows: seq<Row>, key: Row -> string, k: int)
    requires 0 <= k < |rows| && key(rows[k]) != ""
    ensures FolderName(rows[k], key) in Folders(rows, key)
  {
    FoldersCover(rows, key);
  }

  lemma LowerAllKeepsLower(manifest: seq<string>, f: string)
    requires f in manifest && IsLower(f)
    ensures f in LowerAll(manifest)
  {
    var i :| 0 <= i < |manifest| && manifest[i] == f;
    LowerIsLower(f);
    assert LowerAll(manifest)[i] == f;
  }

  lemma LowerOfLowerSuffix(key: string)
    requires IsLower(key) && |key| >= 5
    ensures Lower(key[|key| - 5..]) == key[|key| - 5..]
  {
    assert IsLower(key[|key| - 5..]);
    LowerIsLower(key[|key| - 5..]);
  }

  /** The navbar as written hides a row whose File ends in `.html` whenever
      no manifest entry itself ends in `.html`, which holds for every sheet
      without a File ending in `.html.html`. */
  lemma NavbarAsWrittenDropsHtmlRows(manifest: seq<string>, row: Row)
    requires forall m :: m in manifest ==> !EndsWithHtml(m)
    requires EndsWithHtml(ClientFileKey(row))
    ensures !NavbarKeepsAsWritten(manifest, row)
  {
    HtmlKeyNotListed(manifest, ClientFileKey(row));
  }

  /** A lower-case name ending in `.html` is not the lower-cased form of any
      manifest entry when no entry ends in `.html`. */
  lemma HtmlKeyNotListed(manifest: seq<string>, key: string)
    requires forall m :: m in manifest ==> !EndsWithHtml(m)
    requires IsLower(key) && EndsWithHtml(key)
    ensures key !in LowerAll(manifest)
  {
    forall i | 0 <= i < |manifest| ensures LowerAll(manifest)[i] != key {
      if Lower(manifest[i]) == key {
        LowerKeepsHtmlEnding(manifest[i], key);
      }
    }
  }

  /** A name that lower-cases to a name ending in `.html` ends in `.html`
      in some case itself. */
  lemma LowerKeepsHtmlEnding(m: string, key: string)
    requires IsLower(key) && EndsWithHtml(key) && Lower(m) == key
    ensures EndsWithHtml(m)
  {
    assert Lower(m)[|m| - 5..] == Lower(m[|m| - 5..]);
    LowerOfLowerSuffix(key);
  }

  lemma WiseKey()
    ensures ClientFileKey(map["File" := "wise.html"]) == "wise.html"
  {
    var key := "wise.html";
    assert Field(map["File" := "wise.html"], "File") == key;
    TrimOfTrimmed(key);
    assert IsLower(key);
    LowerIsLower(key);
  }

  lemma WiseFolder()
    ensures EndsWithHtml("wise.html") && StripHtml("wise.html") == "wise"
  {
    var key := "wise.html";
    assert IsLower(key);
    assert key[|key| - 5..] == ".html";
    LowerOfLowerSuffix(key);
    assert key[..|key| - 5] == "wise";
  }

  /** The manifest of the one-row sheet. */
  lemma WiseManifest(cm: ColMap)
    requires FileHeaderIsExact(cm)
    ensures Folders([map["File" := "wise.html"]], FileKeyOf(cm)) == ["wise"]
  {
    var row := map["File" := "wise.html"];
    FileKeyIsClientKey(cm, row);
    WiseKey();
    WiseFolder();
    FoldersOfOne(row, FileKeyOf(cm));
  }

  /** What the two client filters see of that row. */
  lemma WiseFilters()
    ensures CarouselKeeps(["wise"], map["File" := "wise.html"])
    ensures !NavbarKeepsAsWritten(["wise"], map["File" := "wise.html"])
  {
    WiseKey();
    assert StripLowerHtml("wise.html") == "wise";
    assert IsLower("wise");
    LowerIsLower("wise");
    assert LowerAll(["wise"]) == ["wise"];
    assert "wise.html" != "wise";
  }

  /** A sheet of one row with File `wise.html`: the generator writes folder
      `wise`, the carousel shows the row, the navbar as written does not. */
  lemma NavbarAsWrittenCounterexample(cm: ColMap)
    requires FileHeaderIsExact(cm)
    ensures var row := map["File" := "wise.html"];
            && Folders([row], FileKeyOf(cm)) == ["wise"]
            && CarouselKeeps(Folders([row], FileKeyOf(cm)), row)
            && !NavbarKeepsAsWritten(Folders([row], FileKeyOf(cm)), row)
  {
    WiseManifest(cm);
    WiseFilters();
  }
}

=== FILE: Navbar.dfy ===
/** The category navbar (`buildNavbar` in scripts/update_site.js and
    public/scripts/inject-navbar.js): one dropdown per category listing a
    link per offer, and the client's click handlers that open and close the
    dropdowns and the mobile menu.  Markup and styling are left out. */
module Navbar {
  import opened JsString
  import opened Columns
  import Grouping
  import Links
  import Manifest

  // ---------------------------------------------------------------------------
  // Rendering
  // ---------------------------------------------------------------------------

  /** A dropdown entry: the link and the brand it shows. */
  datatype NavLink = NavLink(href: string, brand: string)

  /** A category button with its dropdown. */
  datatype NavCategory = NavCategory(name: string, links: seq<NavLink>)

  /** The site updater's link as the script writes it: cells through the
      column map, the link from the raw File cell. */
  function SiteLink(cm: ColMap): Row -> NavLink {
    row => NavLink(Links.HrefAsWritten(GetVal(row, "File", cm)), GetVal(row, "Brand", cm))
  }

  /** The client's link as the script writes it: cells by their exact header. */
  function ClientLink(row: Row): NavLink {
    NavLink(Links.HrefAsWritten(Field(row, "File")), Field(row, "Brand"))
  }

  /** A link corrected to lead to the folder its row's page is in. */
  function Corrected(link: Row -> NavLink, key: Row -> string): Row -> NavLink {
    row => link(row).(href := Links.Href(Manifest.FolderName(row, key)))
  }

  /** A group's dropdown: one link per member, in member order. */
  function RenderCategory(g: Grouping.Group, link: Row -> NavLink): (c: NavCategory)
    ensures c.name == g.name && |c.links| == |g.members|
    ensures forall j :: 0 <= j < |c.links| ==> c.links[j] == link(g.members[j])
  {
    NavCategory(g.name, seq(|g.members|, j requires 0 <= j < |g.members| => link(g.members[j])))
  }

  /** One dropdown per group, in group order. */
  function RenderCategories(gs: seq<Grouping.Group>, link: Row -> NavLink): (nav: seq<NavCategory>)
    ensures |nav| == |gs|
    ensures forall i :: 0 <= i < |nav| ==> nav[i] == RenderCategory(gs[i], link)
  {
    seq(|gs|, i requires 0 <= i < |gs| => RenderCategory(gs[i], link))
  }

  /** The whole navbar: one dropdown per category in sorted order. */
  function RenderNavbar(rows: seq<Row>, cat: Row -> string, brand: Row -> string,
                        leq: (string, string) -> bool, link: Row -> NavLink): (nav: seq<NavCategory>)
    ensures |nav| == |Grouping.GroupBy(rows, cat, brand, leq)|
    ensures forall i :: 0 <= i < |nav| ==> nav[i] == RenderCategory(Grouping.GroupBy(rows, cat, brand, leq)[i], link)
  {
    RenderCategories(Grouping.GroupBy(rows, cat, brand, leq), link)
  }

  /** Dropdown `i` is named by group `i` and lists its members' links in order. */
  lemma CategoriesFollowGroups(rows: seq<Row>, cat: Row -> string, brand: Row -> string,
                               leq: (string, string) -> bool, link: Row -> NavLink, i: int)
    requires 0 <= i < |RenderNavbar(rows, cat, brand, leq, link)|
    ensures var g := Grouping.GroupBy(rows, cat, brand, leq)[i];
            var c := RenderNavbar(rows, cat, brand, leq, link)[i];
            && c.name == g.name
            && |c.links| == |g.members|
            && forall j :: 0 <= j < |c.links| ==> c.links[j] == link(g.members[j])
  {
    var g := Grouping.GroupBy(rows, cat, brand, leq)[i];
    assert RenderNavbar(rows, cat, brand, leq, link)[i] == RenderCategory(g, link);
  }

  /** `buildNavbar(records, colMap)`, as written. */
  function SiteNavbar(rows: seq<Row>, cm: ColMap, leq: (string, string) -> bool): seq<NavCategory> {
    RenderNavbar(rows, Grouping.SiteCategory(cm), Grouping.SiteBrand(cm), leq, SiteLink(cm))
  }

  /** The site navbar with every link leading to its row's folder. */
  function SiteNavbarCorrected(rows: seq<Row>, cm: ColMap, leq: (string, string) -> bool): seq<NavCategory> {
    RenderNavbar(rows, Grouping.SiteCategory(cm), Grouping.SiteBrand(cm), leq,
                 Corrected(SiteLink(cm), Manifest.FileKeyOf(cm)))
  }

  /** The rows the client navbar keeps as written: the full File key must be
      in the manifest. */
  function KeptAsWritten(manifest: seq<string>, rows: seq<Row>): seq<Row> {
    Grouping.Select(rows, row => Manifest.NavbarKeepsAsWritten(manifest, row))
  }

  /** The rows the client navbar keeps when it filters as the carousels do. */
  function Kept(manifest: seq<string>, rows: seq<Row>): seq<Row> {
    Grouping.Select(rows, row => Manifest.NavbarKeeps(manifest, row))
  }

  /** The client navbar as written: rows filtered by the full File key, each
      linked from its raw File cell. */
  function ClientNavbar(manifest: seq<string>, rows: seq<Row>, leq: (string, string) -> bool): seq<NavCategory> {
    RenderNavbar(KeptAsWritten(manifest, rows), Grouping.ClientCategory, Grouping.ClientBrand, leq, ClientLink)
  }

  /** The client navbar as intended: rows filtered as the carousels filter
      them, each linked to its folder. */
  function ClientNavbarCorrected(manifest: seq<string>, rows: seq<Row>, leq: (string, string) -> bool): seq<NavCategory> {
    RenderNavbar(Kept(manifest, rows), Grouping.ClientCategory, Grouping.ClientBrand, leq,
                 Corrected(ClientLink, Manifest.ClientFileKey))
  }

  /** Link `j` of dropdown `i` of the site navbar leads where the script
      writes it, from the raw File cell of member `j` of group `i`;
      corrected, it leads to that member's folder. */
  lemma SiteNavLinks(rows: seq<Row>, cm: ColMap, leq: (string, string) -> bool, i: int, j: int)
    requires 0 <= i < |SiteNavbar(rows, cm, leq)| && 0 <= j < |SiteNavbar(rows, cm, leq)[i].links|
    ensures var g := Grouping.GroupBy(rows, Grouping.SiteCategory(cm), Grouping.SiteBrand(cm), leq)[i];
            && j < |g.members|
            && SiteNavbar(rows, cm, leq)[i].links[j]
               == NavLink(Links.HrefAsWritten(GetVal(g.members[j], "File", cm)), GetVal(g.members[j], "Brand", cm))
            && |SiteNavbarCorrected(rows, cm, leq)| == |SiteNavbar(rows, cm, leq)|
            && j < |SiteNavbarCorrected(rows, cm, leq)[i].links|
            && SiteNavbarCorrected(rows, cm, leq)[i].links[j].href
               == Links.Href(Manifest.FolderName(g.members[j], Manifest.FileKeyOf(cm)))
            && Links.LinkedFolder(SiteNavbarCorrected(rows, cm, leq)[i].links[j].href)
               == Manifest.FolderName(g.members[j], Manifest.FileKeyOf(cm))
  {
    var cat, brand := Grouping.SiteCategory(cm), Grouping.SiteBrand(cm);
    CategoriesFollowGroups(rows, cat, brand, leq, SiteLink(cm), i);
    CategoriesFollowGroups(rows, cat, brand, leq, Corrected(SiteLink(cm), Manifest.FileKeyOf(cm)), i);
    CorrectedLinksLead(rows, cat, brand, leq, SiteLink(cm), Manifest.FileKeyOf(cm), i, j);
  }

  /** In a navbar built with corrected links, link `j` of dropdown `i` leads
      to the folder of member `j` of group `i` and shows its brand. */
  lemma CorrectedLinksLead(rows: seq<Row>, cat: Row -> string, brand: Row -> string,
                           leq: (string, string) -> bool, link: Row -> NavLink, key: Row -> string, i: int, j: int)
    requires 0 <= i < |RenderNavbar(rows, cat, brand, leq, Corrected(link, key))|
    requires 0 <= j < |RenderNavbar(rows, cat, brand, leq, Corrected(link, key))[i].links|
    ensures var g := Grouping.GroupBy(rows, cat, brand, leq)[i];
            var l := RenderNavbar(rows, cat, brand, leq, Corrected(link, key))[i].links[j];
            && j < |g.members|
            && l.href == Links.Href(Manifest.FolderName(g.members[j], key))
            && Links.LinkedFolder(l.href) == Manifest.FolderName(g.members[j], key)
            && l.brand == link(g.members[j]).brand
  {
    CategoriesFollowGroups(rows, cat, brand, leq, Corrected(link, key), i);
  }

  /** Link `j` of dropdown `i` of the client navbar as written is member
      `j` of group `i` of the rows kept by the full File key, linked from its
      raw File cell and labelled with its brand. */
  lemma ClientNavLinksAsWritten(manifest: seq<string>, rows: seq<Row>, leq: (string, string) -> bool, i: int, j: int)
    requires 0 <= i < |ClientNavbar(manifest, rows, leq)|
    requires 0 <= j < |ClientNavbar(manifest, rows, leq)[i].links|
    ensures var g := Grouping.GroupBy(KeptAsWritten(manifest, rows), Grouping.ClientCategory, Grouping.ClientBrand, leq)[i];
            && j < |g.members|
            && ClientNavbar(manifest, rows, leq)[i].links[j]
               == NavLink(Links.HrefAsWritten(Field(g.members[j], "File")), Field(g.members[j], "Brand"))
  {
    CategoriesFollowGroups(KeptAsWritten(manifest, rows), Grouping.ClientCategory, Grouping.ClientBrand, leq, ClientLink, i);
  }

  /** Link `j` of dropdown `i` of the corrected client navbar leads to the
      folder of member `j` of group `i` of the rows it keeps. */
  lemma ClientNavLinks(manifest: seq<string>, rows: seq<Row>, leq: (string, string) -> bool, i: int, j: int)
    requires 0 <= i < |ClientNavbarCorrected(manifest, rows, leq)|
    requires 0 <= j < |ClientNavbarCorrected(manifest, rows, leq)[i].links|
    ensures var g := Grouping.GroupBy(Kept(manifest, rows), Grouping.ClientCategory, Grouping.ClientBrand, leq)[i];
            && j < |g.members|
            && ClientNavbarCorrected(manifest, rows, leq)[i].links[j].href
               == Links.Href(Manifest.FolderName(g.members[j], Manifest.ClientFileKey))
            && Links.LinkedFolder(ClientNavbarCorrected(manifest, rows, leq)[i].links[j].href)
               == Manifest.FolderName(g.members[j], Manifest.ClientFileKey)
            && ClientNavbarCorrected(manifest, rows, leq)[i].links[j].brand == Field(g.members[j], "Brand")
  {
    CorrectedLinksLead(Kept(manifest, rows), Grouping.ClientCategory, Grouping.ClientBrand, leq,
                       ClientLink, Manifest.ClientFileKey, i, j);
  }

  /** The client lists a row iff its filter keeps it, under its category. */
  lemma ClientNavbarListsKeptRows(manifest: seq<string>, rows: seq<Row>, leq: (string, string) -> bool, k: int)
    requires 0 <= k < |rows|
    ensures var kept := Grouping.Select(rows, row => Manifest.NavbarKeeps(manifest, row));
            var gs := Grouping.GroupBy(kept, Grouping.ClientCategory, Grouping.ClientBrand, leq);
            Manifest.NavbarKeeps(manifest, rows[k]) <==>
              exists j :: 0 <= j < |gs| && gs[j].name == Grouping.ClientCategory(rows[k]) && rows[k] in gs[j].members
  {
    ListsKeptRows(rows, row => Manifest.NavbarKeeps(manifest, row), leq, k);
  }

  /** As written, the client lists a row iff its full File key is in the
      manifest, under its category. */
  lemma ClientNavbarAsWrittenListsKeptRows(manifest: seq<string>, rows: seq<Row>, leq: (string, string) -> bool, k: int)
    requires 0 <= k < |rows|
    ensures var kept := Grouping.Select(rows, row => Manifest.NavbarKeepsAsWritten(manifest, row));
            var gs := Grouping.GroupBy(kept, Grouping.ClientCategory, Grouping.ClientBrand, leq);
            Manifest.NavbarKeepsAsWritten(manifest, rows[k]) <==>
              exists j :: 0 <= j < |gs| && gs[j].name == Grouping.ClientCategory(rows[k]) && rows[k] in gs[j].members
  {
    ListsKeptRows(rows, row => Manifest.NavbarKeepsAsWritten(manifest, row), leq, k);
  }

  /** Under any filter, a row is listed iff the filter keeps it, and then in
      the dropdown of its category. */
  lemma ListsKeptRows(rows: seq<Row>, keep: Row -> bool, leq: (string, string) -> bool, k: int)
    requires 0 <= k < |rows|
    ensures var gs := Grouping.GroupBy(Grouping.Select(rows, keep), Grouping.ClientCategory, Grouping.ClientBrand, leq);
            keep(rows[k]) <==>
              exists j :: 0 <= j < |gs| && gs[j].name == Grouping.ClientCategory(rows[k]) && rows[k] in gs[j].members
  {
    if keep(rows[k]) {
      Grouping.SelectedRowInItsGroup(rows, keep, Grouping.ClientCategory, Grouping.ClientBrand, leq, k);
    } else {
      Grouping.UnselectedRowInNoGroup(rows, keep, Grouping.ClientCategory, Grouping.ClientBrand, leq, rows[k]);
    }
  }

  // ---------------------------------------------------------------------------
  // Click handling (public/scripts/inject-navbar.js)
  // ---------------------------------------------------------------------------

  /** Whether the mobile menu is open, and which dropdowns are open. */
  datatype NavState = NavState(menuOpen: bool, open: seq<bool>)

  /** A click on the hamburger, on category button `i`, or elsewhere. */
  datatype NavEvent = Hamburger | CategoryButton(i: nat) | DocumentClick

  /** All dropdowns closed. */
  function AllClosed(n: nat): (open: seq<bool>)
    ensures |open| == n && forall k :: 0 <= k < n ==> !open[k]
  {
    seq(n, k => false)
  }

  /** At most one dropdown is open. */
  predicate AtMostOneOpen(open: seq<bool>) {
    forall a, b :: 0 <= a < |open| && 0 <= b < |open| && open[a] && open[b] ==> a == b
  }

  /** One click.  The hamburger flips the menu and, as its click bubbles up to
      the document, closes every dropdown.  A category button stops the click
      from bubbling, closes every other dropdown and flips its own.  Any other
      click closes every dropdown.  A button index past the last category is
      a click on nothing. */
  function Handle(s: NavState, e: NavEvent): (t: NavState)
    ensures |t.open| == |s.open|
    ensures e.Hamburger? ==> t.menuOpen == !s.menuOpen
    ensures !e.Hamburger? ==> t.menuOpen == s.menuOpen
    ensures !e.CategoryButton? ==> forall k :: 0 <= k < |t.open| ==> !t.open[k]
  {
    match e
    case Hamburger => NavState(!s.menuOpen, AllClosed(|s.open|))
    case DocumentClick => NavState(s.menuOpen, AllClosed(|s.open|))
    case CategoryButton(i) =>
      if i < |s.open| then
        NavState(s.menuOpen, seq(|s.open|, k requires 0 <= k < |s.open| => k == i && !s.open[i]))
      else s
  }

  /** After a click on an existing button or on the hamburger or page, at most
      one dropdown is open, whatever was open before. */
  lemma ClickLeavesAtMostOne(s: NavState, e: NavEvent)
    requires !e.CategoryButton? || e.i < |s.open|
    ensures AtMostOneOpen(Handle(s, e).open)
  {
  }

  /** A category button click: its dropdown flips, every other one closes,
      the menu stays as it was. */
  lemma CategoryClick(s: NavState, i: nat)
    requires i < |s.open|
    ensures var t := Handle(s, CategoryButton(i));
            && t.menuOpen == s.menuOpen
            && (t.open[i] <==> !s.open[i])
            && forall k :: 0 <= k < |s.open| && k != i ==> !t.open[k]
  {
  }

  /** The state after a sequence of clicks. */
  function HandleAll(s: NavState, es: seq<NavEvent>): (t: NavState)
    ensures |t.open| == |s.open|
    decreases |es|
  {
    if es == [] then s else HandleAll(Handle(s, es[0]), es[1..])
  }

  /** Starting with every dropdown closed, at most one is ever open. */
  lemma {:induction false} AtMostOneAlways(s: NavState, es: seq<NavEvent>)
    requires AtMostOneOpen(s.open)
    ensures AtMostOneOpen(HandleAll(s, es).open)
    decreases |es|
  {
    if es != [] {
      var t := Handle(s, es[0]);
      if es[0].CategoryButton? && es[0].i >= |s.open| {
        assert t == s;
      } else {
        ClickLeavesAtMostOne(s, es[0]);
      }
      AtMostOneAlways(t, es[1..]);
    }
  }

  /** A hamburger click toggles the menu and closes every dropdown. */
  lemma HamburgerFlips(s: NavState)
    ensures Handle(s, Hamburger).menuOpen == !s.menuOpen
    ensures forall k :: 0 <= k < |s.open| ==> !Handle(s, Hamburger).open[k]
  {
  }

  /** Two hamburger clicks restore the menu and leave every dropdown closed. */
  lemma HamburgerTwice(s: NavState)
    ensures Handle(Handle(s, Hamburger), Hamburger) == NavState(s.menuOpen, AllClosed(|s.open|))
  {
  }

  /** With no other dropdown open, a second click on the same button undoes
      the first. */
  lemma CategoryTwice(s: NavState, i: nat)
    requires i < |s.open|
    requires forall k :: 0 <= k < |s.open| && k != i ==> !s.open[k]
    ensures Handle(Handle(s, CategoryButton(i)), CategoryButton(i)) == s
  {
    var t := Handle(Handle(s, CategoryButton(i)), CategoryButton(i));
    assert t.open == s.open;
  }

  /** A click elsewhere closes every dropdown and leaves the menu alone. */
  lemma DocumentClickClosesAll(s: NavState)
    ensures var t := Handle(s, DocumentClick);
            t.menuOpen == s.menuOpen && forall k :: 0 <= k < |t.open| ==> !t.open[k]
  {
  }
}

=== FILE: OfferPage.dfy ===
/** `offerTemplate` in scripts/update_site.js and scripts/generate_missing_offers.js:
    one spreadsheet row becomes one offer page.  The page is modelled by the values it shows,
    not by its HTML text. */
module OfferPage {
  import opened JsString
  import opened Columns
  import opened Wrappers
  import opened ListFields
  import BrandClass
  import YouTube

  /** Which script renders the page.  The site updater embeds the YouTube
      player itself; the missing-offers generator leaves the video slot empty
      and loads the client script that fills it in. */
  datatype Generator = SiteUpdate | MissingOffers

  /** An offer page.  The template writes, top to bottom: the hero card
      (headline, subheadline, sign-up link), How It Works, the video card,
      Why Choose, the bottom sign-up link, Popular Features and the
      disclaimer.  A list section is `None` when the template leaves it out. */
  datatype Page = Page(
    headline: string,
    subheadline: string,
    bodyClass: string,
    link: string,
    howItWorks: Option<seq<MiniCard>>,
    brandName: string,
    videoId: string,
    whyChoose: Option<seq<MiniCard>>,
    features: Option<seq<MiniCard>>,
    disclaimer: string,
    loadsVideoScript: bool)

  /** The referral link, `#` when the cell is empty. */
  function ReferralLink(row: Row, cm: ColMap): (link: string)
    ensures link != ""
    ensures GetVal(row, "Referral Link", cm) != "" ==> link == GetVal(row, "Referral Link", cm)
  {
    var v := GetVal(row, "Referral Link", cm);
    if v == "" then "#" else v
  }

  /** The body class, from the trimmed `Brand Class` cell. */
  function BodyClass(row: Row, cm: ColMap): (cls: string)
    ensures |cls| >= |BrandClass.Prefix| && cls[..|BrandClass.Prefix|] == BrandClass.Prefix
    ensures AllLowerAlnum(cls[|BrandClass.Prefix|..])
  {
    BrandClass.NormalizeBrandClass(Trim(GetVal(row, "Brand Class", cm)))
  }

  /** The class suffix both sign-up buttons carry, `brandClass.replace('brand-','')`. */
  function ButtonClass(p: Page): (suffix: string)
    ensures |p.bodyClass| >= |BrandClass.Prefix| && p.bodyClass[..|BrandClass.Prefix|] == BrandClass.Prefix
            ==> p.bodyClass == BrandClass.Prefix + suffix
  {
    if |p.bodyClass| >= |BrandClass.Prefix| && p.bodyClass[..|BrandClass.Prefix|] == BrandClass.Prefix
    then BrandClass.Suffix(p.bodyClass) else p.bodyClass
  }

  /** The id in the video slot: the site updater's YouTube id, or nothing. */
  function VideoIdFor(gen: Generator, row: Row, cm: ColMap): (id: string)
    ensures |id| <= 11
    ensures gen.MissingOffers? ==> id == ""
    ensures gen.SiteUpdate? ==> id == YouTube.SiteVideoId(GetVal(row, "YouTube Video", cm))
  {
    if gen.SiteUpdate? then YouTube.SiteVideoId(GetVal(row, "YouTube Video", cm)) else ""
  }

  /** A list section, left out when the list is empty. */
  function Section(cards: seq<MiniCard>): (r: Option<seq<MiniCard>>)
    ensures r.Some? <==> cards != []
    ensures r.Some? ==> r.value == cards
  {
    if cards == [] then None else Some(cards)
  }

  /** `offerTemplate(offer, colMap)`: both buttons always have somewhere to go
      and a `brand-` class to strip, the video slot holds at most an 11-character
      id and is empty on the missing-offers page, where the video script is
      loaded instead.  The list sections are described by the lemmas below. */
  function OfferPageOf(gen: Generator, row: Row, cm: ColMap, isEmoji: char -> bool): (p: Page)
    ensures p.link != ""
    ensures GetVal(row, "Referral Link", cm) != "" ==> p.link == GetVal(row, "Referral Link", cm)
    ensures p.bodyClass == BrandClass.Prefix + ButtonClass(p) && AllLowerAlnum(ButtonClass(p))
    ensures |p.videoId| <= 11 && (gen.MissingOffers? ==> p.videoId == "")
    ensures gen.SiteUpdate? ==> p.videoId == YouTube.SiteVideoId(GetVal(row, "YouTube Video", cm))
    ensures p.loadsVideoScript <==> gen.MissingOffers?
  {
    var p := Page(
      GetVal(row, "Headline", cm),
      GetVal(row, "Subheadline", cm),
      BodyClass(row, cm),
      ReferralLink(row, cm),
      Section(StepCards(ListItems(GetVal(row, "How It Works", cm)), isEmoji)),
      GetVal(row, "Brand", cm),
      VideoIdFor(gen, row, cm),
      Section(PlainCards(ListItems(GetVal(row, "Why Choose", cm)), DefaultIcon, isEmoji)),
      Section(PlainCards(ListItems(GetVal(row, "Features", cm)), FeatureIcon, isEmoji)),
      GetVal(row, "Disclaimer", cm),
      gen.MissingOffers?);
    ButtonClassOfPrefixed(p);
    p
  }

  /** The How It Works section is built from its own column. */
  lemma HowItWorksCell(gen: Generator, row: Row, cm: ColMap, isEmoji: char -> bool)
    ensures OfferPageOf(gen, row, cm, isEmoji).howItWorks
            == Section(StepCards(ListItems(GetVal(row, "How It Works", cm)), isEmoji))
  {
  }

  /** The Why Choose section is built from its own column. */
  lemma WhyChooseCell(gen: Generator, row: Row, cm: ColMap, isEmoji: char -> bool)
    ensures OfferPageOf(gen, row, cm, isEmoji).whyChoose
            == Section(PlainCards(ListItems(GetVal(row, "Why Choose", cm)), DefaultIcon, isEmoji))
  {
  }

  /** The Popular Features section is built from its own column. */
  lemma FeaturesCell(gen: Generator, row: Row, cm: ColMap, isEmoji: char -> bool)
    ensures OfferPageOf(gen, row, cm, isEmoji).features
            == Section(PlainCards(ListItems(GetVal(row, "Features", cm)), FeatureIcon, isEmoji))
  {
  }

  /** A section of step cards: present exactly when there are items, one card
      per item in order. */
  lemma StepSection(items: seq<string>, isEmoji: char -> bool)
    ensures var s := Section(StepCards(items, isEmoji));
            && (s.Some? <==> items != [])
            && (s.Some? ==>
                  && |s.value| == |items|
                  && forall i :: 0 <= i < |items| ==> s.value[i] == CardOf(items[i], StepIcon(i), isEmoji))
  {
  }

  /** A section of plain cards: present exactly when there are items, one card
      per item in order, each with the same fallback icon. */
  lemma PlainSection(items: seq<string>, fallback: string, isEmoji: char -> bool)
    ensures var s := Section(PlainCards(items, fallback, isEmoji));
            && (s.Some? <==> items != [])
            && (s.Some? ==>
                  && |s.value| == |items|
                  && forall i :: 0 <= i < |items| ==> s.value[i] == CardOf(items[i], fallback, isEmoji))
  {
  }

  /** How It Works appears exactly when its field has at least one item, and
      then it holds one card per item, in order; step `i` falls back to the
      `i`-th number icon. */
  lemma HowItWorksSection(gen: Generator, row: Row, cm: ColMap, isEmoji: char -> bool)
    ensures var p := OfferPageOf(gen, row, cm, isEmoji);
            var how := ListItems(GetVal(row, "How It Works", cm));
            && (p.howItWorks.Some? <==> how != [])
            && (p.howItWorks.Some? ==>
                  && |p.howItWorks.value| == |how|
                  && forall i :: 0 <= i < |how| ==> p.howItWorks.value[i] == CardOf(how[i], StepIcon(i), isEmoji))
  {
    HowItWorksCell(gen, row, cm, isEmoji);
    StepSection(ListItems(GetVal(row, "How It Works", cm)), isEmoji);
  }

  /** Why Choose appears exactly when its field has at least one item, one card
      per item, each falling back to the light bulb. */
  lemma WhyChooseSection(gen: Generator, row: Row, cm: ColMap, isEmoji: char -> bool)
    ensures var p := OfferPageOf(gen, row, cm, isEmoji);
            var why := ListItems(GetVal(row, "Why Choose", cm));
            && (p.whyChoose.Some? <==> why != [])
            && (p.whyChoose.Some? ==>
                  && |p.whyChoose.value| == |why|
                  && forall i :: 0 <= i < |why| ==> p.whyChoose.value[i] == CardOf(why[i], DefaultIcon, isEmoji))
  {
    WhyChooseCell(gen, row, cm, isEmoji);
    PlainSection(ListItems(GetVal(row, "Why Choose", cm)), DefaultIcon, isEmoji);
  }

  /** Popular Features appears exactly when its field has at least one item,
      one card per item, each falling back to the star. */
  lemma FeaturesSection(gen: Generator, row: Row, cm: ColMap, isEmoji: char -> bool)
    ensures var p := OfferPageOf(gen, row, cm, isEmoji);
            var feats := ListItems(GetVal(row, "Features", cm));
            && (p.features.Some? <==> feats != [])
            && (p.features.Some? ==>
                  && |p.features.value| == |feats|
                  && forall i :: 0 <= i < |feats| ==> p.features.value[i] == CardOf(feats[i], FeatureIcon, isEmoji))
  {
    FeaturesCell(gen, row, cm, isEmoji);
    PlainSection(ListItems(GetVal(row, "Features", cm)), FeatureIcon, isEmoji);
  }

  /** The body class comes from the Brand Class column. */
  lemma BodyClassCell(gen: Generator, row: Row, cm: ColMap, isEmoji: char -> bool)
    ensures OfferPageOf(gen, row, cm, isEmoji).bodyClass == BodyClass(row, cm)
  {
  }

  /** A body class that starts with `brand-` is `brand-` followed by the
      button class. */
  lemma ButtonClassOfPrefixed(p: Page)
    requires |p.bodyClass| >= |BrandClass.Prefix| && p.bodyClass[..|BrandClass.Prefix|] == BrandClass.Prefix
    requires AllLowerAlnum(p.bodyClass[|BrandClass.Prefix|..])
    ensures p.bodyClass == BrandClass.Prefix + ButtonClass(p)
    ensures AllLowerAlnum(ButtonClass(p))
  {
    assert ButtonClass(p) == p.bodyClass[|BrandClass.Prefix|..];
  }

  /** Both sign-up buttons go to the referral link, or to `#` when the row has
      none, and carry the brand class without its `brand-` prefix. */
  lemma CallsToAction(gen: Generator, row: Row, cm: ColMap, isEmoji: char -> bool)
    ensures var p := OfferPageOf(gen, row, cm, isEmoji);
            && (GetVal(row, "Referral Link", cm) == "" ==> p.link == "#")
            && (GetVal(row, "Referral Link", cm) != "" ==> p.link == GetVal(row, "Referral Link", cm))
            && p.bodyClass == BrandClass.Prefix + ButtonClass(p)
            && AllLowerAlnum(ButtonClass(p))
  {
    BodyClassCell(gen, row, cm, isEmoji);
    ButtonClassOfPrefixed(OfferPageOf(gen, row, cm, isEmoji));
  }

  /** The page reads nothing but these columns. */
  const ReadColumns: set<string> := {"Brand Class", "Headline", "Subheadline", "Referral Link",
    "How It Works", "Why Choose", "Features", "Disclaimer", "Brand", "YouTube Video"}

  /** Two rows that agree on the columns the template reads render the same page. */
  lemma OnlyReadColumnsMatter(gen: Generator, r1: Row, r2: Row, cm: ColMap, isEmoji: char -> bool)
    requires forall c :: c in ReadColumns ==> GetVal(r1, c, cm) == GetVal(r2, c, cm)
    ensures OfferPageOf(gen, r1, cm, isEmoji) == OfferPageOf(gen, r2, cm, isEmoji)
  {
    assert "Brand Class" in ReadColumns && "Headline" in ReadColumns && "Subheadline" in ReadColumns;
    assert "Referral Link" in ReadColumns && "How It Works" in ReadColumns && "Why Choose" in ReadColumns;
    assert "Features" in ReadColumns && "Disclaimer" in ReadColumns && "Brand" in ReadColumns;
    assert "YouTube Video" in ReadColumns;
  }
}

=== FILE: OfferVideo.dfy ===
/** public/scripts/inject-offer-video.js: on an offer page the client script
    reads the offer's folder from the address, finds the spreadsheet row whose
    File cell names that folder, and fills the page's video slot with the
    row's YouTube player.  The address, the fetched spreadsheet and the
    document are parameters. */
module OfferVideo {
  import opened Wrappers
  import opened JsString
  import opened Columns
  import YouTube
  import Links
  import Manifest

  const OffersMarker: string := "/offers/"

  /** End of the maximal run of characters other than `/` starting at `p`. */
  function NonSlashEnd(s: string, p: nat): (e: nat)
    requires p <= |s|
    ensures p <= e <= |s|
    ensures forall k :: p <= k < e ==> s[k] != '/'
    ensures e == |s| || s[e] == '/'
    decreases |s| - p
  {
    if p == |s| || s[p] == '/' then p else NonSlashEnd(s, p + 1)
  }

  /** The run end is the only position with those two properties. */
  lemma NonSlashEndUnique(s: string, p: nat, e: nat)
    requires p <= e <= |s|
    requires forall k :: p <= k < e ==> s[k] != '/'
    requires e == |s| || s[e] == '/'
    ensures NonSlashEnd(s, p) == e
  {
  }

  /** `/\/offers\/([^\/]+)\//` tried at `i`: the greedy class takes the whole
      run of non-slashes, which must be non-empty and followed by a slash.
      The result is where the captured slug ends. */
  function SlugMatchAt(s: string, i: nat): (r: Option<nat>)
    ensures r.Some? ==> OccursAt(s, OffersMarker, i) && i + |OffersMarker| < r.value < |s|
    ensures r.Some? ==> s[r.value] == '/' && forall k :: i + |OffersMarker| <= k < r.value ==> s[k] != '/'
    ensures r.None? && OccursAt(s, OffersMarker, i) ==>
              forall e :: i + |OffersMarker| < e < |s| && s[e] == '/' ==>
                exists k :: i + |OffersMarker| <= k < e && s[k] == '/'
  {
    if OccursAt(s, OffersMarker, i) then
      var p := i + |OffersMarker|;
      var e := NonSlashEnd(s, p);
      if p < e < |s| then Some(e) else None
    else None
  }

  /** The leftmost position where the pattern matches. */
  function SlugSearch(s: string, i: nat): (r: Option<nat>)
    ensures r.Some? ==> i <= r.value && SlugMatchAt(s, r.value).Some?
    ensures r.Some? ==> forall k :: i <= k < r.value ==> SlugMatchAt(s, k).None?
    ensures r.None? ==> forall k :: i <= k ==> SlugMatchAt(s, k).None?
    decreases |s| + 1 - i
  {
    if i > |s| then None
    else if SlugMatchAt(s, i).Some? then Some(i)
    else SlugSearch(s, i + 1)
  }

  lemma {:induction false} SlugSearchFinds(s: string, i: nat, j: nat)
    requires i <= j && SlugMatchAt(s, j).Some?
    requires forall k :: i <= k < j ==> SlugMatchAt(s, k).None?
    ensures SlugSearch(s, i) == Some(j)
    decreases j - i
  {
    if i < j {
      SlugSearchFinds(s, i + 1, j);
    }
  }

  /** `pathname.match(...)[1]`: the slug, or `None` when nothing matches. */
  function SlugOf(path: string): (slug: Option<string>)
    ensures slug.Some? ==> slug.value != [] && '/' !in slug.value
    ensures slug.Some? <==> exists i :: 0 <= i && SlugMatchAt(path, i).Some?
  {
    match SlugSearch(path, 0)
    case None => None
    case Some(i) =>
      var e := SlugMatchAt(path, i).value;
      var slug := path[i + |OffersMarker|..e];
      assert forall k :: 0 <= k < |slug| ==> slug[k] == path[i + |OffersMarker| + k];
      Some(slug)
  }

  /** `/offers/` does not occur in `/pages/` nor across its end. */
  lemma MarkerNotBefore(folder: string, k: nat)
    requires k < 6
    ensures SlugMatchAt(Links.Href(folder), k).None?
  {
    var s := Links.Href(folder);
    assert s[..|Links.OffersPath|] == Links.OffersPath;
    assert s[k + 1] == Links.OffersPath[k + 1] != OffersMarker[1];
    assert k + 8 <= |s| ==> s[k..k + 8][1] != OffersMarker[1];
  }

  /** The slug the client reads from an offer page's address is its folder. */
  lemma SlugOfHref(folder: string)
    requires folder != [] && '/' !in folder
    ensures SlugOf(Links.Href(folder)) == Some(folder)
  {
    var s := Links.Href(folder);
    var p := |Links.OffersPath|;
    assert s == Links.OffersPath + folder + "/";
    assert s[6..p] == OffersMarker;
    assert forall k :: p <= k < p + |folder| ==> s[k] == folder[k - p];
    NonSlashEndUnique(s, p, p + |folder|);
    assert SlugMatchAt(s, 6) == Some(p + |folder|);
    forall k | 0 <= k < 6
      ensures SlugMatchAt(s, k).None?
    {
      MarkerNotBefore(folder, k);
    }
    SlugSearchFinds(s, 0, 6);
    assert s[p..p + |folder|] == folder;
  }

  /** The folder a row names, as the client computes it: the raw File cell
      with `/.html$/i` removed. */
  function RowSlugAsWritten(row: Row): (slug: string)
    ensures |slug| <= |Field(row, "File")| && Field(row, "File")[..|slug|] == slug
    ensures Links.EndsWithLooseHtml(Field(row, "File")) <==> |slug| + 5 == |Field(row, "File")|
  {
    Links.StripLooseHtml(Field(row, "File"))
  }

  /** The folder the generators wrote the row's page to: the trimmed,
      lower-cased File cell without an exact `.html` ending. */
  function RowSlug(row: Row): (slug: string)
    ensures IsLower(slug)
    ensures |slug| <= |Manifest.ClientFileKey(row)| && Manifest.ClientFileKey(row)[..|slug|] == slug
    ensures Manifest.EndsWithHtml(Manifest.ClientFileKey(row)) <==> |slug| + 5 == |Manifest.ClientFileKey(row)|
  {
    var key := Manifest.ClientFileKey(row);
    Manifest.StripHtmlShape(key);
    Manifest.StripHtml(key)
  }

  /** `parsed.data.find(...)`: the first row whose folder, as `rowSlug`
      computes it, is the slug. */
  function FindRow(rows: seq<Row>, slug: string, rowSlug: Row -> string): (r: Option<nat>)
    ensures r.Some? ==> r.value < |rows| && rowSlug(rows[r.value]) == slug
    ensures r.Some? ==> forall j :: 0 <= j < r.value ==> rowSlug(rows[j]) != slug
    ensures r.None? ==> forall j :: 0 <= j < |rows| ==> rowSlug(rows[j]) != slug
  {
    if rows == [] then None
    else if rowSlug(rows[0]) == slug then Some(0)
    else match FindRow(rows[1..], slug, rowSlug)
      case None => None
      case Some(k) => Some(k + 1)
  }

  /** Row `k` is the first row whose folder, as `rowSlug` computes it, is `slug`. */
  predicate FirstFor(rows: seq<Row>, k: nat, slug: string, rowSlug: Row -> string) {
    k < |rows| && rowSlug(rows[k]) == slug && forall j :: 0 <= j < k ==> rowSlug(rows[j]) != slug
  }

  /** `FindRow` finds the first row for the slug, wherever that row is. */
  lemma FindRowFindsFirst(rows: seq<Row>, slug: string, rowSlug: Row -> string)
    ensures forall k: nat :: FirstFor(rows, k, slug, rowSlug) ==> FindRow(rows, slug, rowSlug) == Some(k)
  {
    forall k: nat | FirstFor(rows, k, slug, rowSlug)
      ensures FindRow(rows, slug, rowSlug) == Some(k)
    {
      FirstRowFound(rows, k, slug, rowSlug);
    }
  }

  /** The id the script embeds, or `None` when it leaves the slot empty: no
      slug in the address, no row for it, or an empty `YouTube Video` cell. */
  function VideoFor(path: string, rows: seq<Row>, rowSlug: Row -> string): (id: Option<string>)
    ensures id.Some? <==>
              && SlugOf(path).Some?
              && FindRow(rows, SlugOf(path).value, rowSlug).Some?
              && Field(rows[FindRow(rows, SlugOf(path).value, rowSlug).value], "YouTube Video") != ""
    ensures id.Some? ==>
              var url := Field(rows[FindRow(rows, SlugOf(path).value, rowSlug).value], "YouTube Video");
              id.value == YouTube.PlayerVideoId(url)
    ensures SlugOf(path).Some? ==>
              forall k: nat :: FirstFor(rows, k, SlugOf(path).value, rowSlug) ==>
                id == (if Field(rows[k], "YouTube Video") == "" then None
                       else Some(YouTube.PlayerVideoId(Field(rows[k], "YouTube Video"))))
  {
    match SlugOf(path)
    case None => None
    case Some(slug) =>
      FindRowFindsFirst(rows, slug, rowSlug);
      match FindRow(rows, slug, rowSlug)
      case None => None
      case Some(k) =>
        var url := Field(rows[k], "YouTube Video");
        if url == "" then None else Some(YouTube.PlayerVideoId(url))
  }

  /** The id embedded from a row: its player id, or nothing for an empty cell. */
  function RowVideo(row: Row): (id: Option<string>)
    ensures id.Some? <==> Field(row, "YouTube Video") != ""
    ensures id.Some? ==> id.value == YouTube.PlayerVideoId(Field(row, "YouTube Video"))
  {
    var url := Field(row, "YouTube Video");
    if url == "" then None else Some(YouTube.PlayerVideoId(url))
  }

  /** The script as written: rows matched by their loosely stripped File
      cell.  No slug, or no row for it, leaves the slot empty; otherwise the
      first matching row decides. */
  function VideoToInjectAsWritten(path: string, rows: seq<Row>): (id: Option<string>)
    ensures SlugOf(path).None? ==> id.None?
    ensures SlugOf(path).Some? && (forall j :: 0 <= j < |rows| ==> RowSlugAsWritten(rows[j]) != SlugOf(path).value)
            ==> id.None?
    ensures SlugOf(path).Some? ==>
              forall k: nat :: FirstFor(rows, k, SlugOf(path).value, RowSlugAsWritten) ==> id == RowVideo(rows[k])
  {
    VideoFor(path, rows, RowSlugAsWritten)
  }

  /** As intended: rows matched by the folder their page is in, with the
      same outcomes. */
  function VideoToInject(path: string, rows: seq<Row>): (id: Option<string>)
    ensures SlugOf(path).None? ==> id.None?
    ensures SlugOf(path).Some? && (forall j :: 0 <= j < |rows| ==> RowSlug(rows[j]) != SlugOf(path).value)
            ==> id.None?
    ensures SlugOf(path).Some? ==>
              forall k: nat :: FirstFor(rows, k, SlugOf(path).value, RowSlug) ==> id == RowVideo(rows[k])
  {
    VideoFor(path, rows, RowSlug)
  }

  lemma {:induction false} FirstRowFound(rows: seq<Row>, k: nat, slug: string, rowSlug: Row -> string)
    requires k < |rows| && rowSlug(rows[k]) == slug
    requires forall j :: 0 <= j < k ==> rowSlug(rows[j]) != slug
    ensures FindRow(rows, slug, rowSlug) == Some(k)
  {
    if k > 0 {
      assert rowSlug(rows[0]) != slug;
      FirstRowFound(rows[1..], k - 1, slug, rowSlug);
    }
  }

  /** A page reached by its link gets the video of the first row whose page
      is in its folder, when that row has one. */
  lemma GeneratedPageGetsVideo(rows: seq<Row>, k: nat, folder: string)
    requires folder != [] && '/' !in folder
    requires k < |rows| && RowSlug(rows[k]) == folder
    requires forall j :: 0 <= j < k ==> RowSlug(rows[j]) != folder
    requires Field(rows[k], "YouTube Video") != ""
    ensures VideoToInject(Links.Href(folder), rows) == Some(YouTube.PlayerVideoId(Field(rows[k], "YouTube Video")))
  {
    SlugOfHref(folder);
    FirstRowFound(rows, k, folder, RowSlug);
  }

  /** A page whose folder no row's page is in keeps its empty video slot. */
  lemma UnnamedFolderGetsNoVideo(rows: seq<Row>, folder: string)
    requires forall j :: 0 <= j < |rows| ==> RowSlug(rows[j]) != folder
    requires folder != [] && '/' !in folder
    ensures VideoToInject(Links.Href(folder), rows).None?
  {
    SlugOfHref(folder);
  }

  /** For a File cell that is trimmed, lower-case and ends, if at all, in
      exactly `.html`, the script as written finds the row by its folder. */
  lemma RowSlugAsWrittenAgrees(row: Row)
    requires var f := Field(row, "File"); IsTrimmed(f) && IsLower(f)
    requires !Links.EndsWithLooseHtml(Field(row, "File")) || Manifest.EndsWithHtml(Field(row, "File"))
    ensures RowSlugAsWritten(row) == RowSlug(row)
  {
    var cm: ColMap := map["file" := "File"];
    Manifest.FileKeyIsClientKey(cm, row);
    Links.HrefAsWrittenAgrees(row, cm);
    Links.AsWrittenIsHref(Field(row, "File"));
    Links.HrefInjective(RowSlugAsWritten(row), Manifest.FolderName(row, Manifest.FileKeyOf(cm)));
  }

  /** The row of `Wise.html`: its page is in `wise`, the script as written
      looks for `Wise`. */
  lemma WiseRowSlugs(row: Row)
    requires Field(row, "File") == "Wise.html"
    ensures RowSlug(row) == "wise"
    ensures RowSlugAsWritten(row) == "Wise"
  {
    var f := Field(row, "File");
    Links.WisePreconditions(f);
    Links.FolderOfHtmlFile(f);
    Links.LooseCoversExact(f);
    assert f[..|f| - 5] == "Wise";
    LowerWise();
  }

  lemma LowerWise()
    ensures Lower("Wise") == "wise"
  {
    assert LowerChar('W') == 'w';
  }

  /** On a one-row sheet the page gets that row's video exactly when the row
      is found for its folder and has a video. */
  lemma VideoForOneRow(row: Row, folder: string, rowSlug: Row -> string)
    requires folder != [] && '/' !in folder
    ensures rowSlug(row) != folder ==> VideoFor(Links.Href(folder), [row], rowSlug).None?
    ensures rowSlug(row) == folder && Field(row, "YouTube Video") != "" ==>
              VideoFor(Links.Href(folder), [row], rowSlug) == Some(YouTube.PlayerVideoId(Field(row, "YouTube Video")))
  {
    SlugOfHref(folder);
    assert [row][1..] == [];
  }

  /** The script as written leaves a folder's page without a video when the
      only row's loosely stripped File is not that folder. */
  lemma AsWrittenMisses(row: Row, folder: string)
    requires folder != [] && '/' !in folder && RowSlugAsWritten(row) != folder
    ensures VideoToInjectAsWritten(Links.Href(folder), [row]).None?
  {
    VideoForOneRow(row, folder, RowSlugAsWritten);
  }

  /** The corrected lookup gives a folder's page the video of the only row
      whose page is in that folder. */
  lemma CorrectedFinds(row: Row, folder: string)
    requires folder != [] && '/' !in folder && RowSlug(row) == folder && Field(row, "YouTube Video") != ""
    ensures VideoToInject(Links.Href(folder), [row]) == Some(YouTube.PlayerVideoId(Field(row, "YouTube Video")))
  {
    VideoForOneRow(row, folder, RowSlug);
  }

  /** A one-row sheet with File `Wise.html` and a video: the page is written
      to `wise` and reached by its link, yet the script as written finds no
      row for it and leaves the video slot empty, while the corrected lookup
      fills it. */
  lemma VideoAsWrittenCounterexample(row: Row)
    requires Field(row, "File") == "Wise.html" && Field(row, "YouTube Video") != ""
    ensures VideoToInjectAsWritten(Links.Href("wise"), [row]).None?
    ensures VideoToInject(Links.Href("wise"), [row]) == Some(YouTube.PlayerVideoId(Field(row, "YouTube Video")))
  {
    WiseRowSlugs(row);
    WiseFolderShape("wise");
    AsWrittenMisses(row, "wise");
    CorrectedFinds(row, "wise");
  }

  lemma WiseFolderShape(w: string)
    requires w == "wise"
    ensures w != [] && '/' !in w && w != "Wise"
  {
    assert w[0] == 'w';
  }
}

=== FILE: PadCsv.dfy ===
/** scripts/pad_offer_csv.js: every offer row's three list columns are forced
    to a fixed number of `|`-separated segments, so that each offer page shows
    the same number of mini-cards.  Parsing and writing the spreadsheet, and
    the backup copy, are left out; a row is an already-parsed record. */
module PadCsv {
  import opened JsString
  import opened Columns

  /** The separator `padOrTrim` joins with. */
  const Bar: string := " | "

  /** `.map(s => s.trim())`. */
  function TrimAll(ps: seq<string>): (ts: seq<string>)
    ensures |ts| == |ps|
    ensures forall k :: 0 <= k < |ps| ==> ts[k] == Trim(ps[k])
  {
    seq(|ps|, k requires 0 <= k < |ps| => Trim(ps[k]))
  }

  /** `(str || '').split('|').map(s => s.trim())`: trimmed pieces without a bar. */
  function Segments(s: string): (segs: seq<string>)
    ensures |segs| >= 1
    ensures forall k :: 0 <= k < |segs| ==> IsTrimmed(segs[k]) && '|' !in segs[k]
  {
    var ps := Split(s, '|');
    forall k | 0 <= k < |ps|
      ensures '|' !in Trim(ps[k])
    {
      TrimKeepsOut(ps[k], '|');
    }
    TrimAll(ps)
  }

  /** The two array steps: push `''` while short, then cut to `count`. */
  function Fit(segs: seq<string>, count: nat): (r: seq<string>)
    ensures |r| == count
    ensures forall k :: 0 <= k < count && k < |segs| ==> r[k] == segs[k]
    ensures forall k :: |segs| <= k < count ==> r[k] == ""
  {
    if |segs| >= count then segs[..count] else segs + seq(count - |segs|, _ => "")
  }

  /** `padOrTrim(str, count)`. */
  function PadOrTrim(s: string, count: nat): (r: string)
    ensures count >= 1 ==> Segments(r) == Fit(Segments(s), count)
  {
    var segs := Fit(Segments(s), count);
    if count >= 1 then
      SegmentsOfJoin(segs);
      Join(segs, Bar)
    else
      Join(segs, Bar)
  }

  /** Splitting after a bar-free prefix and its bar. */
  lemma {:induction false} SplitAfter(a: string, b: string)
    requires '|' !in a
    ensures Split(a + "|" + b, '|') == [a] + Split(b, '|')
    decreases |a|
  {
    var s := a + "|" + b;
    if a == [] {
      assert s[0] == '|' && s[1..] == b;
    } else {
      assert s[0] == a[0] && s[1..] == a[1..] + "|" + b;
      assert '|' !in a[1..] by {
        assert forall x :: x in a[1..] ==> x in a;
      }
      SplitAfter(a[1..], b);
      assert [a[0]] + a[1..] == a;
    }
  }

  /** A `' | '`-join of two or more parts, cut at its first bar. */
  lemma BarJoinCons(parts: seq<string>)
    requires |parts| >= 2
    ensures Join(parts, Bar) == (parts[0] + " ") + "|" + (" " + Join(parts[1..], Bar))
  {
  }

  /** A leading space joins the first piece. */
  lemma SplitOfSpaced(t: string)
    ensures Split(" " + t, '|') == [" " + Split(t, '|')[0]] + Split(t, '|')[1..]
  {
    var s := " " + t;
    assert s[0] == ' ' && s[1..] == t;
  }

  /** The pieces of a two-or-more-part join: the first part with a trailing
      space, then the pieces of the rest with a leading space on the first. */
  lemma SplitOfBarCons(parts: seq<string>)
    requires |parts| >= 2 && '|' !in parts[0]
    ensures var sr := Split(Join(parts[1..], Bar), '|');
            Split(Join(parts, Bar), '|') == [parts[0] + " "] + ([" " + sr[0]] + sr[1..])
  {
    var jr := Join(parts[1..], Bar);
    BarJoinCons(parts);
    assert '|' !in parts[0] + " ";
    SplitAfter(parts[0] + " ", " " + jr);
    SplitOfSpaced(jr);
  }

  /** The piece `split('|')` finds for part `k` of `n`. */
  function Piece(part: string, k: nat, n: nat): string {
    (if k == 0 then "" else " ") + part + (if k == n - 1 then "" else " ")
  }

  /** The pieces `split('|')` finds in a `' | '`-join: each part with the
      spaces around its bars. */
  lemma {:induction false} SplitOfBarJoin(parts: seq<string>)
    requires |parts| >= 1
    requires forall k :: 0 <= k < |parts| ==> '|' !in parts[k]
    ensures |Split(Join(parts, Bar), '|')| == |parts|
    ensures forall k :: 0 <= k < |parts| ==> Split(Join(parts, Bar), '|')[k] == Piece(parts[k], k, |parts|)
    decreases |parts|
  {
    if |parts| == 1 {
      SplitOfJoin(parts, '|');
      assert Piece(parts[0], 0, 1) == parts[0];
    } else {
      var rest := parts[1..];
      SplitOfBarJoin(rest);
      SplitOfBarCons(parts);
      ConsPieces(parts, Split(Join(parts, Bar), '|'), Split(Join(rest, Bar), '|'));
    }
  }

  /** Index bookkeeping for the step of `SplitOfBarJoin`. */
  lemma ConsPieces(parts: seq<string>, whole: seq<string>, sr: seq<string>)
    requires |parts| >= 2 && |sr| == |parts| - 1
    requires forall k :: 0 <= k < |sr| ==> sr[k] == Piece(parts[k + 1], k, |sr|)
    requires whole == [parts[0] + " "] + ([" " + sr[0]] + sr[1..])
    ensures |whole| == |parts|
    ensures forall k :: 0 <= k < |parts| ==> whole[k] == Piece(parts[k], k, |parts|)
  {
    forall k | 0 <= k < |parts|
      ensures whole[k] == Piece(parts[k], k, |parts|)
    {
      if k == 1 {
        assert sr[0] == Piece(parts[1], 0, |sr|);
      } else if k > 1 {
        assert whole[k] == sr[k - 1] == Piece(parts[k], k - 1, |sr|);
      }
    }
  }

  lemma TrimOfPiece(part: string, k: nat, n: nat)
    requires IsTrimmed(part)
    ensures Trim(Piece(part, k, n)) == part
  {
    var lead: string := if k == 0 then "" else " ";
    var trail: string := if k == n - 1 then "" else " ";
    assert AllSpace(lead) && AllSpace(trail);
    TrimOfPadded(lead, part, trail);
  }

  /** Trimmed, bar-free segments come back from their `' | '`-join. */
  lemma SegmentsOfJoin(parts: seq<string>)
    requires |parts| >= 1
    requires forall k :: 0 <= k < |parts| ==> IsTrimmed(parts[k]) && '|' !in parts[k]
    ensures Segments(Join(parts, Bar)) == parts
  {
    SplitOfBarJoin(parts);
    TrimAllOfPieces(Split(Join(parts, Bar), '|'), parts);
  }

  lemma TrimAllOfPieces(ps: seq<string>, parts: seq<string>)
    requires |ps| == |parts|
    requires forall k :: 0 <= k < |parts| ==> IsTrimmed(parts[k]) && ps[k] == Piece(parts[k], k, |parts|)
    ensures TrimAll(ps) == parts
  {
    forall k | 0 <= k < |parts|
      ensures Trim(ps[k]) == parts[k]
    {
      TrimOfPiece(parts[k], k, |parts|);
    }
  }

  /** For `count >= 1`, the result splits back into exactly `count` segments:
      the first trimmed input segments in order, then empty ones. */
  lemma PadOrTrimSegments(s: string, count: nat)
    requires count >= 1
    ensures Segments(PadOrTrim(s, count)) == Fit(Segments(s), count)
    ensures |Split(PadOrTrim(s, count), '|')| == count
    ensures forall k :: 0 <= k < count && k < |Segments(s)| ==> Segments(PadOrTrim(s, count))[k] == Segments(s)[k]
    ensures forall k :: |Segments(s)| <= k < count ==> Segments(PadOrTrim(s, count))[k] == ""
  {
    SegmentsOfJoin(Fit(Segments(s), count));
  }

  /** Padding already padded text changes nothing. */
  lemma PadOrTrimIdempotent(s: string, count: nat)
    ensures PadOrTrim(PadOrTrim(s, count), count) == PadOrTrim(s, count)
  {
    if count >= 1 {
      PadOrTrimSegments(s, count);
      var segs := Fit(Segments(s), count);
      assert Fit(segs, count) == segs;
    }
  }

  /** Segments past `count` are dropped: text after the `count`-th bar has no
      effect. */
  lemma ExtraSegmentsDropped(a: string, b: string, count: nat)
    requires count >= 1
    requires |Split(a, '|')| == count
    ensures PadOrTrim(a + "|" + b, count) == PadOrTrim(a, count)
  {
    SplitJoinAppend(a, b);
    TrimAllAppend(Split(a, '|'), Split(b, '|'));
    FitOfLonger(Segments(a), Segments(b), count);
  }

  lemma TrimAllAppend(xs: seq<string>, ys: seq<string>)
    ensures TrimAll(xs + ys) == TrimAll(xs) + TrimAll(ys)
  {
  }

  lemma FitOfLonger(xs: seq<string>, ys: seq<string>, count: nat)
    requires |xs| == count
    ensures Fit(xs + ys, count) == Fit(xs, count)
  {
    assert (xs + ys)[..count] == xs;
  }

  /** The pieces of `a + "|" + b` start with the pieces of `a`. */
  lemma SplitJoinAppend(a: string, b: string)
    ensures Split(a + "|" + b, '|') == Split(a, '|') + Split(b, '|')
  {
    var pa := Split(a, '|');
    var pb := Split(b, '|');
    JoinConcat(pa, pb);
    assert a + "|" + b == Join(pa + pb, "|");
    SplitOfJoin(pa + pb, '|');
  }

  lemma JoinConcat(xs: seq<string>, ys: seq<string>)
    requires |xs| >= 1 && |ys| >= 1
    ensures Join(xs + ys, "|") == Join(xs, "|") + "|" + Join(ys, "|")
  {
    JoinSplitAt(xs + ys, |xs|, "|");
    assert (xs + ys)[..|xs|] == xs;
    assert (xs + ys)[|xs|..] == ys;
  }

  /** An empty or missing cell becomes `count` empty segments. */
  lemma EmptyCell(empty: string)
    requires empty == ""
    ensures PadOrTrim(empty, 3) == " |  | "
    ensures PadOrTrim(empty, 6) == " |  |  |  |  | "
  {
    assert Split(empty, '|') == [""];
    assert Segments(empty) == [""];
    assert Fit([""], 3) == ["", "", ""];
    assert Fit([""], 6) == ["", "", "", "", "", ""];
    assert PadOrTrim(empty, 3) == Join(["", "", ""], Bar);
    assert PadOrTrim(empty, 6) == Join(["", "", "", "", "", ""], Bar);
    EmptyJoins();
  }

  /** The bar joins of two to six empty segments. */
  lemma EmptyJoins()
    ensures Join(["", "", ""], Bar) == " |  | "
    ensures Join(["", "", "", "", "", ""], Bar) == " |  |  |  |  | "
  {
    var e2, e3, e4, e5, e6 := ["", ""], ["", "", ""], ["", "", "", ""], ["", "", "", "", ""], ["", "", "", "", "", ""];
    assert e2[1..] == [""] && e3[1..] == e2 && e4[1..] == e3 && e5[1..] == e4 && e6[1..] == e5;
    assert Join(e2, Bar) == " | ";
    assert Join(e3, Bar) == " |  | ";
    assert Join(e4, Bar) == " |  |  | ";
    assert Join(e5, Bar) == " |  |  |  | ";
  }

  const HowItWorks: string := "How It Works"
  const WhyChoose: string := "Why Choose"
  const Features: string := "Features"

  /** The row callback for a given `padOrTrim`: the three list columns are
      overwritten with the padded text of their cells, a missing cell read as
      empty, and every other column is kept. */
  function PadRowWith(row: Row, pad: (string, nat) -> string): (r: Row)
    ensures r.Keys == row.Keys + {HowItWorks, WhyChoose, Features}
    ensures forall c :: c in row && c !in {HowItWorks, WhyChoose, Features} ==> r[c] == row[c]
    ensures r[HowItWorks] == pad(Field(row, HowItWorks), 3)
    ensures r[WhyChoose] == pad(Field(row, WhyChoose), 6)
    ensures r[Features] == pad(Field(row, Features), 6)
  {
    row[HowItWorks := pad(Field(row, HowItWorks), 3)]
       [WhyChoose := pad(Field(row, WhyChoose), 6)]
       [Features := pad(Field(row, Features), 6)]
  }

  /** The per-row rewrite of the script. */
  function PadRow(row: Row): Row {
    PadRowWith(row, PadOrTrim)
  }

  /** After the rewrite each list column splits into its fixed number of
      segments, and every other column is as it was. */
  lemma PadRowCounts(row: Row)
    ensures |Split(PadRow(row)[HowItWorks], '|')| == 3
    ensures |Split(PadRow(row)[WhyChoose], '|')| == 6
    ensures |Split(PadRow(row)[Features], '|')| == 6
    ensures forall c :: c in row && c !in {HowItWorks, WhyChoose, Features} ==> PadRow(row)[c] == row[c]
  {
    PadOrTrimSegments(Field(row, HowItWorks), 3);
    PadOrTrimSegments(Field(row, WhyChoose), 6);
    PadOrTrimSegments(Field(row, Features), 6);
  }

  /** With an idempotent pad, the row rewrite is idempotent. */
  lemma PadRowWithIdempotent(row: Row, pad: (string, nat) -> string)
    requires forall s, c :: pad(pad(s, c), c) == pad(s, c)
    ensures PadRowWith(PadRowWith(row, pad), pad) == PadRowWith(row, pad)
  {
  }

  /** Running the script on its own output changes nothing. */
  lemma PadRowIdempotent(row: Row)
    ensures PadRow(PadRow(row)) == PadRow(row)
  {
    forall s, c
      ensures PadOrTrim(PadOrTrim(s, c), c) == PadOrTrim(s, c)
    {
      PadOrTrimIdempotent(s, c);
    }
    PadRowWithIdempotent(row, PadOrTrim);
  }
}

=== FILE: PartnerPages.dfy ===
/** generate_partner_pages.js: one page per affiliate program, written to
    `<slug>.html`.  A page is modelled by the values it shows that the script
    computes (title, meta description, video embed, description paragraphs,
    referral link); the template text around them and the file writes are
    left out. */
module PartnerPages {
  import opened JsString
  import opened Columns
  import LastWins
  import Slugs
  import YouTube

  /** What `/\.|\n/` matches. */
  predicate IsBreak(c: char) {
    c == '.' || c == '\n'
  }

  /** `.split(/\.|\n/)[0]`: the text before the first full stop or newline. */
  function FirstSentence(s: string): (r: string)
    ensures |r| <= |s| && r == s[..|r|]
    ensures forall i :: 0 <= i < |r| ==> !IsBreak(r[i])
    ensures |r| == |s| || IsBreak(s[|r|])
    decreases |s|
  {
    if s == [] || IsBreak(s[0]) then [] else [s[0]] + FirstSentence(s[1..])
  }

  /** The first sentence of a sentence followed by a break and anything is
      that sentence; text without a break is its own first sentence. */
  lemma FirstSentenceOf(a: string, b: char, c: string)
    requires forall i :: 0 <= i < |a| ==> !IsBreak(a[i])
    requires IsBreak(b)
    ensures FirstSentence(a + [b] + c) == a
    ensures FirstSentence(a) == a
  {
    assert (a + [b] + c)[|a|] == b;
    assert (a + [b] + c)[..|a|] == a;
  }

  /** `.replace(/"/g, '&quot;')`. */
  function EscapeQuotes(t: string): (r: string)
    ensures '"' !in r
    ensures '"' !in t ==> r == t
    decreases |t|
  {
    if t == [] then []
    else (if t[0] == '"' then "&quot;" else [t[0]]) + EscapeQuotes(t[1..])
  }

  /** What a browser reads back from the attribute for the one entity the
      script writes: every `&quot;` is a quote. */
  function DecodeQuot(r: string): string
    decreases |r|
  {
    if r == [] then []
    else if |r| >= 6 && r[..6] == "&quot;" then "\"" + DecodeQuot(r[6..])
    else [r[0]] + DecodeQuot(r[1..])
  }

  /** Text without an `&` reads back as written.  (An `&` in the text is not
      escaped, so `&quot;` typed into a description reads back as a quote.) */
  lemma {:induction false} DecodeEscape(t: string)
    requires '&' !in t
    ensures DecodeQuot(EscapeQuotes(t)) == t
    decreases |t|
  {
    if t != [] {
      var e := EscapeQuotes(t[1..]);
      assert '&' !in t[1..] by {
        assert forall x :: x in t[1..] ==> x in t;
      }
      DecodeEscape(t[1..]);
      if t[0] == '"' {
        DecodeEntity(e);
      } else {
        DecodePlain(t[0], e);
      }
      assert t == [t[0]] + t[1..];
    }
  }

  /** An entity reads back as a quote. */
  lemma DecodeEntity(e: string)
    ensures DecodeQuot("&quot;" + e) == "\"" + DecodeQuot(e)
  {
    var r := "&quot;" + e;
    assert r[..6] == "&quot;" && r[6..] == e;
  }

  /** Any character but `&` reads back as itself. */
  lemma DecodePlain(c: char, e: string)
    requires c != '&'
    ensures DecodeQuot([c] + e) == [c] + DecodeQuot(e)
  {
    var r := [c] + e;
    assert r[0] == c;
    assert r[1..] == e;
  }

  /** The meta description: the first sentence of the Description cell (empty
      when missing), with its quotes escaped. */
  function MetaDescription(desc: string): (m: string)
    ensures '"' !in m
  {
    EscapeQuotes(FirstSentence(desc))
  }

  /** A description without an `&` shows its first sentence, exactly. */
  lemma MetaReadsFirstSentence(desc: string)
    requires '&' !in desc
    ensures DecodeQuot(MetaDescription(desc)) == FirstSentence(desc)
  {
    var first := FirstSentence(desc);
    assert forall x :: x in first ==> x in desc;
    DecodeEscape(first);
  }

  /** The values a partner page shows that the script computes. */
  datatype PartnerPage = PartnerPage(
    program: string,
    meta: string,
    embed: YouTube.Embed,
    paragraphs: seq<string>,
    referral: string)

  /** `htmlTemplate(partner)`: the description's lines become paragraphs. */
  function Render(row: Row): (p: PartnerPage)
    ensures p.program == Field(row, "Affiliate Program")
    ensures '"' !in p.meta
    ensures Join(p.paragraphs, "\n") == Field(row, "Description")
    ensures forall k :: 0 <= k < |p.paragraphs| ==> '\n' !in p.paragraphs[k]
    ensures p.embed == YouTube.PartnerEmbed(Field(row, "Video"))
    ensures p.meta == MetaDescription(Field(row, "Description"))
    ensures p.referral == Field(row, "Referral Link")
  {
    var desc := Field(row, "Description");
    PartnerPage(Field(row, "Affiliate Program"), MetaDescription(desc),
                YouTube.PartnerEmbed(Field(row, "Video")), Split(desc, '\n'),
                Field(row, "Referral Link"))
  }

  /** The file a row is written to: the slug of its program, then `.html`. */
  function FileOf(row: Row): (f: string)
    ensures |f| >= 5 && f[|f| - 5..] == ".html"
    ensures f[..|f| - 5] == Slugs.Slugify(Field(row, "Affiliate Program"))
  {
    var slug := Slugs.Slugify(Field(row, "Affiliate Program"));
    assert (slug + ".html")[..|slug|] == slug;
    Slugs.PageFileName(Field(row, "Affiliate Program"))
  }

  /** The files `main` leaves behind: one per distinct file name, holding the
      page of the last row written to it. */
  function Outputs(rows: seq<Row>): (files: map<string, PartnerPage>)
    ensures files.Keys == set row | row in rows :: FileOf(row)
    ensures forall k :: 0 <= k < |rows| && LastWins.IsLast(rows, FileOf, k) ==>
              files[FileOf(rows[k])] == Render(rows[k])
  {
    var index := LastWins.Index(rows, FileOf);
    map f | f in index :: Render(index[f])
  }

  /** Every output name is a slug followed by `.html`. */
  lemma OutputNamesAreSlugs(rows: seq<Row>, f: string)
    requires f in Outputs(rows)
    ensures |f| >= 5 && f[|f| - 5..] == ".html" && Slugs.IsSlug(f[..|f| - 5])
  {
    var row :| row in rows && FileOf(row) == f;
    assert f[..|f| - 5] == Slugs.Slugify(Field(row, "Affiliate Program"));
  }

  /** Two programs whose names slugify alike share a file, and the later one
      is the page left in it. */
  lemma LaterProgramOverwrites(rows: seq<Row>, i: int, j: int)
    requires 0 <= i < j < |rows|
    requires Slugs.Slugify(Field(rows[i], "Affiliate Program")) == Slugs.Slugify(Field(rows[j], "Affiliate Program"))
    requires LastWins.IsLast(rows, FileOf, j)
    ensures Outputs(rows)[FileOf(rows[i])] == Render(rows[j])
  {
    assert FileOf(rows[i]) == FileOf(rows[j]);
  }
}

=== FILE: Slugs.dfy ===
/** `slugify` in generate_partner_pages.js: lower-case, turn every run of
    characters outside `[a-z0-9]` into one `-`, then drop dashes at either end. */
module Slugs {
  import opened JsString

  predicate IsSlugChar(c: char) {
    IsLowerAlnum(c) || c == '-'
  }

  predicate NoDoubleDash(s: string) {
    forall i :: 0 <= i < |s| - 1 ==> !(s[i] == '-' && s[i + 1] == '-')
  }

  /** The shape of every slug: `[a-z0-9-]` only, no `--`, no dash at either end. */
  predicate IsSlug(s: string) {
    && (forall i :: 0 <= i < |s| ==> IsSlugChar(s[i]))
    && NoDoubleDash(s)
    && (s == [] || (s[0] != '-' && s[|s| - 1] != '-'))
  }

  /** Drops the leading run of characters outside `[a-z0-9]`. */
  function SkipRun(s: string): (r: string)
    ensures |r| <= |s| && r == s[|s| - |r|..]
    ensures r == [] || IsLowerAlnum(r[0])
    decreases |s|
  {
    if s != [] && !IsLowerAlnum(s[0]) then SkipRun(s[1..]) else s
  }

  /** `.replace(/[^a-z0-9]+/g, '-')`. */
  function Collapse(s: string): (r: string)
    ensures forall i :: 0 <= i < |r| ==> IsSlugChar(r[i])
    ensures NoDoubleDash(r)
    ensures r == [] <==> s == []
    ensures r != [] ==> (r[0] == '-' <==> !IsLowerAlnum(s[0]))
    decreases |s|
  {
    if s == [] then []
    else if IsLowerAlnum(s[0]) then [s[0]] + Collapse(s[1..])
    else "-" + Collapse(SkipRun(s[1..]))
  }

  function DropLeadingDashes(s: string): (r: string)
    ensures |r| <= |s| && r == s[|s| - |r|..]
    ensures r == [] || r[0] != '-'
    decreases |s|
  {
    if s != [] && s[0] == '-' then DropLeadingDashes(s[1..]) else s
  }

  function DropTrailingDashes(s: string): (r: string)
    ensures |r| <= |s| && r == s[..|r|]
    ensures r == [] || r[|r| - 1] != '-'
    decreases |s|
  {
    if s != [] && s[|s| - 1] == '-' then DropTrailingDashes(s[..|s| - 1]) else s
  }

  /** `slugify(str)`: the result is always a well-formed slug. */
  function Slugify(s: string): (r: string)
    ensures IsSlug(r)
  {
    var c := Collapse(Lower(s));
    var a := DropLeadingDashes(c);
    SliceKeepsSlugChars(c, |c| - |a|, |c|);
    var r := DropTrailingDashes(a);
    SliceKeepsSlugChars(a, 0, |r|);
    r
  }

  lemma SliceKeepsSlugChars(c: string, i: int, j: int)
    requires 0 <= i <= j <= |c|
    requires forall k :: 0 <= k < |c| ==> IsSlugChar(c[k])
    requires NoDoubleDash(c)
    ensures forall k :: 0 <= k < j - i ==> IsSlugChar(c[i..j][k])
    ensures NoDoubleDash(c[i..j])
  {
    assert forall k :: 0 <= k < j - i ==> c[i..j][k] == c[i + k];
  }

  lemma {:induction false} CollapseOfSlugChars(t: string)
    requires forall i :: 0 <= i < |t| ==> IsSlugChar(t[i])
    requires NoDoubleDash(t)
    requires t == [] || t[|t| - 1] != '-'
    ensures Collapse(t) == t
    decreases |t|
  {
    if t != [] {
      if IsLowerAlnum(t[0]) {
        CollapseOfSlugChars(t[1..]);
      } else {
        assert t[0] == '-';
        assert |t| >= 2 && IsLowerAlnum(t[1]);
        assert SkipRun(t[1..]) == t[1..];
        CollapseOfSlugChars(t[1..]);
      }
    }
  }

  /** A slug is its own slug. */
  lemma SlugifyOfSlug(t: string)
    requires IsSlug(t)
    ensures Slugify(t) == t
  {
    assert IsLower(t);
    LowerIsLower(t);
    CollapseOfSlugChars(t);
  }

  /** `slugify` is idempotent. */
  lemma SlugifyIdempotent(s: string)
    ensures Slugify(Slugify(s)) == Slugify(s)
  {
    SlugifyOfSlug(Slugify(s));
  }

  /** The partner pages' output file name: the program's slug plus `.html`. */
  function PageFileName(program: string): (f: string)
    ensures |f| >= 5 && f[|f| - 5..] == ".html"
    ensures IsSlug(f[..|f| - 5])
  {
    var slug := Slugify(program);
    assert (slug + ".html")[..|slug|] == slug;
    slug + ".html"
  }
}

=== FILE: Wrappers.dfy ===
/** The optional value used wherever the scripts read a value that may be
    `undefined` (a missing column, a regex that did not match). */
module Wrappers {

  datatype Option<+T> = None | Some(value: T) {

    /** The value, or `default` when there is none (JavaScript's `x || default`
        for a value that is never falsy when present). */
    function GetOr(default: T): T {
      match this
      case Some(v) => v
      case None => default
    }
  }
}

=== FILE: YouTube.dfy ===
/** The three ways the scripts pull a YouTube video id out of a URL:
    `getYouTubeEmbedHtml` in scripts/update_site.js, `getVideoEmbed` in
    generate_partner_pages.js, and the id match in
    public/scripts/inject-offer-video.js.  Each regex is modelled as a
    left-to-right search for the leftmost start position, trying the
    alternatives at that position in the order the regex lists them. */
module YouTube {
  import opened Wrappers
  import opened JsString

  /** `[\w-]`: ASCII letters, digits, `_` and `-`. */
  predicate IsIdChar(c: char) {
    'a' <= c <= 'z' || 'A' <= c <= 'Z' || '0' <= c <= '9' || c == '_' || c == '-'
  }

  predicate AllIdChars(s: string) {
    forall i :: 0 <= i < |s| ==> IsIdChar(s[i])
  }

  /** `[\w-]{11}` matches at position `p`. */
  predicate IdAt(s: string, p: int) {
    0 <= p && p + 11 <= |s| && AllIdChars(s[p..p + 11])
  }

  /** `/youtube\.com|youtu\.be/.test(url)` (`isYouTube`). */
  predicate IsYouTube(url: string) {
    Contains(url, "youtube.com") || Contains(url, "youtu.be")
  }

  /** A URL is a YouTube one exactly when one of the two host names occurs in
      it, anywhere. */
  lemma IsYouTubeIff(url: string)
    ensures IsYouTube(url) <==>
            exists i :: OccursAt(url, "youtube.com", i) || OccursAt(url, "youtu.be", i)
  {
    if exists i :: OccursAt(url, "youtube.com", i) || OccursAt(url, "youtu.be", i) {
      var i :| OccursAt(url, "youtube.com", i) || OccursAt(url, "youtu.be", i);
      if OccursAt(url, "youtube.com", i) {
        ContainsWitness(url, "youtube.com", i);
      } else {
        ContainsWitness(url, "youtu.be", i);
      }
    }
  }

  // ---------------------------------------------------------------------------
  // `s.match(re)`: the leftmost position where the regex matches, and what it
  // captures there
  // ---------------------------------------------------------------------------

  /** A regex tried at one position: where its group starts, or `None`. */
  type Matcher = (string, nat) -> Option<nat>

  /** `k` is the leftmost position at or after `i` where `m` matches. */
  predicate FirstMatch(s: string, i: nat, k: nat, m: Matcher) {
    i <= k <= |s| && m(s, k).Some? && forall j: nat :: i <= j < k ==> m(s, j).None?
  }

  /** The leftmost position at or after `i` where `m` matches. */
  function Leftmost(s: string, i: nat, m: Matcher): (r: Option<nat>)
    ensures r.Some? ==> FirstMatch(s, i, r.value, m)
    ensures r.None? ==> forall k: nat :: i <= k <= |s| ==> m(s, k).None?
    decreases |s| + 1 - i
  {
    if i > |s| then None
    else if m(s, i).Some? then Some(i)
    else Leftmost(s, i + 1, m)
  }

  /** The capture of the leftmost match: `None` exactly when `m` matches
      nowhere, and otherwise what `m` captures at the leftmost match. */
  function Search(s: string, i: nat, m: Matcher): (r: Option<nat>)
    ensures r.None? <==> forall k: nat :: i <= k <= |s| ==> m(s, k).None?
    ensures forall k: nat :: FirstMatch(s, i, k, m) ==> r == m(s, k)
  {
    match Leftmost(s, i, m)
    case None => None
    case Some(k) => m(s, k)
  }

  /** Positions where `m` cannot match do not change the search. */
  lemma SearchSkips(s: string, i: nat, j: nat, m: Matcher)
    requires i <= j <= |s|
    requires forall k: nat :: i <= k < j ==> m(s, k).None?
    ensures Search(s, i, m) == Search(s, j, m)
  {
    match Leftmost(s, j, m)
    case None =>
    case Some(k) =>
      assert FirstMatch(s, i, k, m);
  }

  // ---------------------------------------------------------------------------
  // scripts/update_site.js:
  //   /(?:youtu\.be\/|youtube\.com\/(?:watch\?v=|embed\/|v\/|shorts\/|.+\?v=))([\w-]{11})/
  // ---------------------------------------------------------------------------

  /** End of the run of non-line-terminators starting at `j` (how far `.+` can reach). */
  function LineEnd(s: string, j: nat): (e: nat)
    requires j <= |s|
    ensures j <= e <= |s|
    ensures forall k :: j <= k < e ==> !IsLineTerminator(s[k])
    ensures e == |s| || IsLineTerminator(s[e])
    decreases |s| - j
  {
    if j == |s| || IsLineTerminator(s[j]) then j else LineEnd(s, j + 1)
  }

  /** `.+\?v=([\w-]{11})` from `j`: greedy `.+` backs off from its longest
      reach, so the `?v=` that wins is the last one that still has an id after it. */
  function GreedyQueryV(s: string, j: nat, k: nat): (r: Option<nat>)
    ensures r.Some? ==> j < r.value - 3 <= k && OccursAt(s, "?v=", r.value - 3) && IdAt(s, r.value)
    ensures r.Some? ==> forall m :: r.value - 3 < m <= k ==> !(OccursAt(s, "?v=", m) && IdAt(s, m + 3))
    ensures r.None? ==> forall m :: j < m <= k ==> !(OccursAt(s, "?v=", m) && IdAt(s, m + 3))
    decreases k
  {
    if k <= j then None
    else if OccursAt(s, "?v=", k) && IdAt(s, k + 3) then Some(k + 3)
    else GreedyQueryV(s, j, k - 1)
  }

  /** Where the site regex captures its id when it is tried at position `i`. */
  function SiteMatchAt(s: string, i: nat): (r: Option<nat>)
    ensures r.Some? ==> IdAt(s, r.value)
    ensures r.Some? ==> OccursAt(s, "youtu.be/", i) || OccursAt(s, "youtube.com/", i)
  {
    if OccursAt(s, "youtu.be/", i) && IdAt(s, i + 9) then Some(i + 9)
    else if OccursAt(s, "youtube.com/", i) then
      var j := i + 12;
      if OccursAt(s, "watch?v=", j) && IdAt(s, j + 8) then Some(j + 8)
      else if OccursAt(s, "embed/", j) && IdAt(s, j + 6) then Some(j + 6)
      else if OccursAt(s, "v/", j) && IdAt(s, j + 2) then Some(j + 2)
      else if OccursAt(s, "shorts/", j) && IdAt(s, j + 7) then Some(j + 7)
      else GreedyQueryV(s, j, LineEnd(s, j))
    else None
  }

  /** `url.match(...)` for the site regex: the id position of the leftmost match. */
  function SiteSearch(s: string, i: nat): (r: Option<nat>)
    ensures r.Some? ==> IdAt(s, r.value) && IsYouTube(s)
    ensures r.None? <==> forall k: nat :: i <= k <= |s| ==> SiteMatchAt(s, k).None?
    ensures forall k: nat :: FirstMatch(s, i, k, SiteMatchAt) ==> r == SiteMatchAt(s, k)
  {
    var r := Search(s, i, SiteMatchAt);
    if r.Some? then
      HostAtMeansYouTube(s, Leftmost(s, i, SiteMatchAt).value);
      r
    else r
  }

  lemma HostAtMeansYouTube(s: string, i: nat)
    requires OccursAt(s, "youtu.be/", i) || OccursAt(s, "youtube.com/", i)
    ensures IsYouTube(s)
  {
    if OccursAt(s, "youtu.be/", i) {
      assert s[i..i + 8] == s[i..i + 9][..8];
      ContainsWitness(s, "youtu.be", i);
    } else {
      assert s[i..i + 11] == s[i..i + 12][..11];
      ContainsWitness(s, "youtube.com", i);
    }
  }

  /** `url.split('v=')[1]?.substring(0, 11) || ''`: the text between the first
      and the second `v=` (or the end), cut to 11 characters. */
  function QueryVFallback(url: string): (r: string)
    ensures |r| <= 11
    ensures r != [] ==> exists p :: OccursAt(url, "v=", p) && OccursAt(url, r, p + 2)
    ensures IndexOf(url, "v=").None? ==> r == ""
    ensures IndexOf(url, "v=").Some? ==> OccursAt(url, r, IndexOf(url, "v=").value + 2)
  {
    match IndexOf(url, "v=")
    case None => ""
    case Some(p) =>
      var rest := url[p + 2..];
      var seg := match IndexOf(rest, "v=") case None => rest case Some(q) => rest[..q];
      var r := if |seg| <= 11 then seg else seg[..11];
      assert url[p + 2..p + 2 + |r|] == r;
      r
  }

  /** The fallback takes the segment between the first `v=` and the next one
      (or the end), cut to 11 characters. */
  lemma QueryVFallbackOf(pre: string, seg: string, tail: string)
    requires forall k :: !OccursAt(pre, "v=", k)
    requires forall k :: !OccursAt(seg, "v=", k)
    requires tail == [] || (|tail| >= 2 && tail[..2] == "v=")
    ensures QueryVFallback(pre + "v=" + seg + tail) == if |seg| <= 11 then seg else seg[..11]
  {
    var url := pre + "v=" + seg + tail;
    var mid := "v=" + (seg + tail);
    assert url == pre + mid;
    FirstVEqAt(pre, mid);
    SplitAfterPrefix(pre, mid, 2);
    var rest := url[|pre| + 2..];
    assert rest == seg + tail;
    if tail == [] {
      assert rest == seg;
    } else {
      FirstVEqAt(seg, tail);
      assert rest[..|seg|] == seg;
    }
  }

  /** When `a` holds no `v=` and `b` starts with one, the first `v=` of
      `a + b` is where `b` starts. */
  lemma FirstVEqAt(a: string, b: string)
    requires forall k :: !OccursAt(a, "v=", k)
    requires |b| >= 2 && b[..2] == "v="
    ensures IndexOf(a + b, "v=") == Some(|a|)
  {
    NoVEqBefore(a, b);
    SplitAfterPrefix(a, b, 2);
    IndexOfFirst(a + b, "v=", |a|);
  }

  /** Slicing past a prefix: the next `k` characters and the rest. */
  lemma SplitAfterPrefix(a: string, b: string, k: nat)
    requires k <= |b|
    ensures (a + b)[|a|..|a| + k] == b[..k]
    ensures (a + b)[|a| + k..] == b[k..]
  {
  }

  /** A `v=` cannot start inside `a` when `a` holds none and `b` does not
      begin with `=`. */
  lemma NoVEqBefore(a: string, b: string)
    requires forall k :: !OccursAt(a, "v=", k)
    requires b != [] && b[0] != '='
    ensures forall j :: 0 <= j < |a| ==> !OccursAt(a + b, "v=", j)
  {
    forall j | 0 <= j < |a|
      ensures !OccursAt(a + b, "v=", j)
    {
      if j + 2 <= |a| {
        assert (a + b)[j..j + 2] == a[j..j + 2];
        assert !OccursAt(a, "v=", j);
      } else {
        assert (a + b)[j + 1] == b[0];
      }
    }
  }

  /** The video id `getYouTubeEmbedHtml` embeds ("" means no embed). */
  function SiteVideoId(url: string): (id: string)
    ensures url == "" ==> id == ""
    ensures !IsYouTube(url) ==> id == ""
    ensures |id| <= 11
    ensures SiteSearch(url, 0).Some? ==> |id| == 11 && AllIdChars(id)
    ensures forall k: nat :: FirstMatch(url, 0, k, SiteMatchAt) ==>
              SiteMatchAt(url, k).value + 11 <= |url| &&
              id == url[SiteMatchAt(url, k).value..SiteMatchAt(url, k).value + 11]
    ensures (forall k: nat :: k <= |url| ==> SiteMatchAt(url, k).None?) && IsYouTube(url) ==>
              id == QueryVFallback(url)
  {
    match SiteSearch(url, 0)
    case Some(p) => url[p..p + 11]
    case None =>
      if url != "" && IsYouTube(url) then QueryVFallback(url) else ""
  }

  /** Positions before the first `y` cannot start a match. */
  lemma SiteSearchSkips(s: string, i: nat, j: nat)
    requires i <= j <= |s|
    requires forall k :: i <= k < j ==> s[k] != 'y'
    ensures SiteSearch(s, i) == SiteSearch(s, j)
  {
    forall k: nat | i <= k < j
      ensures SiteMatchAt(s, k).None?
    {
      assert !OccursAt(s, "youtu.be/", k) && !OccursAt(s, "youtube.com/", k) by {
        assert s[k] != 'y';
      }
    }
    SearchSkips(s, i, j, SiteMatchAt);
  }

  /** An occurrence inside `a` is an occurrence inside `a + b`. */
  lemma OccursInFront(a: string, b: string, t: string, i: nat)
    requires OccursAt(a, t, i)
    ensures OccursAt(a + b, t, i)
  {
    assert (a + b)[i..i + |t|] == a[i..i + |t|];
  }

  /** An id right after the prefix `a` is an id match there. */
  lemma IdAfterPrefix(a: string, id: string, rest: string)
    requires |id| == 11 && AllIdChars(id)
    ensures IdAt(a + id + rest, |a|)
    ensures (a + id + rest)[|a|..|a| + 11] == id
  {
    assert (a + id + rest)[|a|..|a| + 11] == id;
  }

  /** Positions of the prefix `a` that hold no `y` hold none in `a + b` either. */
  lemma NoYInFront(a: string, b: string, n: nat)
    requires n <= |a| && forall k :: 0 <= k < n ==> a[k] != 'y'
    ensures forall k :: 0 <= k < n ==> (a + b)[k] != 'y'
  {
  }

  /** A standard watch URL yields exactly its 11-character id. */
  lemma SiteVideoIdOfWatchUrl(id: string, rest: string)
    requires |id| == 11 && AllIdChars(id)
    ensures SiteVideoId("https://www.youtube.com/watch?v=" + id + rest) == id
  {
    var p := "https://www.youtube.com/watch?v=";
    var s := p + id + rest;
    assert s == p + (id + rest);
    assert forall k :: 0 <= k < 12 ==> p[k] != 'y';
    NoYInFront(p, id + rest, 12);
    SiteSearchSkips(s, 0, 12);
    WatchUrlMatchesAt12(id, rest);
    assert FirstMatch(s, 12, 12, SiteMatchAt);
    IdAfterPrefix(p, id, rest);
  }

  lemma WatchUrlMatchesAt12(id: string, rest: string)
    requires |id| == 11 && AllIdChars(id)
    ensures SiteMatchAt("https://www.youtube.com/watch?v=" + id + rest, 12) == Some(32)
  {
    var p := "https://www.youtube.com/watch?v=";
    var s := p + id + rest;
    assert s == p + (id + rest);
    WatchPrefixHosts();
    OccursInFront(p, id + rest, "youtube.com/", 12);
    OccursInFront(p, id + rest, "watch?v=", 24);
    assert s[17] == p[17];
    IdAfterPrefix(p, id, rest);
  }

  /** Where the hosts and paths sit in the watch URL prefix. */
  lemma WatchPrefixHosts()
    ensures var p := "https://www.youtube.com/watch?v=";
            && |p| == 32 && p[17] == 'b' && "youtu.be/"[5] == '.'
            && OccursAt(p, "youtube.com/", 12) && OccursAt(p, "watch?v=", 24)
  {
    var p := "https://www.youtube.com/watch?v=";
    assert p[12..24] == "youtube.com/";
    assert p[24..32] == "watch?v=";
  }

  /** A standard short link yields exactly its 11-character id. */
  lemma SiteVideoIdOfShortUrl(id: string, rest: string)
    requires |id| == 11 && AllIdChars(id)
    ensures SiteVideoId("https://youtu.be/" + id + rest) == id
  {
    var p := "https://youtu.be/";
    var s := p + id + rest;
    assert s == p + (id + rest);
    assert forall k :: 0 <= k < 8 ==> p[k] != 'y';
    NoYInFront(p, id + rest, 8);
    SiteSearchSkips(s, 0, 8);
    ShortUrlMatchesAt8(id, rest);
    assert FirstMatch(s, 8, 8, SiteMatchAt);
    IdAfterPrefix(p, id, rest);
  }

  lemma ShortUrlMatchesAt8(id: string, rest: string)
    requires |id| == 11 && AllIdChars(id)
    ensures SiteMatchAt("https://youtu.be/" + id + rest, 8) == Some(17)
  {
    var p := "https://youtu.be/";
    var s := p + id + rest;
    assert s == p + (id + rest);
    assert |p| == 17 && p[8..17] == "youtu.be/";
    OccursInFront(p, id + rest, "youtu.be/", 8);
    IdAfterPrefix(p, id, rest);
  }

  // ---------------------------------------------------------------------------
  // public/scripts/inject-offer-video.js:
  //   /(?:youtu\.be\/|youtube\.com\/(?:watch\?v=|embed\/|v\/))([\w-]{11})/
  // ---------------------------------------------------------------------------

  function PlayerMatchAt(s: string, i: nat): (r: Option<nat>)
    ensures r.Some? ==> IdAt(s, r.value)
  {
    if OccursAt(s, "youtu.be/", i) && IdAt(s, i + 9) then Some(i + 9)
    else if OccursAt(s, "youtube.com/", i) then
      var j := i + 12;
      if OccursAt(s, "watch?v=", j) && IdAt(s, j + 8) then Some(j + 8)
      else if OccursAt(s, "embed/", j) && IdAt(s, j + 6) then Some(j + 6)
      else if OccursAt(s, "v/", j) && IdAt(s, j + 2) then Some(j + 2)
      else None
    else None
  }

  /** `youtubeUrl.match(...)` for the player regex: the id position of the
      leftmost match. */
  function PlayerSearch(s: string, i: nat): (r: Option<nat>)
    ensures r.Some? ==> IdAt(s, r.value)
    ensures r.None? <==> forall k: nat :: i <= k <= |s| ==> PlayerMatchAt(s, k).None?
    ensures forall k: nat :: FirstMatch(s, i, k, PlayerMatchAt) ==> r == PlayerMatchAt(s, k)
  {
    Search(s, i, PlayerMatchAt)
  }

  /** `idMatch ? idMatch[1] : youtubeUrl`: the 11-character id when the regex
      matches, otherwise the whole URL string. */
  function PlayerVideoId(url: string): (id: string)
    ensures PlayerSearch(url, 0).Some? ==> |id| == 11 && AllIdChars(id)
    ensures PlayerSearch(url, 0).None? ==> id == url
    ensures forall k: nat :: FirstMatch(url, 0, k, PlayerMatchAt) ==>
              PlayerMatchAt(url, k).value + 11 <= |url| &&
              id == url[PlayerMatchAt(url, k).value..PlayerMatchAt(url, k).value + 11]
  {
    match PlayerSearch(url, 0)
    case Some(p) => url[p..p + 11]
    case None => url
  }

  /** Positions before the first `y` cannot start a player match. */
  lemma PlayerSearchSkips(s: string, j: nat)
    requires j <= |s|
    requires forall k :: 0 <= k < j ==> s[k] != 'y'
    ensures forall k: nat :: k < j ==> PlayerMatchAt(s, k).None?
  {
    forall k: nat | k < j
      ensures PlayerMatchAt(s, k).None?
    {
      assert !OccursAt(s, "youtu.be/", k) && !OccursAt(s, "youtube.com/", k) by {
        assert s[k] != 'y';
      }
    }
  }

  /** The player id of a standard short link is the link's 11-character id. */
  lemma PlayerVideoIdOfShortUrl(id: string, rest: string)
    requires |id| == 11 && AllIdChars(id)
    ensures PlayerVideoId("https://youtu.be/" + id + rest) == id
  {
    var p := "https://youtu.be/";
    var s := p + id + rest;
    assert s == p + (id + rest);
    assert forall k :: 0 <= k < 8 ==> p[k] != 'y';
    NoYInFront(p, id + rest, 8);
    PlayerSearchSkips(s, 8);
    ShortUrlMatchesAt8(id, rest);
    PlayerMatchImpliesSiteMatch(s, 8);
    assert FirstMatch(s, 0, 8, PlayerMatchAt);
    IdAfterPrefix(p, id, rest);
  }

  /** The player id of a standard watch URL is the URL's 11-character id. */
  lemma PlayerVideoIdOfWatchUrl(id: string, rest: string)
    requires |id| == 11 && AllIdChars(id)
    ensures PlayerVideoId("https://www.youtube.com/watch?v=" + id + rest) == id
  {
    var p := "https://www.youtube.com/watch?v=";
    var s := p + id + rest;
    assert s == p + (id + rest);
    assert forall k :: 0 <= k < 12 ==> p[k] != 'y';
    NoYInFront(p, id + rest, 12);
    PlayerSearchSkips(s, 12);
    PlayerWatchMatchesAt12(id, rest);
    assert FirstMatch(s, 0, 12, PlayerMatchAt);
    IdAfterPrefix(p, id, rest);
  }

  lemma PlayerWatchMatchesAt12(id: string, rest: string)
    requires |id| == 11 && AllIdChars(id)
    ensures PlayerMatchAt("https://www.youtube.com/watch?v=" + id + rest, 12) == Some(32)
  {
    var p := "https://www.youtube.com/watch?v=";
    var s := p + id + rest;
    assert s == p + (id + rest);
    WatchPrefixHosts();
    OccursInFront(p, id + rest, "youtube.com/", 12);
    OccursInFront(p, id + rest, "watch?v=", 24);
    assert s[17] == p[17];
    IdAfterPrefix(p, id, rest);
  }

  /** Whatever the player regex accepts, the site regex accepts at the same
      place: the site's alternatives extend the player's. */
  lemma PlayerMatchImpliesSiteMatch(s: string, i: nat)
    requires PlayerMatchAt(s, i).Some?
    ensures SiteMatchAt(s, i) == PlayerMatchAt(s, i)
  {
  }

  // ---------------------------------------------------------------------------
  // generate_partner_pages.js:
  //   /(?:youtube\.com\/watch\?v=|youtu\.be\/)([\w-]+)/  then  /[?&]v=([\w-]+)/
  // ---------------------------------------------------------------------------

  /** End of the maximal run of `[\w-]` starting at `p` (greedy `[\w-]+`). */
  function IdRunEnd(s: string, p: nat): (e: nat)
    requires p <= |s|
    ensures p <= e <= |s|
    ensures AllIdChars(s[p..e])
    ensures e == |s| || !IsIdChar(s[e])
    decreases |s| - p
  {
    if p == |s| || !IsIdChar(s[p]) then p
    else
      var e := IdRunEnd(s, p + 1);
      assert s[p..e] == [s[p]] + s[p + 1..e];
      e
  }

  /** A non-empty maximal id run starting at `p`. */
  predicate RunAt(s: string, p: int) {
    0 <= p < |s| && IsIdChar(s[p])
  }

  function WatchOrShortMatchAt(s: string, i: nat): (r: Option<nat>)
    ensures r.Some? ==> RunAt(s, r.value)
    ensures r.Some? ==> r.value >= 9 && (s[r.value - 2..r.value] == "v=" || s[r.value - 9..r.value] == "youtu.be/")
  {
    if OccursAt(s, "youtube.com/watch?v=", i) && RunAt(s, i + 20) then
      assert s[i + 18..i + 20] == "youtube.com/watch?v="[18..];
      Some(i + 20)
    else if OccursAt(s, "youtu.be/", i) && RunAt(s, i + 9) then Some(i + 9)
    else None
  }

  /** The watch-or-short regex: the id position of the leftmost match. */
  function WatchOrShortSearch(s: string, i: nat): (r: Option<nat>)
    ensures r.Some? ==> RunAt(s, r.value)
    ensures r.Some? ==> r.value >= 9 && (s[r.value - 2..r.value] == "v=" || s[r.value - 9..r.value] == "youtu.be/")
    ensures r.None? <==> forall k: nat :: i <= k <= |s| ==> WatchOrShortMatchAt(s, k).None?
    ensures forall k: nat :: FirstMatch(s, i, k, WatchOrShortMatchAt) ==> r == WatchOrShortMatchAt(s, k)
  {
    Search(s, i, WatchOrShortMatchAt)
  }

  /** `[?&]v=([\w-]+)` tried at position `i`. */
  function QueryParamMatchAt(s: string, i: nat): (r: Option<nat>)
    ensures r.Some? ==> r.value == i + 3 && RunAt(s, r.value)
    ensures r.Some? ==> s[r.value - 2..r.value] == "v=" && s[r.value - 3] in {'?', '&'}
  {
    if i + 3 < |s| && s[i] in {'?', '&'} && s[i + 1..i + 3] == "v=" && IsIdChar(s[i + 3]) then Some(i + 3)
    else None
  }

  /** The query-parameter regex: the id position of the leftmost match. */
  function QueryParamSearch(s: string, i: nat): (r: Option<nat>)
    ensures r.Some? ==> RunAt(s, r.value)
    ensures r.Some? ==> r.value >= 3 && s[r.value - 2..r.value] == "v=" && s[r.value - 3] in {'?', '&'}
    ensures r.None? <==> forall k: nat :: i <= k <= |s| ==> QueryParamMatchAt(s, k).None?
    ensures forall k: nat :: FirstMatch(s, i, k, QueryParamMatchAt) ==> r == QueryParamMatchAt(s, k)
  {
    Search(s, i, QueryParamMatchAt)
  }

  /** `id` sits at `p` right after `v=` or `youtu.be/`, and no id character follows it. */
  predicate MaximalRunAfterMarker(url: string, id: string, p: int) {
    && p >= 2 && p + |id| <= |url| && url[p..p + |id|] == id
    && (url[p - 2..p] == "v=" || (p >= 9 && url[p - 9..p] == "youtu.be/"))
    && (p + |id| == |url| || !IsIdChar(url[p + |id|]))
  }

  /** What `getVideoEmbed` renders. */
  datatype Embed = NoEmbed | YouTubeFrame(id: string) | VideoTag(src: string)

  /** The greedy `[\w-]+` run starting at `p`. */
  function RunFrom(s: string, p: nat): (r: string)
    requires p <= |s|
    ensures AllIdChars(r) && p + |r| <= |s| && s[p..p + |r|] == r
    ensures p + |r| == |s| || !IsIdChar(s[p + |r|])
  {
    s[p..IdRunEnd(s, p)]
  }

  /** The id `getVideoEmbed` extracts from a YouTube URL ("" when none): the
      run after the leftmost watch-or-short match, and only when there is
      none, the run after the leftmost `[?&]v=`. */
  function PartnerVideoId(url: string): (id: string)
    ensures id != "" ==> AllIdChars(id)
    ensures id != "" ==> exists p :: MaximalRunAfterMarker(url, id, p)
    ensures id == "" <==> WatchOrShortSearch(url, 0).None? && QueryParamSearch(url, 0).None?
    ensures forall k: nat :: FirstMatch(url, 0, k, WatchOrShortMatchAt) ==>
              id == RunFrom(url, WatchOrShortMatchAt(url, k).value)
    ensures (forall k: nat :: k <= |url| ==> WatchOrShortMatchAt(url, k).None?) ==>
              forall k: nat :: FirstMatch(url, 0, k, QueryParamMatchAt) ==>
                id == RunFrom(url, QueryParamMatchAt(url, k).value)
  {
    var m := WatchOrShortSearch(url, 0);
    if m.Some? then
      RunAfterMarker(url, m.value);
      RunFrom(url, m.value)
    else
      var q := QueryParamSearch(url, 0);
      if q.Some? then
        RunAfterMarker(url, q.value);
        RunFrom(url, q.value)
      else ""
  }

  /** The maximal id run at a position the searches return is a non-empty id
      right after its marker. */
  lemma RunAfterMarker(url: string, p: nat)
    requires RunAt(url, p) && p >= 2
    requires url[p - 2..p] == "v=" || (p >= 9 && url[p - 9..p] == "youtu.be/")
    ensures var id := url[p..IdRunEnd(url, p)];
            id != "" && AllIdChars(id) && MaximalRunAfterMarker(url, id, p)
  {
    var e := IdRunEnd(url, p);
    assert url[p..e][0] == url[p];
  }

  /** A run of id characters that no id character follows is the greedy run. */
  lemma RunFromIsMaximalRun(s: string, p: nat, x: string)
    requires p + |x| <= |s| && s[p..p + |x|] == x && AllIdChars(x)
    requires p + |x| == |s| || !IsIdChar(s[p + |x|])
    ensures RunFrom(s, p) == x
  {
  }

  /** The watch-or-short regex matches a watch URL at its host. */
  lemma WatchOrShortMatchesAt12(id: string, rest: string)
    requires id != "" && AllIdChars(id)
    ensures WatchOrShortMatchAt("https://www.youtube.com/watch?v=" + id + rest, 12) == Some(32)
  {
    var p := "https://www.youtube.com/watch?v=";
    var s := p + id + rest;
    assert s == p + (id + rest);
    assert |p| == 32 && p[12..32] == "youtube.com/watch?v=";
    OccursInFront(p, id + rest, "youtube.com/watch?v=", 12);
    assert s[32] == id[0];
  }

  /** Positions before the first `y` cannot start a watch-or-short match. */
  lemma WatchOrShortSkips(s: string, n: nat)
    requires n <= |s| && forall k :: 0 <= k < n ==> s[k] != 'y'
    ensures forall k: nat :: k < n ==> WatchOrShortMatchAt(s, k).None?
  {
    forall k: nat | k < n
      ensures WatchOrShortMatchAt(s, k).None?
    {
      assert !OccursAt(s, "youtube.com/watch?v=", k) && !OccursAt(s, "youtu.be/", k) by {
        assert s[k] != 'y';
      }
    }
  }

  /** A leftmost watch-or-short match followed by the id run `x` yields `x`. */
  lemma PartnerVideoIdAtFirstMatch(s: string, k: nat, x: string)
    requires FirstMatch(s, 0, k, WatchOrShortMatchAt)
    requires var p := WatchOrShortMatchAt(s, k).value;
             && p + |x| <= |s| && s[p..p + |x|] == x && AllIdChars(x)
             && (p + |x| == |s| || !IsIdChar(s[p + |x|]))
    ensures PartnerVideoId(s) == x
  {
    RunFromIsMaximalRun(s, WatchOrShortMatchAt(s, k).value, x);
  }

  /** A watch URL yields its whole id run, whatever follows it. */
  lemma PartnerVideoIdOfWatchUrl(id: string, rest: string)
    requires id != "" && AllIdChars(id)
    requires rest == "" || !IsIdChar(rest[0])
    ensures PartnerVideoId("https://www.youtube.com/watch?v=" + id + rest) == id
  {
    var p := "https://www.youtube.com/watch?v=";
    var s := p + id + rest;
    assert s == p + (id + rest);
    assert forall k :: 0 <= k < 12 ==> p[k] != 'y';
    NoYInFront(p, id + rest, 12);
    WatchOrShortSkips(s, 12);
    WatchOrShortMatchesAt12(id, rest);
    assert s[32..32 + |id|] == id;
    if rest != "" {
      assert s[32 + |id|] == rest[0];
    }
    PartnerVideoIdAtFirstMatch(s, 12, id);
  }

  /** `getVideoEmbed(videoUrl)`. */
  function PartnerEmbed(url: string): (e: Embed)
    ensures url == "" ==> e == NoEmbed
    ensures url != "" && !IsYouTube(url) ==> e == VideoTag(url)
    ensures url != "" && IsYouTube(url) ==>
              (e == NoEmbed <==> PartnerVideoId(url) == "")
    ensures e.YouTubeFrame? ==> IsYouTube(url) && e.id != "" && AllIdChars(e.id)
    ensures url != "" && IsYouTube(url) && PartnerVideoId(url) != "" ==>
              e == YouTubeFrame(PartnerVideoId(url))
  {
    if url == "" then NoEmbed
    else if IsYouTube(url) then
      var id := PartnerVideoId(url);
      if id == "" then NoEmbed else YouTubeFrame(id)
    else VideoTag(url)
  }

  /** The standard watch prefix names the `youtube.com` host. */
  lemma WatchPrefixNamesHost()
    ensures OccursAt("https://www.youtube.com/watch?v=", "youtube.com", 12)
  {
    var p := "https://www.youtube.com/watch?v=";
    assert p[12..23] == "youtube.com";
  }

  /** A standard watch URL is embedded as a frame of its own id. */
  lemma PartnerEmbedOfWatchUrl(id: string, rest: string)
    requires id != "" && AllIdChars(id)
    requires rest == "" || !IsIdChar(rest[0])
    ensures PartnerEmbed("https://www.youtube.com/watch?v=" + id + rest) == YouTubeFrame(id)
  {
    var p := "https://www.youtube.com/watch?v=";
    var s := p + id + rest;
    assert s == p + (id + rest);
    WatchPrefixNamesHost();
    OccursInFront(p, id + rest, "youtube.com", 12);
    ContainsWitness(s, "youtube.com", 12);
    PartnerVideoIdOfWatchUrl(id, rest);
  }
}
